=== FILE: README.md ===
# Huffman codec, balance-weight solvers and hangman managers in Dafny

This project models three groups of small Java exercises and proves their
properties.

- **Huffman prefix-code codec.**
  - `StringOfBits` is modelled as a sequence of 0/1 integers (`Bits`).
  - The generic `BinaryTree` is an inductive `Tree<T>` (`BinaryTrees`).
  - The (symbol, frequency, code) node triple and `HuffmanTree` live in `HuffmanTrees`.
  - `HuffmanCode` is split in four modules:
    - `HuffmanCodes`: code tables, `assignCodes`, `encode`, `decode`.
    - `HuffmanBuild`: frequency table and the minimum-merge tree construction.
    - `HuffmanRebuild`: rebuilding a tree from a code table.
    - `HuffmanCodec`: the two versions of the codec object and their constructors.
- **Balance weights** (unbounded coin change).
  - `Weights`: the weight family, ascending iteration, and what a (minimal) solution is.
  - `GreedyBalance`, `RecursiveBalance`, `DynamicBalance`: the three solvers.
- **Hangman.**
  - `HangmanPatterns`: what both managers share.
  - `HangmanBasic`: the fair manager with one goal word.
  - `HangmanDevious`: the manager that keeps a largest class of candidate words.

Modelling conventions:

- Exceptions the source throws explicitly become `Result` failures.
- A null dereference the source does not guard becomes a `requires`.
- A choice the source leaves to a hash order, a priority-queue tie or a shuffle is a nondeterministic `:|` choice among the allowed values.
- Frequencies are exact `real`s.
- A weight is a positive integer.

## Model

| member | source | states |
|---|---|---|
| Bits.CharToBit | HuffmanCodeBuildv1/StringOfBits.java:251-257 | a character becomes bit 1 exactly when it is '1' |
| Bits.BooleanToBit | HuffmanCodeBuildv1/StringOfBits.java:264-270 | a boolean becomes bit 1 exactly when it is true |
| Bits.ConstrainInt | HuffmanCodeBuildv1/StringOfBits.java:277-283 | an integer becomes bit 1 exactly when it equals 1, any other value gives 0 |
| Bits.ToBitArray | HuffmanCodeBuildv1/StringOfBits.java:233-244 | one bit per character, 1 exactly at the '1' characters |
| Bits.ToString | HuffmanCodeBuildv1/StringOfBits.java:218-224 | the rendering is 0/1 text of the same length with '1' exactly at the 1 bits |
| Bits.EmptyBits | HuffmanCodeBuildv1/StringOfBits.java:21-23 | the no-argument constructor gives the empty bit string |
| Bits.FromChars | HuffmanCodeBuildv1/StringOfBits.java:42-49 | 0/1 text gives exactly those bits, and any other text gives ten 0 bits (the shared default list as long as nothing has modified it) |
| Bits.RenderThenParse | HuffmanCodeBuildv1/StringOfBits.java:42-49 | parsing the rendering of any bit string gives it back |
| Bits.ParseThenRender | HuffmanCodeBuildv1/StringOfBits.java:218-224 | rendering the bits parsed from 0/1 text gives the text back |
| Bits.AppendChar | HuffmanCodeBuildv1/StringOfBits.java:66-69 | the length grows by one, earlier bits are kept, and the new last bit is 1 exactly for '1' |
| Bits.AppendBoolean | HuffmanCodeBuildv1/StringOfBits.java:77-80 | the length grows by one, earlier bits are kept, and the new last bit is 1 exactly for true |
| Bits.AppendInt | HuffmanCodeBuildv1/StringOfBits.java:89-92 | the length grows by one, earlier bits are kept, and the new last bit is 1 exactly for 1 |
| Bits.AppendChars | HuffmanCodeBuildv1/StringOfBits.java:102-106 | the bits of the text are added after the kept old bits, 1 exactly at the '1' characters |
| Bits.AppendBits | HuffmanCodeBuildv1/StringOfBits.java:113-118 | appending another bit string gives the concatenation |
| Bits.Copy | HuffmanCodeBuildv1/StringOfBits.java:29-34 | the copy has the same length and the same bit at every position |
| Bits.CharAt | HuffmanCodeBuildv1/StringOfBits.java:127-136 | fails exactly for an index outside the bits, otherwise '0' or '1' matching the bit |
| Bits.IntAt | HuffmanCodeBuildv1/StringOfBits.java:146-151 | fails exactly for an index outside the bits, otherwise the bit as 0 or 1 |
| Bits.BooleanAt | HuffmanCodeBuildv1/StringOfBits.java:160-165 | fails exactly for an index outside the bits, otherwise true exactly for a 1 bit |
| Bits.AccessorsAgree | HuffmanCodeBuildv1/StringOfBits.java:127-165 | the three accessors fail together, and otherwise '1', 1 and true coincide |
| Bits.SetBit | HuffmanCodeBuildv1/StringOfBits.java:173-215 | fails exactly for a negative index; inside the bits only that position changes; past the end the gap is filled with 0 bits, the bit is set and the length becomes index + 1 |
| Bits.SetBitAtChar | HuffmanCodeBuildv1/StringOfBits.java:173-182 | fails exactly for a negative index; otherwise the length is the larger of the old length and index + 1, every other old position keeps its bit, the gap past the old end is filled with 0 bits, and the bit at the index is 1 exactly for '1' |
| Bits.SetBitAtInt | HuffmanCodeBuildv1/StringOfBits.java:190-199 | fails exactly for a negative index; otherwise the length is the larger of the old length and index + 1, every other old position keeps its bit, the gap past the old end is filled with 0 bits, and the bit at the index is 1 exactly for 1 |
| Bits.SetBitAtBoolean | HuffmanCodeBuildv1/StringOfBits.java:206-215 | fails exactly for a negative index; otherwise the length is the larger of the old length and index + 1, every other old position keeps its bit, the gap past the old end is filled with 0 bits, and the bit at the index is 1 exactly for true |
| BinaryTrees.MakeTree | HuffmanCode/src/BinaryTree.java:160-178 | fails exactly when the root value is absent; otherwise the root holds the value and an absent child becomes an empty child |
| BinaryTrees.MakeLeaf | HuffmanCode/src/BinaryTree.java:143-146 | fails exactly when the value is absent; otherwise a node with two empty children |
| BinaryTrees.NumberOfNodes | HuffmanCode/src/BinaryTree.java:196-208 | zero exactly for the empty tree |
| BinaryTrees.IsLeaf | HuffmanCode/src/BinaryTree.java:217-222 | fails on the empty tree; otherwise true exactly when both children are empty |
| BinaryTrees.GetValue | HuffmanCode/src/BinaryTree.java:230-235 | fails exactly on the empty tree; otherwise the root value |
| BinaryTrees.GetLeftChild | HuffmanCode/src/BinaryTree.java:242-250 | fails exactly on the empty tree; reports an empty left child as absent and otherwise returns it |
| BinaryTrees.GetRightChild | HuffmanCode/src/BinaryTree.java:257-265 | fails exactly on the empty tree; reports an empty right child as absent and otherwise returns it |
| BinaryTrees.SetValue | HuffmanCode/src/BinaryTree.java:272-277 | fails exactly on the empty tree; otherwise replaces the root value and keeps both children |
| BinaryTrees.SetLeftChild | HuffmanCode/src/BinaryTree.java:285-294 | fails exactly on the empty tree; an absent child empties the left child; the value and right child are kept |
| BinaryTrees.SetRightChild | HuffmanCode/src/BinaryTree.java:302-311 | fails exactly on the empty tree; an absent child empties the right child; the value and left child are kept |
| BinaryTrees.NumberOfLeaves | HuffmanCode/src/BinaryTree.java:318-334 | fails exactly on the empty tree; otherwise between 1 and the number of nodes |
| BinaryTrees.Height | HuffmanCode/src/BinaryTree.java:344-356 | -1 exactly for the empty tree, and always below the number of nodes |
| BinaryTrees.EmptyTreeFacts | HuffmanCode/src/BinaryTree.java:186-188 | the empty tree is empty with height -1 and no nodes, and every accessor, setter, isLeaf and numberOfLeaves fails on it |
| BinaryTrees.PreorderValues | HuffmanCode/src/BinaryTree.java:413-425 | one value per node, the root value first |
| BinaryTrees.InorderValues | HuffmanCode/src/BinaryTree.java:433-445 | one value per node, the root value right after the left subtree's values |
| BinaryTrees.PostorderValues | HuffmanCode/src/BinaryTree.java:453-465 | one value per node, the root value last |
| BinaryTrees.TraversalsArePermutations | HuffmanCode/src/BinaryTree.java:413-465 | the three value orders are permutations of one another |
| BinaryTrees.PreorderSubtrees | HuffmanCode/src/BinaryTree.java:473-486 | one non-empty subtree per node, the whole tree first |
| BinaryTrees.InorderSubtrees | HuffmanCode/src/BinaryTree.java:494-507 | one non-empty subtree per node, the whole tree right after the left subtree's ones |
| BinaryTrees.PostorderSubtrees | HuffmanCode/src/BinaryTree.java:515-528 | one non-empty subtree per node, the whole tree last |
| BinaryTrees.SubtreeTraversalsMatchValues | HuffmanCode/src/BinaryTree.java:538-549 | the root values of each subtree listing are that order's value listing |
| BinaryTrees.CompareTreesIsEquality | HuffmanCode/src/BinaryTree.java:738-775 | the recursive comparison holds exactly for trees of the same shape with equal values |
| BinaryTrees.CompareTrees | HuffmanCode/src/BinaryTree.java:738-775 | trees that compare equal have the same number of nodes and the same height, and equal root values when non-empty |
| BinaryTrees.CompareTreesReflexiveSymmetric | HuffmanCode/src/BinaryTree.java:373-381 | tree equality is reflexive and symmetric |
| HuffmanTrees.NoValues | HuffmanCodeBuildv1/HuffmanTreeNodeValues.java:22-26 | the no-argument triple has symbol, frequency and code all absent |
| HuffmanTrees.WithSymbol | HuffmanCodeBuildv1/HuffmanTreeNodeValues.java:70-72 | replaces the symbol only |
| HuffmanTrees.WithCode | HuffmanCodeBuildv1/HuffmanTreeNodeValues.java:78-80 | replaces the code only |
| HuffmanTrees.WithFrequency | HuffmanCodeBuildv1/HuffmanTreeNodeValues.java:86-88 | replaces the frequency only |
| HuffmanTrees.Render | HuffmanCodeBuildv1/HuffmanTreeNodeValues.java:91-95 | the layout "(symbol, frequency, code)" with "null" for an absent field, the frequency through its rendering function and the code as 0/1 digits; the code field reads back as the node's code |
| HuffmanTrees.RenderExample | HuffmanCodeBuildv1/HuffmanTreeNodeValues.java:91-95 | ('a', 0.25, 10) renders as "(a, 0.25, 10)", the code shown as 0/1 digits |
| HuffmanTrees.LeafOf | HuffmanCode/src/HuffmanTree.java:27-29 | a childless node holding the given triple |
| HuffmanTrees.MakeLeafNode | HuffmanCode/src/HuffmanTree.java:50-54 | a childless node holding the given symbol, frequency and code |
| HuffmanTrees.MakeNode | HuffmanCode/src/HuffmanTree.java:64-72 | a node holding the given triple, with absent children made empty |
| HuffmanTrees.MakeInternal | HuffmanCode/src/HuffmanTree.java:81-85 | symbol and code absent, the given frequency and children kept |
| HuffmanTrees.SetSymbol | HuffmanCode/src/HuffmanTree.java:133-135 | changes only the root's symbol; children untouched |
| HuffmanTrees.SetFrequency | HuffmanCode/src/HuffmanTree.java:141-143 | changes only the root's frequency; children untouched |
| HuffmanTrees.SetCode | HuffmanCode/src/HuffmanTree.java:149-151 | changes only the root's code; children untouched |
| HuffmanTrees.SameSymbolAndFrequency | HuffmanCode/src/HuffmanTree.java:238-248 | holds exactly when both symbols are absent or equal and the frequencies are equal; the receiver's frequency is needed only once the symbols agree, so trees without frequencies still compare |
| HuffmanTrees.FrequencyFreeTreesCompare | HuffmanCode/src/HuffmanTree.java:238-248 | a leaf and an internal node without frequencies compare as unequal in both directions |
| HuffmanTrees.SameSymbolAndFrequencyIsSymmetric | HuffmanCode/src/HuffmanTree.java:160-166 | tree equality is reflexive and symmetric |
| HuffmanTrees.NarrowEqualityIgnoresChildren | HuffmanCode/src/HuffmanTree.java:160-166 | two trees with different children are still equal when their roots agree |
| HuffmanTrees.Wrap32 | HuffmanCode/src/HuffmanTree.java:178-186 | the 32-bit result is congruent to the exact sum modulo 2^32 |
| HuffmanTrees.EqualTreesHashEqual | HuffmanCode/src/HuffmanTree.java:178-186 | equal trees have equal hash codes |
| HuffmanTrees.HashCode | HuffmanCode/src/HuffmanTree.java:178-186 | the hash code is a 32-bit signed integer |
| HuffmanTrees.CompareTo | HuffmanCode/src/HuffmanTree.java:221-230 | 0 exactly when the frequencies differ by less than EPSILON, otherwise the sign of the difference |
| HuffmanTrees.CompareToAntisymmetric | HuffmanCode/src/HuffmanTree.java:221-230 | swapping the arguments negates the result |
| HuffmanTrees.CompareToTransitive | HuffmanCode/src/HuffmanTree.java:200-230 | "greater" is transitive, as documented |
| HuffmanTrees.CompareEqualNotTransitive | HuffmanCode/src/HuffmanTree.java:204-230 | frequencies 0, 0.000006 and 0.000012 show that "compares as equal" is not transitive, against the documented claim |
| HuffmanBuild.CountChars | HuffmanCodeBuildv2/HuffmanCode.java:109-118 | keys are exactly the text's characters, each mapped to its number of occurrences |
| HuffmanBuild.FrequencyTableOf | HuffmanCodeBuildv2/HuffmanCode.java:95-101 | keys are exactly the text's characters, each mapped to count / length |
| HuffmanBuild.CountsSumToLength | HuffmanCodeBuildv2/HuffmanCode.java:109-118 | the counts sum to the text length |
| HuffmanBuild.FrequenciesSumToOne | HuffmanCodeBuildv2/HuffmanCode.java:95-101 | the frequencies of a non-empty text sum to 1 |
| HuffmanBuild.GenerateLeafQueue | HuffmanCodeBuildv2/HuffmanCode.java:140-146 | one leaf per table symbol with its frequency and an empty code; the queue holds every symbol once and the total frequency |
| HuffmanBuild.MergePair | HuffmanCodeBuildv2/HuffmanCode.java:155-162 | the merged node has the two trees as left and right child, the sum of their frequencies and the union of their symbols |
| HuffmanBuild.CombineTrees | HuffmanCodeBuildv2/HuffmanCode.java:155-162 | removes a minimum-frequency tree, then a minimum of the rest, and adds their merge with the first as left child; size drops by one and symbols and total frequency are kept |
| HuffmanBuild.GenerateCodeTree | HuffmanCodeBuildv2/HuffmanCode.java:125-132 | every internal node has two children and the sum of their frequencies; the leaves carry each table symbol once; the root frequency is the table total |
| HuffmanBuild.BuiltTreeDecodes | HuffmanCodeBuildv2/HuffmanCode.java:125-179 | the built tree is a decoding tree with distinct leaves whose code table has exactly the frequency table's symbols |
| HuffmanBuild.MergeStep | HuffmanCodeBuildv2/HuffmanCode.java:128-130 | one round of the merge loop shortens the queue by one; the queue still holds merged trees with fresh codes, each table symbol once with its table frequency, and the table's total frequency |
| HuffmanBuild.SingleLeafIffOneSymbol | HuffmanCodeBuildv2/HuffmanCode.java:125-132 | the built tree is a single leaf exactly when the table has one symbol |
| HuffmanCodes.LeafPathsPrefixFree | HuffmanCodeBuildv2/HuffmanCode.java:169-179 | no path to a leaf extends another path to a leaf |
| HuffmanCodes.MergeCodeTables | HuffmanCodeBuildv2/HuffmanCode.java:187-196 | the left table's codes get a leading 0 and the right table's a leading 1, the right winning on a shared symbol |
| HuffmanCodes.GenerateCodeTable | HuffmanCodeBuildv2/HuffmanCode.java:169-179 | the table holds exactly the leaf symbols and each code leads from the root to a leaf with that symbol |
| HuffmanCodes.GeneratedTableIsPrefixFree | HuffmanCodeBuildv2/HuffmanCode.java:169-196 | no code of the derived table is a prefix of another symbol's code |
| HuffmanCodes.TableMatchesLeafPaths | HuffmanCodeBuildv2/HuffmanCode.java:169-196 | with distinct leaf symbols, every leaf path is the table's code for that leaf's symbol |
| HuffmanCodes.AssignCodes | HuffmanCodeBuildv2/HuffmanCode.java:202-216 | left children get the parent's code plus 0, right children plus 1, from the root's code (empty if it has none); the tree is otherwise unchanged |
| HuffmanCodes.CodeIsPath | HuffmanCodeBuildv2/HuffmanCode.java:202-216 | after code assignment every node's code is the root's code followed by its path |
| HuffmanCodes.AssignFrom | HuffmanCodeBuildv2/HuffmanCode.java:202-216 | every node's code becomes the starting code followed by its path, and nothing but the codes changes |
| HuffmanCodes.TableIgnoresCodes | HuffmanCodeBuildv1/HuffmanCode.java:25-40 | reading the table before or after code assignment gives the same table |
| HuffmanCodes.Encode | HuffmanCodeBuildv2/HuffmanCode.java:52-56 | defined exactly when every character has a code; the empty text encodes to nothing and a single character to its table code (with `EncodeAppend`, the concatenation of the characters' codes) |
| HuffmanCodes.EncodeAppend | HuffmanCodeBuildv2/HuffmanCode.java:52-56 | encoding a concatenation is the concatenation of the encodings |
| HuffmanCodes.Step | HuffmanCodeBuildv2/HuffmanCode.java:63-80 | at a leaf one symbol is emitted and the walk restarts at the root without reading; otherwise one bit is read and the walk descends |
| HuffmanCodes.SingleLeafRootNeverTerminates | HuffmanCodeBuildv2/HuffmanCode.java:63-80 | with a single-leaf root the loop guard always holds and the walk never advances |
| HuffmanCodes.Decode | HuffmanCodeBuildv2/HuffmanCode.java:63-80 | the indexed loop produces what the loop's recursive reading produces |
| HuffmanCodes.DecodeFrom | HuffmanCodeBuildv2/HuffmanCode.java:63-80 | the walk emits at most one symbol per bit read, plus one for a leaf it stands on |
| HuffmanCodes.DecodeIncomplete | HuffmanCodeBuildv2/HuffmanCode.java:63-80 | bits that stop inside the tree decode to nothing |
| HuffmanCodes.DecodeEncode | HuffmanCodeBuildv2/HuffmanCode.java:52-80 | decoding an encoding followed by more bits gives the text followed by the decoding of those bits |
| HuffmanCodes.RoundTrip | HuffmanCodeBuildv2/HuffmanCode.java:52-80 | decode(encode(s)) == s when every code leads to its symbol and the root is not a leaf |
| HuffmanCodes.TrailingBitsDropped | HuffmanCodeBuildv2/HuffmanCode.java:63-80 | an incomplete code after a complete encoding is silently dropped |
| HuffmanRebuild.InverseCodeMap | HuffmanCodeBuildv2/HuffmanCode.java:258-264 | every code of the table maps back to a symbol that has it, and only codes of the table are keys |
| HuffmanRebuild.InverseUndoesTable | HuffmanCodeBuildv2/HuffmanCode.java:258-264 | when no two symbols share a code, the inverse maps each symbol's code back to that symbol |
| HuffmanRebuild.TreeFromTable | HuffmanCodeBuildv2/HuffmanCode.java:238-250 | a leaf exactly at the codes, holding the code's symbol; internal nodes elsewhere; every node's code is its path |
| HuffmanRebuild.GenerateTreeFromTable | HuffmanCodeBuildv2/HuffmanCode.java:223-226 | None, the source never returning, exactly when some branch of the code space meets no code; the table of a decoding tree with distinct leaves rebuilds that tree's shape and leaf symbols; the result is the rebuild from an inverse of the table; when a tree comes back, a prefix-free table's codes each lead to a leaf with their symbol, and two or more symbols give a non-leaf root |
| HuffmanRebuild.CodeOnEveryBranch | HuffmanCodeBuildv2/HuffmanCode.java:238-250 | below a node the rebuild returns for, every branch meets a code on the way down or below it |
| HuffmanRebuild.NoCodeBelowGivesNone | HuffmanCodeBuildv2/HuffmanCode.java:238-250 | below a prefix that no code extends the rebuild never returns |
| HuffmanRebuild.NoneHasEndlessBranch | HuffmanCodeBuildv2/HuffmanCode.java:238-250 | a rebuild that does not return has an arbitrarily deep branch that meets no code |
| HuffmanRebuild.BoundIrrelevant | HuffmanCodeBuildv2/HuffmanCode.java:238-250 | once the depth bound covers every code, a larger bound changes nothing |
| HuffmanRebuild.RebuildReproduces | HuffmanCodeBuildv2/HuffmanCode.java:238-250 | rebuilding from codes that agree with a decoding tree gives its shape and leaf symbols |
| HuffmanRebuild.TableThenRebuild | HuffmanCodeBuildv2/HuffmanCode.java:42-45 | rebuilding from the table of a built tree reproduces the tree's shape and leaf symbols |
| HuffmanCodec.FromFrequencies | HuffmanCodeBuildv2/HuffmanCode.java:32-36 | the codec is consistent, its table has exactly the frequency table's symbols, and its root is not a leaf exactly when there are two or more |
| HuffmanCodec.FromFrequenciesEarlier | HuffmanCodeBuildv1/HuffmanCode.java:36-40 | the earlier order (table before codes) gives the same guarantees |
| HuffmanCodec.FromSeed | HuffmanCodeBuildv2/HuffmanCode.java:24-26 | consistent; the table has exactly the seed's characters; the root is a leaf exactly when the seed repeats one character |
| HuffmanCodec.FromCodeTable | HuffmanCodeBuildv2/HuffmanCode.java:42-45 | keeps the table; returns exactly when every branch of the code space meets a code, always for the table of a decoding tree with distinct leaves; with a prefix-free table the codec is consistent, and with two or more symbols decode(encode(s)) == s |
| HuffmanCodec.FromCodeTableEarlier | HuffmanCodeBuildv1/HuffmanCode.java:46-48 | keeps the table and builds no tree |
| HuffmanCodec.EncodeWith | HuffmanCodeBuildv1/HuffmanCode.java:55-62 | defined exactly when every character has a code, also for a table-only codec; a single character encodes to its table code |
| HuffmanCodec.DecodeWith | HuffmanCodeBuildv1/HuffmanCode.java:69-86 | decodes by the tree walk of the loop |
| HuffmanCodec.IsLeafEarlier | HuffmanCodeBuildv1/HuffmanCode.java:241-243 | no children exactly when the tree has one node, agreeing with the tree's own isLeaf |
| HuffmanCodec.CodecRoundTrip | HuffmanCodeBuildv2/HuffmanCode.java:52-80 | decode(encode(s)) == s for a consistent codec whose root is not a leaf |
| HuffmanCodec.RebuildFromOwnTable | HuffmanCodeBuildv2/HuffmanCode.java:86-88 | the table a codec hands out rebuilds into a tree with the same shape, symbols and path codes |
| Weights.DefaultFamily | BalanceWeightSystem/src/WeightFamily.java:27-29 | the collection constructor on a collection holding the unit weight alone, giving exactly {1} |
| Weights.NewFamily | BalanceWeightSystem/src/WeightFamily.java:45-55 | fails exactly for a missing collection; otherwise the non-missing weights plus the unit weight |
| Weights.GetWeights | BalanceWeightSystem/src/WeightFamily.java:61-63 | exactly the family's weights, the unit weight among them |
| Weights.Size | BalanceWeightSystem/src/WeightFamily.java:69-71 | the number of distinct weights, at least 1 |
| Weights.Iterate | BalanceWeightSystem/src/WeightFamily.java:79-82 | strictly ascending, no duplicates, exactly the family's weights, starting with 1 |
| Weights.AscendingIsUnique | BalanceWeightSystem/src/WeightFamily.java:79-82 | only one strictly ascending listing has a given set of weights |
| Weights.MinimalTenIsTwoFives | BalanceWeightSystem/src/GreedyBalanceWeightSystemTest.java:155-160 | for {1,2,5,6} the only sorted minimum solution for 10 is [5,5] |
| GreedyBalance.GreedyChoicesAreUnique | BalanceWeightSystem/src/GreedyBalanceWeightSystem.java:54-62 | the choice rule "largest weight not above the remaining total" admits one sequence of choices |
| GreedyBalance.GreedyLoopIsGreedy | BalanceWeightSystem/src/GreedyBalanceWeightSystem.java:54-62 | the loop over the descending weights makes exactly those choices |
| GreedyBalance.GreedyLoop | BalanceWeightSystem/src/GreedyBalanceWeightSystem.java:54-62 | every pick is one of the weights not yet passed over |
| GreedyBalance.GreedyChoicesSolve | BalanceWeightSystem/src/GreedyBalanceWeightSystem.java:54-62 | those choices are family weights, non-increasing, and sum to the total |
| GreedyBalance.GreedySolution | BalanceWeightSystem/src/GreedyBalanceWeightSystem.java:48-65 | sums to the goal with family weights, sorted ascending; its reverse is the greedy choice sequence; the largest element is the largest family weight not above the goal |
| GreedyBalance.GreedyNine | BalanceWeightSystem/src/GreedyBalanceWeightSystemTest.java:165-169 | for {1,2,5,6} and 9 the result is [1,2,6] |
| GreedyBalance.GreedyNotMinimal | BalanceWeightSystem/src/GreedyBalanceWeightSystem.java:38-47 | for {1,2,5,6} and 10 the result is [2,2,6] although [5,5] is a solution |
| RecursiveBalance.RecursiveSolution | BalanceWeightSystem/src/RecursiveBalanceWeightSystem.java:50-69 | a sorted solution of minimum size; the goal alone when the goal is a family weight |
| RecursiveBalance.Candidates | BalanceWeightSystem/src/RecursiveBalanceWeightSystem.java:55-66 | one candidate for every family weight up to the goal, so the candidate set is never empty |
| RecursiveBalance.Candidate | BalanceWeightSystem/src/RecursiveBalanceWeightSystem.java:58-64 | a sorted solution at most one weight longer than any solution for the goal less the weight |
| RecursiveBalance.CandidatesFrom | BalanceWeightSystem/src/RecursiveBalanceWeightSystem.java:55-66 | the rest of the loop keeps the candidates so far, adds at least one, and every candidate is a sorted solution for the goal |
| Weights.Shortest | BalanceWeightSystem/src/RecursiveBalanceWeightSystem.java:79-84 | a candidate no longer than any other |
| RecursiveBalance.ShortestIsSolution | BalanceWeightSystem/src/RecursiveBalanceWeightSystem.java:39-47 | a shortest candidate is a solution of minimum size |
| DynamicBalance.NewSystem | BalanceWeightSystem/src/DynamicProgrammingBalanceWeightSystem.java:27-31 | the memo starts with the empty solution for 0 and nothing else |
| DynamicBalance.Memoize | BalanceWeightSystem/src/DynamicProgrammingBalanceWeightSystem.java:57-75 | afterwards every total 1..goal is memoised with a sorted minimum-size solution; entries for totals outside 1..goal keep their values and no other totals appear |
| DynamicBalance.MemoCandidate | BalanceWeightSystem/src/DynamicProgrammingBalanceWeightSystem.java:63-69 | a candidate built from an already-memoised smaller total is a sorted solution |
| DynamicBalance.BestFor | BalanceWeightSystem/src/DynamicProgrammingBalanceWeightSystem.java:59-72 | with every smaller total memoised, the round's minimum candidate is a sorted solution of minimum size |
| DynamicBalance.MemoCandidates | BalanceWeightSystem/src/DynamicProgrammingBalanceWeightSystem.java:59-71 | every candidate is a sorted solution, there is one for every family weight up to the total, so the set is never empty |
| DynamicBalance.MemoCandidatesFrom | BalanceWeightSystem/src/DynamicProgrammingBalanceWeightSystem.java:60-71 | the rest of the inner loop keeps the candidates so far, adds at least one, and every candidate is a sorted solution for the total |
| DynamicBalance.AddMemoCandidate | BalanceWeightSystem/src/DynamicProgrammingBalanceWeightSystem.java:63-70 | the candidate for one more family weight is added and the candidates so far are kept |
| DynamicBalance.Calculate | BalanceWeightSystem/src/DynamicProgrammingBalanceWeightSystem.java:42-49 | returns the memo entry, a sorted minimum-size solution; a memoised goal leaves the state unchanged |
| DynamicBalance.DynamicSolution | BalanceWeightSystem/src/DynamicProgrammingBalanceWeightSystem.java:87-93 | a sorted solution of minimum size |
| DynamicBalance.SolversAgree | BalanceWeightSystem/src/DynamicProgrammingBalanceWeightSystem.java:33-41 | the dynamic and recursive results solve the goal and have the same size |
| DynamicBalance.TestTen | BalanceWeightSystem/src/GreedyBalanceWeightSystemTest.java:61-129 | for {1,2,5,6} both solvers give [5,5] for 10 |
| HangmanPatterns.Patternize | HangmanBasic/src/Hangman.java:125-131 | a letter shows itself exactly when guessed (or a dash), otherwise a dash |
| HangmanPatterns.Pattern | HangmanBasic/src/Hangman.java:108-116 | the word's length, each position patternized |
| HangmanPatterns.CountOccurrences | HangmanBasic/src/Hangman.java:167-173 | the number of positions holding the letter, positive exactly when it occurs |
| HangmanPatterns.PatternRevealsWord | HangmanBasic/src/Hangman.java:108-131 | the pattern is the word exactly when all its letters were guessed |
| HangmanPatterns.SamePatternSameCount | HangmanDevious/src/Hangman.java:144-152 | words sharing a pattern hold a guessed non-dash letter equally often |
| HangmanPatterns.DashCountsDiffer | HangmanDevious/src/Hangman.java:144-152 | a guessed dash is the exception: "ab" and "a-" share a pattern but not the dash count |
| HangmanBasic.ChooseGoalWord | HangmanBasic/src/Hangman.java:57-68 | none exactly when no dictionary word has the length, otherwise a dictionary word of that length |
| HangmanBasic.NewBasicGame | HangmanBasic/src/Hangman.java:35-46 | rejects length < 1 or max < 0; otherwise max guesses left, none made, goal as chosen |
| HangmanBasic.Words | HangmanBasic/src/Hangman.java:75-80 | empty exactly without a goal, otherwise the goal alone |
| HangmanBasic.CurrentPattern | HangmanBasic/src/Hangman.java:108-116 | the goal's length; a position shows the goal's letter when that letter was guessed and a dash otherwise |
| HangmanBasic.Record | HangmanBasic/src/Hangman.java:143-158 | illegal state without guesses or goal, then illegal argument for a repeat; otherwise the guess is added, the result is its count in the goal and only a miss costs a guess |
| HangmanBasic.RecordKeepsAccount | HangmanBasic/src/Hangman.java:143-158 | guesses left plus wrong guesses stays the starting allowance |
| HangmanBasic.WonWhenAllGuessed | HangmanBasic/src/Hangman.java:108-131 | the pattern shows the whole goal exactly when all its letters were guessed |
| HangmanDevious.LexLeqTotal | HangmanDevious/src/Hangman.java:86-91 | the string order used to pick the least candidate is total |
| HangmanDevious.FirstWord | HangmanDevious/src/Hangman.java:86-91 | the least word of a non-empty set |
| HangmanDevious.NewDeviousGame | HangmanDevious/src/Hangman.java:36-49 | rejects length < 1 or max < 0; otherwise max guesses left, none made, candidates exactly the dictionary words of the length |
| HangmanDevious.Words | HangmanDevious/src/Hangman.java:56-58 | the current candidates |
| HangmanDevious.CurrentPattern | HangmanDevious/src/Hangman.java:86-91 | fails exactly without candidates; otherwise the pattern shared by every candidate |
| HangmanDevious.GetPatternMap | HangmanDevious/src/Hangman.java:177-189 | keys are exactly the candidates' patterns, each mapped to the candidates with that pattern |
| HangmanDevious.ClassesPartition | HangmanDevious/src/Hangman.java:177-189 | every candidate lies in exactly one class, that of its own pattern |
| HangmanDevious.UpdateWords | HangmanDevious/src/Hangman.java:159-166 | keeps a whole non-empty class of the old candidates, at least as large as every other class |
| HangmanDevious.Record | HangmanDevious/src/Hangman.java:136-153 | the basic manager's failures; otherwise the guess is added, the kept candidates are a largest class sharing one pattern, the result is the guess's count in each of them and only 0 costs a guess |

## Left out

- `GreedyBalance.GreedySolution`: the source's documentation promises a minimum-size result, but the greedy loop does not deliver one. For {1,2,5,6} and 10 it yields [2,2,6] (`GreedyBalance.GreedyNotMinimal`). The contract states what the loop computes, not minimality.
- `HangmanDevious.Record`: its count is the same in every kept word only for a guess other than the dash character. With a guessed dash, words sharing a pattern can hold different numbers of dashes (`HangmanPatterns.DashCountsDiffer`).
- `HangmanBasic.CurrentPattern`: requires a goal. Without one the source dereferences a null word instead of reporting an illegal state.
- A null dictionary is not modelled; the source fails with a null dereference.
- Random goal selection: the shuffle in `chooseGoalWord` is a nondeterministic choice among the dictionary words of the right length.
- Hash-map and priority-queue orders are nondeterministic choices among the allowed values:
  - ties in the Huffman merge;
  - the symbol kept when two symbols share a code;
  - the minimum in the recursive and dynamic solvers;
  - the largest class in the devious manager.
- A Java `char` is a UTF-16 code unit, a Dafny `char` a Unicode scalar value. The codecs' symbols, seed texts and the hangman words and guesses are therefore modelled only for characters of the basic multilingual plane outside the surrogate range. For those, the devious manager's least candidate under Dafny's character order matches Java's `String.compareTo`.
- The `Weight` class is not part of this model; a weight is a positive integer.
- Object identity and aliasing are not modelled. Every operation works on values, which assumes no caller modifies an object that is shared or handed out. In the Java code that assumption can fail:
  - Every malformed `StringOfBits` shares one static default list (HuffmanCodeBuildv1/StringOfBits.java:13-14 and 47), and `append`, `setBit` and their variants modify `this.bits` in place. After `new StringOfBits("x").append('1')`, every later malformed instance has 11 bits, so `Bits.FromChars`'s ten 0 bits hold only while the default is unmodified.
  - Version 1's `getCode` returns the codec's own map (HuffmanCodeBuildv1/HuffmanCode.java:92-94); a caller's `put` on it changes later `encode` results. Version 2's returns a copy.
  - The dynamic solver's `calculateSolution` returns its memo list itself; a caller that modifies it changes later results for that total and for larger totals memoised afterwards from it.
  - `getWeights` returns a copy, so nothing is lost there.
- Iterator plumbing and `toString` of `WeightFamily` and `BinaryTree` are not modelled.
- `BinaryTree`'s `hashCode`, and `save`, `restore` and `readObject` (serialisation and file I/O), are not modelled.
- Floating point is not modelled:
  - frequencies are exact reals, so count / length is not rounded;
  - the frequency rendering and `Double.hashCode` are function parameters;
  - the merge order ignores the EPSILON comparison (next line).
- `HuffmanBuild.CombineTrees` takes a tree of exactly minimum frequency, while the source's priority queue orders trees by `compareTo`, which treats frequencies within EPSILON as equal. For {'x': 0.1000005, 'y': 0.1} the source may take x first and make it the left child; the model always puts y on the left.
- `HuffmanRebuild.TreeFromTable`: the source recursion does not return when a branch of the code space meets no code. The model returns None past a depth bound instead. `NoCodeBelowGivesNone`, `NoneHasEndlessBranch` and `BoundIrrelevant` tie None to that non-termination once the bound covers every code.
- `HuffmanCodes.Decode` and `HuffmanCodec.DecodeWith` require a root that is not a leaf, since with a single-leaf root the loop never ends (`SingleLeafRootNeverTerminates`). `DecodeWith` also requires a tree: the earlier version's table-only codec dereferences a null tree when decoding.
- `HuffmanCodec.FromFrequencies`, `FromFrequenciesEarlier` and `FromSeed` require a non-empty table (or seed). With none the merge loop does not run and polling the empty queue gives a null tree. Version 2 then fails with a null dereference in `assignCodes` (HuffmanCodeBuildv2/HuffmanCode.java:203), version 1 in `isLeaf`, called from `generateCodeTable` (HuffmanCodeBuildv1/HuffmanCode.java:242).
- `Bits.AppendBits`: when the receiver and the argument share one list, the Java loop re-reads the growing length and never returns, unless the list is empty. This happens for `x.append(x)` with `x` non-empty, and for `a.append(b)` with two distinct malformed instances, which share the default list. The model works on values and returns the concatenation.
- `HuffmanTrees.HashCode`: the contract states only the 32-bit range; that equal trees hash alike is the separate lemma `EqualTreesHashEqual`.
- `setValue(null)` is not modelled: values are never absent, so a rooted tree cannot be made to look empty.
- Three claims in `HuffmanTree`'s documentation are not asserted:
  - transitivity of "compares as equal", which the epsilon comparison breaks (`HuffmanTrees.CompareEqualNotTransitive`);
  - consistency of `compareTo` with `equals`, which the epsilon comparison also breaks;
  - "null is lower than any other frequency": the code unboxes both frequencies and fails on an absent one, so `HuffmanTrees.CompareTo` requires both.

=== FILE: balance_dynamic.dfy ===
/** `DynamicProgrammingBalanceWeightSystem`: solutions for every total up to
    the goal, smallest first, each built from the memoised solutions of
    smaller totals. */
module DynamicBalance {
  import opened Weights
  import opened RecursiveBalance

  /** An instance: its family and its memo of solutions by total. */
  datatype DpSystem = DpSystem(family: Family, memo: map<int, seq<Weight>>)

  /** Every memoised entry is a minimum-sized sorted solution for its key,
      and the entry for 0 is the empty solution. */
  ghost predicate MemoValid(sys: DpSystem) {
    && 0 in sys.memo && sys.memo[0] == []
    && forall k :: k in sys.memo ==> k >= 0 && Minimal(sys.family, k, sys.memo[k]) && Sorted(sys.memo[k])
  }

  /** The constructor: the memo holds only the empty solution for 0. */
  function NewSystem(f: Family): (sys: DpSystem)
    ensures sys.family == f && sys.memo.Keys == {0}
    ensures MemoValid(sys)
  {
    ZeroHasEmptySolution(f);
    DpSystem(f, map[0 := []])
  }

  /** `memoize(goal)`: for i = 1 .. goal in turn, collect one candidate per
      family weight `w <= i` (`w` alone, or `w` added to the memoised
      solution for `i - w`, sorted) and memoise a shortest one.  Every
      lookup is for a smaller total already in the memo.  Afterwards every
      total from 0 to the goal is memoised; entries already present for
      those totals are recomputed, others are kept. */
  method Memoize(sys: DpSystem, goal: Weight) returns (next: DpSystem)
    requires MemoValid(sys)
    ensures MemoValid(next) && next.family == sys.family
    ensures forall k :: k in next.memo <==> k in sys.memo || 1 <= k <= goal
    ensures forall k :: k in sys.memo && !(1 <= k <= goal) ==> next.memo[k] == sys.memo[k]
  {
    next := sys;
    for i := 1 to goal + 1
      invariant MemoValid(next) && next.family == sys.family
      invariant forall k :: k in next.memo <==> k in sys.memo || 1 <= k < i
      invariant forall k :: k in sys.memo && !(1 <= k <= goal) ==> next.memo[k] == sys.memo[k]
    {
      var best := BestFor(next, i);
      next := next.(memo := next.memo[i := best]);
    }
  }

  /** The memo is valid and holds every total below `i`. */
  ghost predicate Ready(sys: DpSystem, i: Weight) {
    MemoValid(sys) && forall k :: 0 <= k < i ==> k in sys.memo
  }

  /** One round of `memoize`: a shortest candidate for total `i`, all smaller
      totals being memoised already. */
  method BestFor(sys: DpSystem, i: Weight) returns (best: seq<Weight>)
    requires Ready(sys, i)
    ensures Minimal(sys.family, i, best) && Sorted(best)
  {
    var partitions, cands := MemoCandidates(sys, i);
    best := Shortest(partitions);
    ShortestIsSolution(sys.family, i, cands, partitions, best);
  }

  /** The inner loop of a round, over the family from its smallest weight:
      one candidate for every family weight up to `i`. */
  method MemoCandidates(sys: DpSystem, i: Weight) returns (partitions: set<seq<Weight>>, ghost cands: map<Weight, seq<Weight>>)
    requires Ready(sys, i)
    ensures Collected(sys.family, i, cands, partitions)
    ensures forall w :: w in sys.family && w <= i ==> w in cands
    ensures partitions != {}
  {
    var ws := Iterate(sys.family);
    assert forall k :: 0 <= k < |ws| ==> ws[k] in ws;
    partitions, cands := MemoCandidatesFrom(sys, i, ws, 0, {}, map[]);
    CoversFamily(sys.family, ws, i, cands);
  }

  /** The inner loop from position `j` of the family listing on. */
  method MemoCandidatesFrom(sys: DpSystem, i: Weight, ws: seq<Weight>, j: nat,
                            partitions: set<seq<Weight>>, ghost cands: map<Weight, seq<Weight>>)
    returns (partitions': set<seq<Weight>>, ghost cands': map<Weight, seq<Weight>>)
    requires Ready(sys, i)
    requires (forall k :: 0 <= k < |ws| ==> ws[k] in sys.family) && j <= |ws|
    requires |ws| > 0 && ws[0] == Unit
    requires CollectedUpTo(sys.family, i, ws, j, cands, partitions)
    ensures CollectedUpTo(sys.family, i, ws, |ws|, cands', partitions')
    ensures partitions <= partitions' && partitions' != {}
    ensures forall p :: p in partitions' ==> Decomposes(sys.family, i, p) && Sorted(p)
    decreases |ws| - j
  {
    if j == |ws| {
      return partitions, cands;
    }
    var w := ws[j];
    var parts, cs := partitions, cands;
    if w <= i {
      parts, cs := AddMemoCandidate(sys, i, w, partitions, cands);
    }
    CoversStep(ws, j, i, cands, cs);
    partitions', cands' := MemoCandidatesFrom(sys, i, ws, j + 1, parts, cs);
  }

  /** Collect the candidate for family weight `w` in the round for `i`. */
  method AddMemoCandidate(sys: DpSystem, i: Weight, w: Weight, partitions: set<seq<Weight>>, ghost cands: map<Weight, seq<Weight>>)
    returns (partitions': set<seq<Weight>>, ghost cands': map<Weight, seq<Weight>>)
    requires Ready(sys, i)
    requires w in sys.family && w <= i
    requires Collected(sys.family, i, cands, partitions)
    ensures Collected(sys.family, i, cands', partitions')
    ensures cands'.Keys == cands.Keys + {w} && partitions <= partitions' && partitions' != {}
  {
    var solution := MemoCandidate(sys, i, w);
    AddCandidate(sys.family, i, cands, partitions, w, solution);
    partitions' := partitions + {solution};
    cands' := cands[w := solution];
  }

  /** The candidate for weight `w` in the round for total `i`: `w` alone
      when it is `i`, otherwise `w` added to the memoised solution for
      `i - w`, sorted. */
  method MemoCandidate(sys: DpSystem, i: Weight, w: Weight) returns (solution: seq<Weight>)
    requires Ready(sys, i)
    requires w in sys.family && w <= i
    ensures Decomposes(sys.family, i, solution) && Sorted(solution)
    ensures LowerBound(sys.family, i - w, |solution| - 1)
    ensures w == i ==> solution == [i]
  {
    var rest: seq<Weight> := [];
    if w < i {
      assert i - w in sys.memo;
      rest := sys.memo[i - w];
    }
    ExtendSolution(sys.family, i, rest, w);
    solution := InsertSorted(rest, w);
    assert |solution| - 1 == |rest|;
  }

  /** The instance `calculateSolution(goal)`: memoise up to the goal unless
      it is memoised already, then return the memo entry.  The result is a
      minimum-sized sorted solution; a goal already memoised is answered
      from the memo without changing it. */
  method Calculate(sys: DpSystem, goal: Weight) returns (next: DpSystem, r: seq<Weight>)
    requires MemoValid(sys)
    ensures MemoValid(next) && next.family == sys.family
    ensures goal in next.memo && r == next.memo[goal]
    ensures Minimal(sys.family, goal, r) && Sorted(r)
    ensures goal in sys.memo ==> next == sys
  {
    next := sys;
    if goal !in sys.memo {
      next := Memoize(sys, goal);
    }
    r := next.memo[goal];
  }

  /** The static `calculateSolution`: a fresh instance for the family. */
  method DynamicSolution(f: Family, goal: Weight) returns (r: seq<Weight>)
    ensures Minimal(f, goal, r) && Sorted(r)
  {
    var sys := NewSystem(f);
    var _, solution := Calculate(sys, goal);
    r := solution;
  }

  /** The dynamic-programming and recursive solvers return solutions of the
      same size for the same family and goal. */
  method SolversAgree(f: Family, goal: Weight) returns (dynamic: seq<Weight>, recursive: seq<Weight>)
    ensures |dynamic| == |recursive|
    ensures Decomposes(f, goal, dynamic) && Decomposes(f, goal, recursive)
  {
    dynamic := DynamicSolution(f, goal);
    recursive := RecursiveSolution(f, goal);
    MinimalSizesAgree(f, goal, dynamic, recursive);
  }

  /** For family {1, 2, 5, 6} and goal 10 both solvers return [5, 5], where
      the greedy solver returns [2, 2, 6]. */
  method TestTen() returns (dynamic: seq<Weight>, recursive: seq<Weight>)
    ensures dynamic == [5, 5] && recursive == [5, 5]
  {
    var f := TestFamily();
    dynamic := DynamicSolution(f, 10);
    recursive := RecursiveSolution(f, 10);
    MinimalTenIsTwoFives(f, dynamic);
    MinimalTenIsTwoFives(f, recursive);
  }
}

=== FILE: balance_greedy.dfy ===
/** `GreedyBalanceWeightSystem`: repeatedly take the largest family weight
    that still fits, then sort what was taken. */
module GreedyBalance {
  import opened Weights

  /** `w` is the largest family weight not exceeding `total`. */
  ghost predicate LargestAtMost(f: Family, total: int, w: Weight) {
    w in f && w <= total && forall v :: v in f && v <= total ==> v <= w
  }

  /** The greedy choices for `total`, an independent reference: each pick
      is the largest family weight not exceeding what is still to be made
      up, until nothing remains. */
  ghost predicate GreedyChoices(f: Family, total: int, picks: seq<Weight>)
    decreases |picks|
  {
    if total <= 0 then picks == []
    else |picks| > 0 && LargestAtMost(f, total, picks[0]) && GreedyChoices(f, total - picks[0], picks[1..])
  }

  /** The greedy choices are determined by the family and the total. */
  lemma {:induction false} GreedyChoicesAreUnique(f: Family, total: int, a: seq<Weight>, b: seq<Weight>)
    requires GreedyChoices(f, total, a) && GreedyChoices(f, total, b)
    ensures a == b
    decreases |a|
  {
    if total > 0 {
      assert a[0] == b[0] by {
        assert a[0] <= b[0] && b[0] <= a[0];
      }
      GreedyChoicesAreUnique(f, total - a[0], a[1..], b[1..]);
      assert a == [a[0]] + a[1..] && b == [b[0]] + b[1..];
    }
  }

  predicate StrictlyDescending(s: seq<Weight>) {
    forall i, j :: 0 <= i < j < |s| ==> s[i] > s[j]
  }

  function Reverse(s: seq<Weight>): (r: seq<Weight>)
    ensures |r| == |s|
    ensures forall k :: 0 <= k < |s| ==> r[k] == s[|s| - 1 - k]
  {
    if |s| == 0 then [] else Reverse(s[1..]) + [s[0]]
  }

  lemma ReverseReverse(s: seq<Weight>)
    ensures Reverse(Reverse(s)) == s
  {
    var r := Reverse(s);
    assert forall k :: 0 <= k < |s| ==> Reverse(r)[k] == r[|s| - 1 - k];
  }

  lemma {:induction false} ReverseMultiset(s: seq<Weight>)
    ensures multiset(Reverse(s)) == multiset(s)
    decreases |s|
  {
    if |s| > 0 {
      ReverseMultiset(s[1..]);
      assert s == [s[0]] + s[1..];
      assert Reverse(s) == Reverse(s[1..]) + [s[0]];
    }
  }

  lemma ReverseOrder(s: seq<Weight>)
    ensures StrictlyAscending(s) ==> StrictlyDescending(Reverse(s))
    ensures NonIncreasing(s) ==> Sorted(Reverse(s))
  {
    var r := Reverse(s);
    assert forall i, j :: 0 <= i < j < |r| ==> r[i] == s[|s| - 1 - i] && r[j] == s[|s| - 1 - j];
  }

  lemma {:induction false} SumReverse(s: seq<Weight>)
    ensures Sum(Reverse(s)) == Sum(s)
    decreases |s|
  {
    if |s| > 0 {
      SumReverse(s[1..]);
      SumAppend(Reverse(s[1..]), [s[0]]);
      assert Sum([s[0]]) == s[0];
    }
  }

  /** The `while (total > 0)` loop.  `pending` is the current weight followed
      by the weights not yet polled from the tree set, largest first; a weight
      that does not fit is replaced by the next one polled, a weight that
      fits is taken and the total reduced.  The unit weight is always still
      pending, so the poll never comes back empty. */
  function GreedyLoop(pending: seq<Weight>, total: nat): (picks: seq<Weight>)
    requires Unit in pending
    ensures forall k :: 0 <= k < |picks| ==> picks[k] in pending
    decreases total, |pending|
  {
    if total == 0 then []
    else if pending[0] > total then
      assert pending == [pending[0]] + pending[1..];
      GreedyLoop(pending[1..], total)
    else
      var rest := GreedyLoop(pending, total - pending[0]);
      [pending[0]] + rest
  }

  /** The loop makes exactly the greedy choices, provided every family
      weight not pending is too big for the total and the pending weights
      are family weights in strictly descending order. */
  lemma {:induction false} GreedyLoopIsGreedy(f: Family, pending: seq<Weight>, total: nat)
    requires Unit in pending && StrictlyDescending(pending)
    requires forall k :: 0 <= k < |pending| ==> pending[k] in f
    requires forall v :: v in f && v !in pending ==> v > total
    ensures GreedyChoices(f, total, GreedyLoop(pending, total))
    decreases total, |pending|
  {
    if total > 0 {
      if pending[0] > total {
        SkipTooBig(f, pending, total);
        GreedyLoopIsGreedy(f, pending[1..], total);
      } else {
        var w := pending[0];
        HeadIsLargest(f, pending, total);
        GreedyLoopIsGreedy(f, pending, total - w);
        assert GreedyLoop(pending, total)[1..] == GreedyLoop(pending, total - w);
      }
    }
  }

  /** A pending weight too big for the total may be dropped. */
  lemma SkipTooBig(f: Family, pending: seq<Weight>, total: nat)
    requires |pending| > 0 && pending[0] > total
    requires forall v :: v in f && v !in pending ==> v > total
    ensures forall v :: v in f && v !in pending[1..] ==> v > total
  {
    forall v | v in f && v !in pending[1..]
      ensures v > total
    {
      if v in pending {
        assert pending == [pending[0]] + pending[1..];
        assert v == pending[0];
      }
    }
  }

  /** When the largest pending weight fits, it is the largest family weight
      that fits. */
  lemma HeadIsLargest(f: Family, pending: seq<Weight>, total: nat)
    requires |pending| > 0 && StrictlyDescending(pending) && pending[0] <= total
    requires forall k :: 0 <= k < |pending| ==> pending[k] in f
    requires forall v :: v in f && v !in pending ==> v > total
    ensures LargestAtMost(f, total, pending[0])
  {
    forall v | v in f && v <= total
      ensures v <= pending[0]
    {
      assert v in pending;
      var k :| 0 <= k < |pending| && pending[k] == v;
      assert k == 0 || pending[0] > pending[k];
    }
  }

  /** Greedy choices are family weights in non-increasing order summing to
      the total. */
  lemma {:induction false} GreedyChoicesSolve(f: Family, total: int, picks: seq<Weight>)
    requires GreedyChoices(f, total, picks) && total >= 0
    ensures Decomposes(f, total, picks) && NonIncreasing(picks)
    decreases |picks|
  {
    if total > 0 {
      GreedyChoicesSolve(f, total - picks[0], picks[1..]);
      assert picks == [picks[0]] + picks[1..];
      SumAppend([picks[0]], picks[1..]);
      forall k | 0 <= k < |picks[1..]|
        ensures picks[1..][k] <= picks[0]
      {
        assert picks[1..][k] in f && picks[1..][k] <= total;
      }
    }
  }

  /** The static `calculateSolution`: poll the family from the largest
      weight down, then sort the weights taken.  The result solves the
      goal, is sorted, and read from the largest weight down it is the
      greedy choice sequence; its largest weight is the largest family
      weight not exceeding the goal.  It is NOT always minimum-sized. */
  function GreedySolution(f: Family, goal: Weight): (r: seq<Weight>)
    ensures Decomposes(f, goal, r) && Sorted(r)
    ensures GreedyChoices(f, goal, Reverse(r))
    ensures |r| > 0 && LargestAtMost(f, goal, r[|r| - 1])
  {
    var pending := Pending(f);
    var picks := GreedyLoop(pending, goal);
    GreedyLoopIsGreedy(f, pending, goal);
    PickedSorted(f, goal, picks);
    Reverse(picks)
  }

  /** The tree set's weights as `pollLast` hands them out: largest first. */
  function Pending(f: Family): (pending: seq<Weight>)
    ensures Unit in pending && StrictlyDescending(pending)
    ensures forall k :: 0 <= k < |pending| ==> pending[k] in f
    ensures forall v :: v in f ==> v in pending
  {
    var ascending := Iterate(f);
    var pending := Reverse(ascending);
    ReverseOrder(ascending);
    ReverseMultiset(ascending);
    assert forall v :: v in f ==> v in multiset(ascending);
    forall k | 0 <= k < |pending|
      ensures pending[k] in f
    {
      assert pending[k] == ascending[|ascending| - 1 - k];
    }
    pending
  }

  /** Reversing keeps a solution a solution. */
  lemma ReverseSolves(f: Family, total: int, s: seq<Weight>)
    requires Decomposes(f, total, s)
    ensures Decomposes(f, total, Reverse(s))
  {
    SumReverse(s);
    var r := Reverse(s);
    forall k | 0 <= k < |r|
      ensures r[k] in f
    {
      assert r[k] == s[|s| - 1 - k];
    }
  }

  /** Sorting the greedy choices keeps a solution and puts the first
      (largest) choice last. */
  lemma PickedSorted(f: Family, goal: Weight, picks: seq<Weight>)
    requires GreedyChoices(f, goal, picks)
    ensures Decomposes(f, goal, Reverse(picks)) && Sorted(Reverse(picks))
    ensures GreedyChoices(f, goal, Reverse(Reverse(picks)))
    ensures |picks| > 0 && LargestAtMost(f, goal, Reverse(picks)[|picks| - 1])
  {
    GreedyChoicesSolve(f, goal, picks);
    ReverseReverse(picks);
    ReverseOrder(picks);
    ReverseSolves(f, goal, picks);
    assert Reverse(picks)[|picks| - 1] == picks[0];
  }

  /** For family {1, 2, 5, 6} the greedy choices for 9 are 6, 2, 1. */
  lemma NineChoices(f: Family)
    requires f == TestFamily()
    ensures GreedyChoices(f, 9, [6, 2, 1])
  {
    assert LargestAtMost(f, 1, 1);
    assert LargestAtMost(f, 3, 2);
    assert LargestAtMost(f, 9, 6);
  }

  /** For family {1, 2, 5, 6} the greedy choices for 10 are 6, 2, 2. */
  lemma TenChoices(f: Family)
    requires f == TestFamily()
    ensures GreedyChoices(f, 10, [6, 2, 2])
  {
    assert LargestAtMost(f, 2, 2);
    assert LargestAtMost(f, 4, 2);
    assert LargestAtMost(f, 10, 6);
  }

  /** A solution read back from its greedy choices. */
  lemma FromChoices(f: Family, goal: Weight, choices: seq<Weight>)
    requires GreedyChoices(f, goal, choices)
    ensures GreedySolution(f, goal) == Reverse(choices)
  {
    var r := GreedySolution(f, goal);
    GreedyChoicesAreUnique(f, goal, Reverse(r), choices);
    ReverseReverse(r);
  }

  lemma ReverseOfThree(a: Weight, b: Weight, c: Weight)
    ensures Reverse([a, b, c]) == [c, b, a]
  {
    assert Reverse([a, b, c])[0] == c;
  }

  /** For family {1, 2, 5, 6}, the greedy solution for 9 is [1, 2, 6]. */
  lemma GreedyNine(f: Family)
    requires f == TestFamily()
    ensures GreedySolution(f, 9) == [1, 2, 6]
  {
    NineChoices(f);
    FromChoices(f, 9, [6, 2, 1]);
    ReverseOfThree(6, 2, 1);
  }

  /** For family {1, 2, 5, 6}, the greedy solution for 10 is [2, 2, 6],
      although the two-weight solution [5, 5] exists: the greedy solver is
      not minimum-sized. */
  lemma GreedyNotMinimal(f: Family)
    requires f == TestFamily()
    ensures GreedySolution(f, 10) == [2, 2, 6]
    ensures Decomposes(f, 10, [5, 5]) && !LowerBound(f, 10, 3)
  {
    TenChoices(f);
    FromChoices(f, 10, [6, 2, 2]);
    ReverseOfThree(6, 2, 2);
    TwoFives(f);
  }

  /** [5, 5] makes up 10 from family {1, 2, 5, 6}, so no bound of three
      weights holds. */
  lemma TwoFives(f: Family)
    requires f == TestFamily()
    ensures Decomposes(f, 10, [5, 5]) && !LowerBound(f, 10, 3)
  {
    var five: seq<Weight> := [5, 5];
    assert Sum(five) == 10;
    assert Decomposes(f, 10, five);
  }
}

=== FILE: balance_recursive.dfy ===
/** `RecursiveBalanceWeightSystem`: try every family weight as the last one
    added, solve the rest recursively, keep a shortest candidate. */
module RecursiveBalance {
  import opened Weights

  /** The static `calculateSolution`.  For each family weight `w <= goal`,
      in ascending order, the candidate is `w` together with (when
      `w < goal`) a solution for `goal - w`, sorted; a shortest candidate is
      returned.  The result is a minimum-sized sorted solution, and the goal
      alone when it is itself a family weight. */
  method RecursiveSolution(f: Family, goal: Weight) returns (r: seq<Weight>)
    ensures Minimal(f, goal, r) && Sorted(r)
    ensures goal in f ==> r == [goal]
    decreases goal, 3, 0
  {
    var partitions, cands := Candidates(f, goal);
    r := Shortest(partitions);
    ShortestIsSolution(f, goal, cands, partitions, r);
  }

  /** The loop of `calculateSolution` over the family, smallest weight
      first: one candidate for every family weight up to the goal. */
  method Candidates(f: Family, goal: Weight) returns (partitions: set<seq<Weight>>, ghost cands: map<Weight, seq<Weight>>)
    ensures Collected(f, goal, cands, partitions)
    ensures forall w :: w in f && w <= goal ==> w in cands
    ensures partitions != {}
    decreases goal, 2, 0
  {
    var ws := Iterate(f);
    assert forall k :: 0 <= k < |ws| ==> ws[k] in ws;
    partitions, cands := CandidatesFrom(f, goal, ws, 0, {}, map[]);
    CoversFamily(f, ws, goal, cands);
  }

  /** The loop from position `i` of the family listing on. */
  method CandidatesFrom(f: Family, goal: Weight, ws: seq<Weight>, i: nat,
                        partitions: set<seq<Weight>>, ghost cands: map<Weight, seq<Weight>>)
    returns (partitions': set<seq<Weight>>, ghost cands': map<Weight, seq<Weight>>)
    requires (forall k :: 0 <= k < |ws| ==> ws[k] in f) && i <= |ws|
    requires |ws| > 0 && ws[0] == Unit
    requires CollectedUpTo(f, goal, ws, i, cands, partitions)
    ensures CollectedUpTo(f, goal, ws, |ws|, cands', partitions')
    ensures partitions <= partitions' && partitions' != {}
    ensures forall p :: p in partitions' ==> Decomposes(f, goal, p) && Sorted(p)
    decreases goal, 1, |ws| - i
  {
    if i == |ws| {
      return partitions, cands;
    }
    var w := ws[i];
    var parts, cs := partitions, cands;
    if w <= goal {
      parts, cs := AddRecursiveCandidate(f, goal, w, partitions, cands);
    }
    CoversStep(ws, i, goal, cands, cs);
    partitions', cands' := CandidatesFrom(f, goal, ws, i + 1, parts, cs);
  }

  /** The candidate loop's invariant after the first `i` family weights. */
  ghost predicate CollectedUpTo(f: Family, goal: Weight, ws: seq<Weight>, i: nat, cands: map<Weight, seq<Weight>>, parts: set<seq<Weight>>) {
    && Collected(f, goal, cands, parts)
    && CoversUpTo(ws, i, goal, cands)
    && (i > 0 ==> parts != {})
  }

  /** Collect the candidate for family weight `w`. */
  method AddRecursiveCandidate(f: Family, goal: Weight, w: Weight, partitions: set<seq<Weight>>, ghost cands: map<Weight, seq<Weight>>)
    returns (partitions': set<seq<Weight>>, ghost cands': map<Weight, seq<Weight>>)
    requires w in f && w <= goal
    requires Collected(f, goal, cands, partitions)
    ensures Collected(f, goal, cands', partitions')
    ensures cands'.Keys == cands.Keys + {w} && partitions <= partitions' && partitions' != {}
    decreases goal, 0, 1
  {
    var solution := Candidate(f, goal, w);
    AddCandidate(f, goal, cands, partitions, w, solution);
    partitions' := partitions + {solution};
    cands' := cands[w := solution];
  }

  /** What the candidate loop has collected so far: sorted solutions for the
      goal, each bounded against the solutions for the goal less its
      weight, and the goal alone as the goal's own candidate. */
  ghost predicate Collected(f: Family, goal: Weight, cands: map<Weight, seq<Weight>>, parts: set<seq<Weight>>) {
    && (forall p :: p in parts ==> Decomposes(f, goal, p) && Sorted(p))
    && CandidatesBounded(f, goal, cands, parts)
    && (goal in cands ==> cands[goal] == [goal])
  }

  /** Once every family weight up to the goal has its candidate, a shortest
      candidate is a minimum-sized sorted solution, and it is the goal alone
      when the goal is a family weight. */
  lemma ShortestIsSolution(f: Family, goal: Weight, cands: map<Weight, seq<Weight>>, parts: set<seq<Weight>>, r: seq<Weight>)
    requires Collected(f, goal, cands, parts)
    requires forall w :: w in f && w <= goal ==> w in cands
    requires r in parts && forall p :: p in parts ==> |r| <= |p|
    ensures Minimal(f, goal, r) && Sorted(r)
    ensures goal in f ==> r == [goal]
  {
    ShortestCandidateIsMinimal(f, goal, cands, parts, |r|);
    SumOfShort(r);
    assert goal in f ==> |r| <= 1;
  }

  /** One candidate of `calculateSolution`: `w` alone when it is the goal,
      otherwise `w` added to the recursive solution for `goal - w`, sorted.
      It is a sorted solution at most one weight longer than any solution
      for `goal - w`. */
  method Candidate(f: Family, goal: Weight, w: Weight) returns (solution: seq<Weight>)
    requires w in f && w <= goal
    ensures Decomposes(f, goal, solution) && Sorted(solution)
    ensures LowerBound(f, goal - w, |solution| - 1)
    ensures w == goal ==> solution == [goal]
    decreases goal, 0, 0
  {
    var rest: seq<Weight> := [];
    if w < goal {
      rest := RecursiveSolution(f, goal - w);
    }
    ExtendSolution(f, goal, rest, w);
    solution := InsertSorted(rest, w);
    assert |solution| - 1 == |rest|;
  }
}

=== FILE: binary_tree.dfy ===
/** The generic binary tree container (`BinaryTree<T>`).  A tree is either
    empty or rooted: a value with a left and a right subtree, each of which
    is itself a tree (possibly empty).  The Java object graph with an empty
    sentinel becomes an owned algebraic datatype, so aliasing and cycles are
    impossible by construction. */
module BinaryTrees {
  import opened Wrappers

  datatype Tree<T> = Empty | Node(value: T, left: Tree<T>, right: Tree<T>)

  /** The exceptions the tree raises: a rooted tree built without a value
      (`IllegalArgumentException`) and an accessor used on the empty tree
      (the null-reference exception the Java code throws explicitly). */
  datatype TreeError = IllegalArgument | EmptyTreeAccess

  /** The (value, left, right) constructor: a missing value is rejected,
      missing children become empty children. */
  function MakeTree<T>(rootValue: Option<T>, left: Option<Tree<T>>, right: Option<Tree<T>>)
    : (r: Result<Tree<T>, TreeError>)
    ensures r.Failure? <==> rootValue.None?
    ensures r.Success? ==> r.value.Node? && r.value.value == rootValue.value
    ensures r.Success? ==> (left.None? ==> r.value.left.Empty?) && (left.Some? ==> r.value.left == left.value)
    ensures r.Success? ==> (right.None? ==> r.value.right.Empty?) && (right.Some? ==> r.value.right == right.value)
  {
    if rootValue.None? then Failure(IllegalArgument)
    else Success(Node(rootValue.value, left.GetOr(Empty), right.GetOr(Empty)))
  }

  /** The single-value constructor: a leaf. */
  function MakeLeaf<T>(rootValue: Option<T>): (r: Result<Tree<T>, TreeError>)
    ensures r.Failure? <==> rootValue.None?
    ensures r.Success? ==> r.value.Node? && r.value.left.Empty? && r.value.right.Empty?
  {
    MakeTree(rootValue, None, None)
  }

  predicate IsEmpty<T>(t: Tree<T>) {
    t.Empty?
  }

  /** `numberOfNodes`: one for the root plus the nodes of each child. */
  function NumberOfNodes<T>(t: Tree<T>): (n: nat)
    ensures n == 0 <==> t.Empty?
  {
    match t
    case Empty => 0
    case Node(_, l, r) => 1 + NumberOfNodes(l) + NumberOfNodes(r)
  }

  /** `isLeaf`: fails on the empty tree, otherwise asks whether the tree has
      exactly one node. */
  function IsLeaf<T>(t: Tree<T>): (r: Result<bool, TreeError>)
    ensures r.Failure? <==> t.Empty?
    ensures r.Success? ==> (r.value <==> t.left.Empty? && t.right.Empty?)
  {
    if t.Empty? then Failure(EmptyTreeAccess) else Success(NumberOfNodes(t) == 1)
  }

  /** A rooted tree with two empty children, the condition `isLeaf` tests. */
  predicate Leaf<T>(t: Tree<T>) {
    t.Node? && t.left.Empty? && t.right.Empty?
  }

  /** `getValue`. */
  function GetValue<T>(t: Tree<T>): (r: Result<T, TreeError>)
    ensures r.Failure? <==> t.Empty?
    ensures r.Success? ==> r.value == t.value
  {
    if t.Empty? then Failure(EmptyTreeAccess) else Success(t.value)
  }

  /** `getLeftChild`: an empty child is reported as absent. */
  function GetLeftChild<T>(t: Tree<T>): (r: Result<Option<Tree<T>>, TreeError>)
    ensures r.Failure? <==> t.Empty?
    ensures r.Success? ==> (r.value.None? <==> t.left.Empty?)
    ensures r.Success? && r.value.Some? ==> r.value.value == t.left
  {
    if t.Empty? then Failure(EmptyTreeAccess)
    else if t.left.Empty? then Success(None)
    else Success(Some(t.left))
  }

  /** `getRightChild`: an empty child is reported as absent. */
  function GetRightChild<T>(t: Tree<T>): (r: Result<Option<Tree<T>>, TreeError>)
    ensures r.Failure? <==> t.Empty?
    ensures r.Success? ==> (r.value.None? <==> t.right.Empty?)
    ensures r.Success? && r.value.Some? ==> r.value.value == t.right
  {
    if t.Empty? then Failure(EmptyTreeAccess)
    else if t.right.Empty? then Success(None)
    else Success(Some(t.right))
  }

  /** `setValue`: replaces the root value, leaving both children alone. */
  function SetValue<T>(t: Tree<T>, v: T): (r: Result<Tree<T>, TreeError>)
    ensures r.Failure? <==> t.Empty?
    ensures r.Success? ==> r.value.Node? && r.value.value == v && r.value.left == t.left && r.value.right == t.right
  {
    if t.Empty? then Failure(EmptyTreeAccess) else Success(t.(value := v))
  }

  /** `setLeftChild`: a missing child empties the left side; value and right
      child are unchanged. */
  function SetLeftChild<T>(t: Tree<T>, child: Option<Tree<T>>): (r: Result<Tree<T>, TreeError>)
    ensures r.Failure? <==> t.Empty?
    ensures r.Success? ==> r.value.Node? && r.value.value == t.value && r.value.right == t.right
    ensures r.Success? ==> r.value.left == child.GetOr(Empty)
  {
    if t.Empty? then Failure(EmptyTreeAccess) else Success(t.(left := child.GetOr(Empty)))
  }

  /** `setRightChild`: a missing child empties the right side; value and left
      child are unchanged. */
  function SetRightChild<T>(t: Tree<T>, child: Option<Tree<T>>): (r: Result<Tree<T>, TreeError>)
    ensures r.Failure? <==> t.Empty?
    ensures r.Success? ==> r.value.Node? && r.value.value == t.value && r.value.left == t.left
    ensures r.Success? ==> r.value.right == child.GetOr(Empty)
  {
    if t.Empty? then Failure(EmptyTreeAccess) else Success(t.(right := child.GetOr(Empty)))
  }

  /** The leaf count of a rooted tree, recursing only into non-empty children
      as `numberOfLeaves` does. */
  function LeafCount<T>(t: Tree<T>): (n: nat)
    requires t.Node?
    ensures 1 <= n <= NumberOfNodes(t)
  {
    if NumberOfNodes(t) == 1 then 1
    else
      (if t.left.Empty? then 0 else LeafCount(t.left))
      + (if t.right.Empty? then 0 else LeafCount(t.right))
  }

  /** `numberOfLeaves`: fails on the empty tree. */
  function NumberOfLeaves<T>(t: Tree<T>): (r: Result<nat, TreeError>)
    ensures r.Failure? <==> t.Empty?
    ensures r.Success? ==> 1 <= r.value <= NumberOfNodes(t)
  {
    if t.Empty? then Failure(EmptyTreeAccess) else Success(LeafCount(t))
  }

  function Max(a: int, b: int): int {
    if a < b then b else a
  }

  /** `height`: -1 for the empty tree, else one more than the taller child. */
  function Height<T>(t: Tree<T>): (h: int)
    ensures h == -1 <==> t.Empty?
    ensures -1 <= h < NumberOfNodes(t)
  {
    if t.Empty? then -1
    else
      var maxChild := if t.left.Empty? then -1 else Height(t.left);
      var maxChild' := if t.right.Empty? then maxChild else Max(maxChild, Height(t.right));
      1 + maxChild'
  }

  /** The empty tree: empty, height -1, no nodes, and every root accessor
      and mutator fails. */
  lemma EmptyTreeFacts<T>(v: T, child: Option<Tree<T>>)
    ensures IsEmpty<T>(Empty) && Height<T>(Empty) == -1 && NumberOfNodes<T>(Empty) == 0
    ensures GetValue<T>(Empty).Failure? && GetLeftChild<T>(Empty).Failure? && GetRightChild<T>(Empty).Failure?
    ensures SetValue(Empty, v).Failure? && SetLeftChild(Empty, child).Failure? && SetRightChild(Empty, child).Failure?
    ensures IsLeaf<T>(Empty).Failure? && NumberOfLeaves<T>(Empty).Failure?
  {
  }

  /** `preorderValues`. */
  function PreorderValues<T>(t: Tree<T>): (r: seq<T>)
    ensures |r| == NumberOfNodes(t)
    ensures t.Node? ==> r[0] == t.value
  {
    if t.Empty? then [] else [t.value] + PreorderValues(t.left) + PreorderValues(t.right)
  }

  /** `inorderValues`. */
  function InorderValues<T>(t: Tree<T>): (r: seq<T>)
    ensures |r| == NumberOfNodes(t)
    ensures t.Node? ==> r[NumberOfNodes(t.left)] == t.value
  {
    if t.Empty? then [] else InorderValues(t.left) + [t.value] + InorderValues(t.right)
  }

  /** `postorderValues`. */
  function PostorderValues<T>(t: Tree<T>): (r: seq<T>)
    ensures |r| == NumberOfNodes(t)
    ensures t.Node? ==> r[|r| - 1] == t.value
  {
    if t.Empty? then [] else PostorderValues(t.left) + PostorderValues(t.right) + [t.value]
  }

  /** The three value traversals list the same values, each as often. */
  lemma {:induction false} TraversalsArePermutations<T>(t: Tree<T>)
    ensures multiset(PreorderValues(t)) == multiset(InorderValues(t))
    ensures multiset(InorderValues(t)) == multiset(PostorderValues(t))
  {
    if t.Node? {
      TraversalsArePermutations(t.left);
      TraversalsArePermutations(t.right);
    }
  }

  /** `preorderSubtrees`: every node's subtree, root first. */
  function PreorderSubtrees<T>(t: Tree<T>): (r: seq<Tree<T>>)
    ensures |r| == NumberOfNodes(t)
    ensures forall k :: 0 <= k < |r| ==> r[k].Node?
    ensures t.Node? ==> r[0] == t
  {
    if t.Empty? then [] else [t] + PreorderSubtrees(t.left) + PreorderSubtrees(t.right)
  }

  /** `inorderSubtrees`. */
  function InorderSubtrees<T>(t: Tree<T>): (r: seq<Tree<T>>)
    ensures |r| == NumberOfNodes(t)
    ensures forall k :: 0 <= k < |r| ==> r[k].Node?
    ensures t.Node? ==> r[NumberOfNodes(t.left)] == t
  {
    if t.Empty? then [] else InorderSubtrees(t.left) + [t] + InorderSubtrees(t.right)
  }

  /** `postorderSubtrees`, also the order of the tree's iterator. */
  function PostorderSubtrees<T>(t: Tree<T>): (r: seq<Tree<T>>)
    ensures |r| == NumberOfNodes(t)
    ensures forall k :: 0 <= k < |r| ==> r[k].Node?
    ensures t.Node? ==> r[|r| - 1] == t
  {
    if t.Empty? then [] else PostorderSubtrees(t.left) + PostorderSubtrees(t.right) + [t]
  }

  /** `values`: the root values of a list of trees, skipping empty trees. */
  function Values<T>(trees: seq<Tree<T>>): (r: seq<T>)
    ensures |r| <= |trees|
    ensures (forall k :: 0 <= k < |trees| ==> trees[k].Node?) ==>
              |r| == |trees| && forall k :: 0 <= k < |trees| ==> r[k] == trees[k].value
  {
    if |trees| == 0 then []
    else if trees[0].Empty? then Values(trees[1..])
    else [trees[0].value] + Values(trees[1..])
  }

  /** The subtree traversals and the value traversals visit the same nodes:
      mapping `values` over a subtree list gives the value list. */
  lemma SubtreeTraversalsMatchValues<T>(t: Tree<T>)
    ensures Values(PreorderSubtrees(t)) == PreorderValues(t)
    ensures Values(InorderSubtrees(t)) == InorderValues(t)
    ensures Values(PostorderSubtrees(t)) == PostorderValues(t)
  {
    SubtreesMatchValuesPre(t);
    SubtreesMatchValuesIn(t);
    SubtreesMatchValuesPost(t);
  }

  lemma {:induction false} SubtreesMatchValuesPre<T>(t: Tree<T>)
    ensures Values(PreorderSubtrees(t)) == PreorderValues(t)
  {
    var s := PreorderSubtrees(t);
    var v := PreorderValues(t);
    assert |Values(s)| == |v|;
    forall k | 0 <= k < |v|
      ensures Values(s)[k] == v[k]
    {
      ValueAtPre(t, k);
    }
  }

  lemma {:induction false} ValueAtPre<T>(t: Tree<T>, k: nat)
    requires k < NumberOfNodes(t)
    ensures PreorderSubtrees(t)[k].value == PreorderValues(t)[k]
  {
    if k > 0 {
      var nl := NumberOfNodes(t.left);
      if k - 1 < nl {
        ValueAtPre(t.left, k - 1);
      } else {
        ValueAtPre(t.right, k - 1 - nl);
      }
    }
  }

  lemma {:induction false} SubtreesMatchValuesIn<T>(t: Tree<T>)
    ensures Values(InorderSubtrees(t)) == InorderValues(t)
  {
    var s := InorderSubtrees(t);
    var v := InorderValues(t);
    assert |Values(s)| == |v|;
    forall k | 0 <= k < |v|
      ensures Values(s)[k] == v[k]
    {
      ValueAtIn(t, k);
    }
  }

  lemma {:induction false} ValueAtIn<T>(t: Tree<T>, k: nat)
    requires k < NumberOfNodes(t)
    ensures InorderSubtrees(t)[k].value == InorderValues(t)[k]
  {
    var nl := NumberOfNodes(t.left);
    if k < nl {
      ValueAtIn(t.left, k);
    } else if k > nl {
      ValueAtIn(t.right, k - 1 - nl);
    }
  }

  lemma {:induction false} SubtreesMatchValuesPost<T>(t: Tree<T>)
    ensures Values(PostorderSubtrees(t)) == PostorderValues(t)
  {
    var s := PostorderSubtrees(t);
    var v := PostorderValues(t);
    assert |Values(s)| == |v|;
    forall k | 0 <= k < |v|
      ensures Values(s)[k] == v[k]
    {
      ValueAtPost(t, k);
    }
  }

  lemma {:induction false} ValueAtPost<T>(t: Tree<T>, k: nat)
    requires k < NumberOfNodes(t)
    ensures PostorderSubtrees(t)[k].value == PostorderValues(t)[k]
  {
    var nl := NumberOfNodes(t.left);
    var nr := NumberOfNodes(t.right);
    if k < nl {
      ValueAtPost(t.left, k);
    } else if k < nl + nr {
      ValueAtPost(t.right, k - nl);
    }
  }

  /** `compareTrees`, the structural equality behind `equals`: both empty,
      or equal heights, equal root values, children absent on the same sides
      and equal where present. */
  function CompareTrees<T(==)>(a: Tree<T>, b: Tree<T>): (r: bool)
    ensures r ==> NumberOfNodes(a) == NumberOfNodes(b) && Height(a) == Height(b)
    ensures r && a.Node? ==> b.Node? && a.value == b.value
  {
    if a.Empty? then b.Empty?
    else if Height(a) != Height(b) then false
    else
      && a.value == b.value
      && a.left.Empty? == b.left.Empty?
      && (a.left.Empty? || CompareTrees(a.left, b.left))
      && a.right.Empty? == b.right.Empty?
      && (a.right.Empty? || CompareTrees(a.right, b.right))
  }

  /** Structural equality holds exactly when the trees have the same shape
      and equal values at corresponding nodes. */
  lemma {:induction false} CompareTreesIsEquality<T>(a: Tree<T>, b: Tree<T>)
    ensures CompareTrees(a, b) <==> a == b
  {
    if a.Node? && b.Node? {
      CompareTreesIsEquality(a.left, b.left);
      CompareTreesIsEquality(a.right, b.right);
    }
  }

  /** Hence `equals` on trees is reflexive and symmetric. */
  lemma CompareTreesReflexiveSymmetric<T>(a: Tree<T>, b: Tree<T>)
    ensures CompareTrees(a, a)
    ensures CompareTrees(a, b) == CompareTrees(b, a)
  {
    CompareTreesIsEquality(a, a);
    CompareTreesIsEquality(a, b);
    CompareTreesIsEquality(b, a);
  }
}

=== FILE: bits.dfy ===
/** The appendable bit string used for Huffman codes and encoded payloads
    (`StringOfBits`).  The mutable Java object is modelled by its contents,
    a sequence of bits; every mutator returns the new contents. */
module Bits {
  import opened Wrappers

  /** A stored element: the Java code keeps bits as `Integer`s that are 0 or 1. */
  type Bit = b: int | b == 0 || b == 1

  type BitString = seq<Bit>

  /** The only exception a bit string raises. */
  datatype BitError = IndexOutOfBounds

  /** Length of the pattern stored for malformed constructor input. */
  const DefaultLength: nat := 10

  /** `charToInt`: '1' is 1, every other character 0. */
  function CharToBit(c: char): (b: Bit)
    ensures b == 1 <==> c == '1'
  {
    if c == '1' then 1 else 0
  }

  /** `booleanToInt`: true is 1, false is 0. */
  function BooleanToBit(x: bool): (b: Bit)
    ensures b == 1 <==> x
  {
    if x then 1 else 0
  }

  /** `constrainInt`: exactly the int 1 becomes 1, everything else 0. */
  function ConstrainInt(i: int): (b: Bit)
    ensures b == 1 <==> i == 1
  {
    if i == 1 then 1 else 0
  }

  /** The digit character a bit renders as. */
  function DigitChar(b: Bit): char {
    if b == 0 then '0' else '1'
  }

  /** The `[01]*` test the string constructor applies. */
  predicate IsBitText(s: string) {
    forall k :: 0 <= k < |s| ==> s[k] == '0' || s[k] == '1'
  }

  /** `toBitArray`: one bit per character, '1' to 1 and anything else to 0. */
  function ToBitArray(s: string): (r: BitString)
    ensures |r| == |s|
    ensures forall k :: 0 <= k < |s| ==> (r[k] == 1 <==> s[k] == '1')
  {
    if |s| == 0 then [] else ToBitArray(s[..|s| - 1]) + [CharToBit(s[|s| - 1])]
  }

  /** `toString`: the digits of the bit string in order. */
  function ToString(b: BitString): (s: string)
    ensures |s| == |b|
    ensures IsBitText(s)
    ensures forall k :: 0 <= k < |b| ==> (s[k] == '1' <==> b[k] == 1)
  {
    if |b| == 0 then "" else ToString(b[..|b| - 1]) + [DigitChar(b[|b| - 1])]
  }

  /** The no-argument constructor. */
  function EmptyBits(): (r: BitString)
    ensures |r| == 0
  {
    []
  }

  /** The `CharSequence` constructor: text over {'0','1'} becomes those bits;
      any other text yields the fixed ten-zero default pattern. */
  function FromChars(s: string): (r: BitString)
    ensures IsBitText(s) ==> |r| == |s| && ToString(r) == s
    ensures !IsBitText(s) ==> |r| == DefaultLength && forall k :: 0 <= k < |r| ==> r[k] == 0
  {
    if IsBitText(s) then
      var r := ToBitArray(s);
      assert ToString(r) == s by {
        var t := ToString(r);
        assert forall k :: 0 <= k < |s| ==> t[k] == s[k] by {
          forall k | 0 <= k < |s|
            ensures t[k] == s[k]
          {
            assert (t[k] == '1') == (s[k] == '1');
          }
        }
      }
      r
    else
      seq(DefaultLength, _ => 0)
  }

  /** `append(char)`. */
  function AppendChar(bits: BitString, c: char): (r: BitString)
    ensures |r| == |bits| + 1 && r[..|bits|] == bits
    ensures r[|bits|] == 1 <==> c == '1'
  {
    bits + [CharToBit(c)]
  }

  /** `append(boolean)`. */
  function AppendBoolean(bits: BitString, x: bool): (r: BitString)
    ensures |r| == |bits| + 1 && r[..|bits|] == bits
    ensures r[|bits|] == 1 <==> x
  {
    bits + [BooleanToBit(x)]
  }

  /** `append(int)`: only the int 1 appends a one bit. */
  function AppendInt(bits: BitString, i: int): (r: BitString)
    ensures |r| == |bits| + 1 && r[..|bits|] == bits
    ensures r[|bits|] == 1 <==> i == 1
  {
    bits + [ConstrainInt(i)]
  }

  /** `append(CharSequence)`: one bit per character, no validation. */
  function AppendChars(bits: BitString, str: string): (r: BitString)
    ensures |r| == |bits| + |str| && r[..|bits|] == bits
    ensures forall k :: 0 <= k < |str| ==> (r[|bits| + k] == 1 <==> str[k] == '1')
  {
    bits + ToBitArray(str)
  }

  /** `append(StringOfBits)`: copies the other string bit by bit onto the end. */
  method AppendBits(bits: BitString, other: BitString) returns (r: BitString)
    ensures r == bits + other
  {
    r := bits;
    var i := 0;
    while i < |other|
      invariant 0 <= i <= |other|
      invariant r == bits + other[..i]
    {
      r := r + [other[i]];
      i := i + 1;
      assert other[..i] == other[..i - 1] + [other[i - 1]];
    }
    assert other[..|other|] == other;
  }

  /** The copy constructor: reads the original bit by bit. */
  method Copy(sb: BitString) returns (r: BitString)
    ensures |r| == |sb|
    ensures forall k :: 0 <= k < |sb| ==> r[k] == sb[k]
  {
    r := [];
    var i := 0;
    while i < |sb|
      invariant 0 <= i <= |sb|
      invariant r == sb[..i]
    {
      r := r + [sb[i]];
      i := i + 1;
    }
  }

  /** `charAt`. */
  function CharAt(bits: BitString, index: int): (r: Result<char, BitError>)
    ensures r.Failure? <==> index < 0 || index >= |bits|
    ensures r.Success? ==> (r.value == '0' || r.value == '1') && (r.value == '1' <==> bits[index] == 1)
  {
    if index >= |bits| || index < 0 then Failure(IndexOutOfBounds)
    else if bits[index] == 0 then Success('0')
    else Success('1')
  }

  /** `intAt`. */
  function IntAt(bits: BitString, index: int): (r: Result<int, BitError>)
    ensures r.Failure? <==> index < 0 || index >= |bits|
    ensures r.Success? ==> (r.value == 0 || r.value == 1) && r.value == bits[index]
  {
    if index >= |bits| || index < 0 then Failure(IndexOutOfBounds)
    else Success(bits[index])
  }

  /** `booleanAt`. */
  function BooleanAt(bits: BitString, index: int): (r: Result<bool, BitError>)
    ensures r.Failure? <==> index < 0 || index >= |bits|
    ensures r.Success? ==> (r.value <==> bits[index] == 1)
  {
    if index >= |bits| || index < 0 then Failure(IndexOutOfBounds)
    else Success(bits[index] == 1)
  }

  /** The three accessors fail together and agree: '1' iff 1 iff true. */
  lemma AccessorsAgree(bits: BitString, index: int)
    ensures CharAt(bits, index).Success? == IntAt(bits, index).Success? == BooleanAt(bits, index).Success?
    ensures CharAt(bits, index).Success? ==>
      (CharAt(bits, index).value == '1' <==> IntAt(bits, index).value == 1) &&
      (IntAt(bits, index).value == 1 <==> BooleanAt(bits, index).value)
  {
  }

  /** What a successful `setBitAt` leaves around the position it sets: inside
      the string every other position is kept and the length is unchanged;
      at or past the end the old bits are kept, the gap up to the index is
      filled with 0 bits and the new length is index + 1. */
  predicate PlacedAt(bits: BitString, index: int, r: BitString) {
    && 0 <= index < |r|
    && |r| == (if index < |bits| then |bits| else index + 1)
    && (forall k :: 0 <= k < |bits| && k != index ==> r[k] == bits[k])
    && (forall k :: |bits| <= k < index ==> r[k] == 0)
  }

  /** The body shared by the three `setBitAt` overloads, once the new value
      has been converted to a bit.  An index inside the string overwrites that
      position (a negative one makes the list throw); an index at or past the
      end zero-fills the gap and then appends. */
  method SetBit(bits: BitString, index: int, b: Bit) returns (r: Result<BitString, BitError>)
    ensures r.Failure? <==> index < 0
    ensures r.Success? ==> PlacedAt(bits, index, r.value) && r.value[index] == b
  {
    if index < |bits| {
      if index < 0 {
        return Failure(IndexOutOfBounds);
      }
      return Success(bits[index := b]);
    }
    var filled := bits;
    while |filled| < index
      invariant |bits| <= |filled| <= index
      invariant filled[..|bits|] == bits
      invariant forall k :: |bits| <= k < |filled| ==> filled[k] == 0
    {
      filled := filled + [0];
    }
    r := Success(filled + [b]);
  }

  /** `setBitAt(int, char)`. */
  method SetBitAtChar(bits: BitString, index: int, c: char) returns (r: Result<BitString, BitError>)
    ensures r.Failure? <==> index < 0
    ensures r.Success? ==> PlacedAt(bits, index, r.value)
    ensures r.Success? ==> (r.value[index] == 1 <==> c == '1')
  {
    r := SetBit(bits, index, CharToBit(c));
  }

  /** `setBitAt(int, int)`. */
  method SetBitAtInt(bits: BitString, index: int, i: int) returns (r: Result<BitString, BitError>)
    ensures r.Failure? <==> index < 0
    ensures r.Success? ==> PlacedAt(bits, index, r.value)
    ensures r.Success? ==> (r.value[index] == 1 <==> i == 1)
  {
    r := SetBit(bits, index, ConstrainInt(i));
  }

  /** `setBitAt(int, boolean)`. */
  method SetBitAtBoolean(bits: BitString, index: int, x: bool) returns (r: Result<BitString, BitError>)
    ensures r.Failure? <==> index < 0
    ensures r.Success? ==> PlacedAt(bits, index, r.value)
    ensures r.Success? ==> (r.value[index] == 1 <==> x)
  {
    r := SetBit(bits, index, BooleanToBit(x));
  }

  /** Rendering then re-reading gives back the same bits. */
  lemma {:induction false} RenderThenParse(b: BitString)
    ensures FromChars(ToString(b)) == b
  {
    var s := ToString(b);
    var r := FromChars(s);
    assert |r| == |b|;
    forall k | 0 <= k < |b|
      ensures r[k] == b[k]
    {
      assert (r[k] == 1) == (s[k] == '1');
    }
  }

  /** Parsing well-formed text and rendering it gives back the same text. */
  lemma ParseThenRender(s: string)
    requires IsBitText(s)
    ensures ToString(FromChars(s)) == s
  {
  }
}

=== FILE: hangman_basic.dfy ===
/** The basic (fair) hangman manager: one goal word, chosen at the start. */
module HangmanBasic {
  import opened Wrappers
  import opened HangmanPatterns

  /** The manager's state; the goal is absent when no dictionary word has
      the requested length. */
  datatype BasicGame = BasicGame(guessesLeft: nat, guesses: set<char>, goal: Option<string>)

  /** `chooseGoalWord`: none when no dictionary word has the length,
      otherwise one of them.  The Java code shuffles the candidates and takes
      the first; which one comes out is left open here. */
  method ChooseGoalWord(dictionary: seq<string>, length: int) returns (goal: Option<string>)
    ensures goal.None? <==> forall k :: 0 <= k < |dictionary| ==> |dictionary[k]| != length
    ensures goal.Some? ==> goal.value in dictionary && |goal.value| == length
  {
    var wordList := [];
    for k := 0 to |dictionary|
      invariant forall w :: w in wordList <==> w in dictionary[..k] && |w| == length
    {
      assert dictionary[..k + 1] == dictionary[..k] + [dictionary[k]];
      if |dictionary[k]| == length {
        wordList := wordList + [dictionary[k]];
      }
    }
    assert dictionary[..|dictionary|] == dictionary;
    assert forall k :: 0 <= k < |dictionary| ==> dictionary[k] in dictionary;
    if |wordList| == 0 {
      goal := None;
    } else {
      var pick :| 0 <= pick < |wordList|;
      goal := Some(wordList[pick]);
      assert wordList[pick] in wordList;
    }
  }

  /** The constructor: rejects a word length below 1 or a negative number
      of wrong guesses; otherwise all guesses are left, none made, and the
      goal is as `ChooseGoalWord` describes. */
  method NewBasicGame(dictionary: seq<string>, length: int, max: int) returns (r: Result<BasicGame, HangmanError>)
    ensures r.Failure? <==> !ValidSetup(length, max)
    ensures r.Failure? ==> r.error == IllegalArgument
    ensures r.Success? ==> r.value.guessesLeft == max && r.value.guesses == {}
    ensures r.Success? ==> (r.value.goal.None? <==> forall k :: 0 <= k < |dictionary| ==> |dictionary[k]| != length)
    ensures r.Success? && r.value.goal.Some? ==> r.value.goal.value in dictionary && |r.value.goal.value| == length
  {
    if !ValidSetup(length, max) {
      return Failure(IllegalArgument);
    }
    var goal := ChooseGoalWord(dictionary, length);
    r := Success(BasicGame(max, {}, goal));
  }

  /** `words()`: the goal alone, or nothing without a goal. */
  function Words(g: BasicGame): (r: set<string>)
    ensures r == {} <==> g.goal.None?
    ensures forall w :: w in r <==> g.goal == Some(w)
  {
    if g.goal.None? then {} else {g.goal.value}
  }

  /** `pattern()`: the goal's pattern under the letters guessed so far.
      Without a goal the Java code dereferences a null word, hence the
      requirement. */
  function CurrentPattern(g: BasicGame): (r: string)
    requires g.goal.Some?
    ensures |r| == |g.goal.value|
    ensures forall i :: 0 <= i < |r| ==> r[i] == if g.goal.value[i] in g.guesses then g.goal.value[i] else Dash
  {
    Pattern(g.goal.value, g.guesses)
  }

  /** `record(guess)`: an illegal state when no guesses are left or there is
      no goal; otherwise an illegal argument when the letter was guessed
      before; otherwise the letter joins the guesses, the result is its
      number of occurrences in the goal, and a guess that does not occur
      costs one remaining guess.  A failed call changes nothing. */
  function Record(g: BasicGame, guess: char): (r: Result<(BasicGame, nat), HangmanError>)
    ensures r.Failure? <==> g.guessesLeft == 0 || g.goal.None? || guess in g.guesses
    ensures r.Failure? ==> (r.error == IllegalState <==> g.guessesLeft == 0 || g.goal.None?)
    ensures r.Success? ==> r.value.0.guesses == g.guesses + {guess} && r.value.0.goal == g.goal
    ensures r.Success? ==> r.value.1 == multiset(g.goal.value)[guess]
    ensures r.Success? ==> (r.value.1 == 0 <==> guess !in g.goal.value)
    ensures r.Success? ==> r.value.0.guessesLeft == if guess in g.goal.value then g.guessesLeft else g.guessesLeft - 1
  {
    if g.guessesLeft == 0 || g.goal.None? then Failure(IllegalState)
    else if guess in g.guesses then Failure(IllegalArgument)
    else
      var next := g.(guesses := g.guesses + {guess});
      if guess in g.goal.value then
        Success((next, CountOccurrences(g.goal.value, guess)))
      else
        Success((next.(guessesLeft := g.guessesLeft - 1), 0))
  }

  /** The guessed letters that do not occur in the goal. */
  function WrongGuesses(g: BasicGame): set<char>
    requires g.goal.Some?
  {
    set c | c in g.guesses && c !in g.goal.value
  }

  /** The bookkeeping invariant: remaining guesses plus wrong guesses made
      is the allowance the game started with. */
  ghost predicate Accounted(g: BasicGame, max: nat) {
    g.goal.Some? && g.guessesLeft + |WrongGuesses(g)| == max
  }

  /** A fresh game with a goal is accounted for, and every successful
      `record` keeps it so: a wrong guess moves one unit from the remaining
      guesses to the wrong guesses. */
  lemma RecordKeepsAccount(g: BasicGame, max: nat, guess: char)
    requires Accounted(g, max)
    requires Record(g, guess).Success?
    ensures Accounted(Record(g, guess).value.0, max)
  {
    var next := Record(g, guess).value.0;
    if guess in g.goal.value {
      assert WrongGuesses(next) == WrongGuesses(g);
    } else {
      assert WrongGuesses(next) == WrongGuesses(g) + {guess};
    }
  }

  /** A new game with a goal starts out accounted for. */
  lemma NewGameAccounted(g: BasicGame, max: nat)
    requires g.goal.Some? && g.guessesLeft == max && g.guesses == {}
    ensures Accounted(g, max)
  {
    assert WrongGuesses(g) == {};
  }

  /** The player has won, in the sense that the pattern shows the whole
      goal, exactly when every letter of the goal has been guessed. */
  lemma WonWhenAllGuessed(g: BasicGame)
    requires g.goal.Some?
    ensures CurrentPattern(g) == g.goal.value <==> forall i :: 0 <= i < |g.goal.value| ==> g.goal.value[i] in g.guesses || g.goal.value[i] == Dash
  {
    PatternRevealsWord(g.goal.value, g.guesses);
  }
}

=== FILE: hangman_devious.dfy ===
/** The devious hangman manager: it commits to no goal word.  It keeps a set
    of candidate words and, on every guess, keeps a largest class of the
    candidates that share a pattern. */
module HangmanDevious {
  import opened Wrappers
  import opened HangmanPatterns

  /** The manager's state: remaining wrong guesses, letters guessed, and the
      candidate words (a tree set, so ordered). */
  datatype DeviousGame = DeviousGame(guessesLeft: nat, guesses: set<char>, words: set<string>)

  /** `a.compareTo(b) <= 0` for strings: lexicographic by character, a proper
      prefix first. */
  predicate LexLeq(a: string, b: string)
    decreases |a|
  {
    |a| == 0 || (|b| > 0 && (a[0] < b[0] || (a[0] == b[0] && LexLeq(a[1..], b[1..]))))
  }

  lemma {:induction false} LexLeqTotal(a: string, b: string)
    ensures LexLeq(a, b) || LexLeq(b, a)
    decreases |a|
  {
    if |a| > 0 && |b| > 0 && a[0] == b[0] {
      LexLeqTotal(a[1..], b[1..]);
    }
  }

  lemma {:induction false} LexLeqTransitive(a: string, b: string, c: string)
    requires LexLeq(a, b) && LexLeq(b, c)
    ensures LexLeq(a, c)
    decreases |a|
  {
    if |a| > 0 && a[0] == b[0] && b[0] == c[0] {
      LexLeqTransitive(a[1..], b[1..], c[1..]);
    }
  }

  lemma {:induction false} LexLeqAntisymmetric(a: string, b: string)
    requires LexLeq(a, b) && LexLeq(b, a)
    ensures a == b
    decreases |a|
  {
    if |a| > 0 {
      LexLeqAntisymmetric(a[1..], b[1..]);
      assert a == [a[0]] + a[1..] && b == [b[0]] + b[1..];
    }
  }

  predicate IsFirst(words: set<string>, w: string) {
    w in words && forall v :: v in words ==> LexLeq(w, v)
  }

  /** Every nonempty finite set of strings has a first element. */
  lemma {:induction false} HasFirst(words: set<string>)
    requires words != {}
    ensures exists w :: IsFirst(words, w)
    decreases |words|
  {
    var x :| x in words;
    if words != {x} {
      HasFirst(words - {x});
      var m :| IsFirst(words - {x}, m);
      LexLeqTotal(x, m);
      if LexLeq(x, m) {
        forall v | v in words
          ensures LexLeq(x, v)
        {
          if v == x {
            LexLeqTotal(x, x);
          } else {
            LexLeqTransitive(x, m, v);
          }
        }
        assert IsFirst(words, x);
      } else {
        forall v | v in words
          ensures LexLeq(m, v)
        {
          if v != x {
            assert v in words - {x};
          }
        }
        assert IsFirst(words, m);
      }
    } else {
      LexLeqTotal(x, x);
      assert IsFirst(words, x);
    }
  }

  /** There is only one first element. */
  lemma FirstIsUnique(words: set<string>)
    ensures forall a, b :: IsFirst(words, a) && IsFirst(words, b) ==> a == b
  {
    forall a, b | IsFirst(words, a) && IsFirst(words, b)
      ensures a == b
    {
      LexLeqAntisymmetric(a, b);
    }
  }

  /** `words.iterator().next()`: the first candidate in string order. */
  function FirstWord(words: set<string>): (w: string)
    requires words != {}
    ensures IsFirst(words, w)
  {
    HasFirst(words);
    FirstIsUnique(words);
    var w :| IsFirst(words, w);
    w
  }

  /** The constructor: rejects a word length below 1 or a negative number
      of wrong guesses; otherwise the candidates are exactly the dictionary
      words of the requested length. */
  function NewDeviousGame(dictionary: seq<string>, length: int, max: int): (r: Result<DeviousGame, HangmanError>)
    ensures r.Failure? <==> !ValidSetup(length, max)
    ensures r.Failure? ==> r.error == IllegalArgument
    ensures r.Success? ==> r.value.guessesLeft == max && r.value.guesses == {}
    ensures r.Success? ==> forall w :: w in r.value.words <==> w in dictionary && |w| == length
  {
    if !ValidSetup(length, max) then Failure(IllegalArgument)
    else Success(DeviousGame(max, {}, WordsOfLength(dictionary, length)))
  }

  /** The game invariant: all candidates share one pattern under the letters
      guessed so far. */
  ghost predicate SharedPattern(g: DeviousGame) {
    forall a, b :: a in g.words && b in g.words ==> Pattern(a, g.guesses) == Pattern(b, g.guesses)
  }

  /** A new game has the invariant: with nothing guessed every candidate of
      the one length shows as dashes only. */
  lemma NewGameShared(dictionary: seq<string>, length: int, max: int)
    requires NewDeviousGame(dictionary, length, max).Success?
    ensures SharedPattern(NewDeviousGame(dictionary, length, max).value)
  {
    var g := NewDeviousGame(dictionary, length, max).value;
    forall a, b | a in g.words && b in g.words
      ensures Pattern(a, g.guesses) == Pattern(b, g.guesses)
    {
      assert |Pattern(a, {})| == |Pattern(b, {})|;
    }
  }

  /** `words()`. */
  function Words(g: DeviousGame): (r: set<string>)
    ensures r == g.words
  {
    g.words
  }

  /** `pattern()`: an illegal state without candidates, otherwise the first
      candidate's pattern, which under the invariant is every candidate's
      pattern. */
  function CurrentPattern(g: DeviousGame): (r: Result<string, HangmanError>)
    ensures r.Failure? <==> g.words == {}
    ensures r.Failure? ==> r.error == IllegalState
    ensures r.Success? && SharedPattern(g) ==> forall w :: w in g.words ==> r.value == Pattern(w, g.guesses)
  {
    if g.words == {} then Failure(IllegalState)
    else Success(Pattern(FirstWord(g.words), g.guesses))
  }

  /** The candidates showing pattern `p`. */
  function Class(words: set<string>, guesses: set<char>, p: string): (r: set<string>)
    ensures forall w :: w in r <==> w in words && Pattern(w, guesses) == p
  {
    set w | w in words && Pattern(w, guesses) == p
  }

  /** The pattern map of the candidates visited so far. */
  ghost predicate MapsClasses(m: map<string, set<string>>, visited: set<string>, guesses: set<char>) {
    && (forall p :: p in m <==> exists w :: w in visited && Pattern(w, guesses) == p)
    && (forall p :: p in m ==> m[p] == Class(visited, guesses, p))
  }

  /** The body of `getPatternMap`'s loop: file the word under its pattern,
      opening a new entry for a pattern not seen before. */
  function FileWord(m: map<string, set<string>>, word: string, guesses: set<char>): (r: map<string, set<string>>)
    ensures r.Keys == m.Keys + {Pattern(word, guesses)}
  {
    var p := Pattern(word, guesses);
    if p in m then m[p := m[p] + {word}] else m[p := {word}]
  }

  /** Filing one more word keeps the map the pattern map of the words
      visited. */
  lemma FileWordMapsClasses(m: map<string, set<string>>, visited: set<string>, word: string, guesses: set<char>)
    requires MapsClasses(m, visited, guesses)
    ensures MapsClasses(FileWord(m, word, guesses), visited + {word}, guesses)
  {
    FileWordKeys(m, visited, word, guesses);
    FileWordClasses(m, visited, word, guesses);
  }

  /** After filing, the keys are the patterns of the words visited. */
  lemma FileWordKeys(m: map<string, set<string>>, visited: set<string>, word: string, guesses: set<char>)
    requires forall p :: p in m <==> exists w :: w in visited && Pattern(w, guesses) == p
    ensures forall p :: p in FileWord(m, word, guesses) <==> exists w :: w in visited + {word} && Pattern(w, guesses) == p
  {
    var r := FileWord(m, word, guesses);
    forall p | p in r
      ensures exists w :: w in visited + {word} && Pattern(w, guesses) == p
    {
      if p != Pattern(word, guesses) {
        var w :| w in visited && Pattern(w, guesses) == p;
        assert w in visited + {word};
      }
    }
  }

  /** After filing, each entry is the class of its pattern among the words
      visited. */
  lemma FileWordClasses(m: map<string, set<string>>, visited: set<string>, word: string, guesses: set<char>)
    requires forall p :: p in m ==> m[p] == Class(visited, guesses, p)
    requires forall w :: w in visited ==> Pattern(w, guesses) in m
    ensures forall p :: p in FileWord(m, word, guesses) ==> FileWord(m, word, guesses)[p] == Class(visited + {word}, guesses, p)
  {
    var r := FileWord(m, word, guesses);
    forall p | p in r
      ensures r[p] == Class(visited + {word}, guesses, p)
    {
      ClassAdd(visited, word, guesses, p);
      if p == Pattern(word, guesses) && p !in m {
        assert Class(visited, guesses, p) == {};
      }
    }
  }

  /** One more word joins the class of its own pattern and no other. */
  lemma ClassAdd(visited: set<string>, word: string, guesses: set<char>, p: string)
    ensures Class(visited + {word}, guesses, p)
            == Class(visited, guesses, p) + (if Pattern(word, guesses) == p then {word} else {})
  {
  }

  /** `getPatternMap`: one entry per pattern shown by some candidate, holding
      the candidates that show it.  The candidates are visited in order. */
  method GetPatternMap(words: set<string>, guesses: set<char>) returns (m: map<string, set<string>>)
    ensures forall p :: p in m <==> exists w :: w in words && Pattern(w, guesses) == p
    ensures forall p :: p in m ==> m[p] == Class(words, guesses, p)
  {
    m := map[];
    var rest := words;
    ghost var visited: set<string> := {};
    while rest != {}
      invariant visited + rest == words
      invariant MapsClasses(m, visited, guesses)
      decreases |rest|
    {
      var word := FirstWord(rest);
      FileWordMapsClasses(m, visited, word, guesses);
      m := FileWord(m, word, guesses);
      visited := visited + {word};
      rest := rest - {word};
    }
  }

  /** The classes partition the candidates: every candidate is in the class
      of its own pattern and in no other. */
  lemma ClassesPartition(words: set<string>, guesses: set<char>, w: string, p: string)
    requires w in words
    ensures w in Class(words, guesses, Pattern(w, guesses))
    ensures w in Class(words, guesses, p) <==> p == Pattern(w, guesses)
  {
  }

  /** Among finitely many patterns one has a largest class. */
  lemma {:induction false} HasLargestClass(m: map<string, set<string>>, keys: set<string>)
    requires keys != {} && keys <= m.Keys
    ensures exists p :: p in keys && forall q :: q in keys ==> |m[q]| <= |m[p]|
    decreases |keys|
  {
    var x :| x in keys;
    if keys != {x} {
      HasLargestClass(m, keys - {x});
      var p :| p in keys - {x} && forall q :: q in keys - {x} ==> |m[q]| <= |m[p]|;
      var best := if |m[x]| <= |m[p]| then p else x;
      forall q | q in keys
        ensures |m[q]| <= |m[best]|
      {
        if q != x {
          assert q in keys - {x};
        }
      }
    } else {
      forall q | q in keys
        ensures |m[q]| <= |m[x]|
      {
        assert q in {x};
      }
    }
  }

  /** `updateWords`: keep a largest class of the pattern map.  Which of
      several equally large classes is kept depends on hash-map order and is
      left open. */
  method UpdateWords(words: set<string>, guesses: set<char>) returns (kept: set<string>)
    requires words != {}
    ensures kept <= words && kept != {}
    ensures forall a, b :: a in kept && b in kept ==> Pattern(a, guesses) == Pattern(b, guesses)
    ensures forall w :: w in kept ==> kept == Class(words, guesses, Pattern(w, guesses))
    ensures forall w :: w in words ==> |Class(words, guesses, Pattern(w, guesses))| <= |kept|
  {
    var m := GetPatternMap(words, guesses);
    var some :| some in words;
    assert Pattern(some, guesses) in m;
    HasLargestClass(m, m.Keys);
    var p :| p in m.Keys && forall q :: q in m.Keys ==> |m[q]| <= |m[p]|;
    kept := m[p];
    forall w | w in words
      ensures |Class(words, guesses, Pattern(w, guesses))| <= |kept|
    {
      assert Pattern(w, guesses) in m;
    }
    var member :| member in words && Pattern(member, guesses) == p;
    assert member in kept;
  }

  /** `record(guess)`: the same errors, in the same order, as the basic
      manager.  Otherwise the letter joins the guesses, the candidates shrink
      to a largest class of those sharing a pattern under the new guesses,
      the result is the letter's number of occurrences in the first
      remaining candidate, and a result of 0 costs one remaining guess. */
  method Record(g: DeviousGame, guess: char) returns (r: Result<(DeviousGame, nat), HangmanError>)
    ensures r.Failure? <==> g.guessesLeft == 0 || g.words == {} || guess in g.guesses
    ensures r.Failure? ==> (r.error == IllegalState <==> g.guessesLeft == 0 || g.words == {})
    ensures r.Success? ==> r.value.0.guesses == g.guesses + {guess}
    ensures r.Success? ==> r.value.0.words <= g.words && r.value.0.words != {}
    ensures r.Success? ==> SharedPattern(r.value.0)
    ensures r.Success? ==> forall w :: w in g.words ==> |Class(g.words, r.value.0.guesses, Pattern(w, r.value.0.guesses))| <= |r.value.0.words|
    ensures r.Success? ==> r.value.1 == CountOccurrences(FirstWord(r.value.0.words), guess)
    ensures r.Success? && guess != Dash ==> forall w :: w in r.value.0.words ==> CountOccurrences(w, guess) == r.value.1
    ensures r.Success? ==> r.value.0.guessesLeft == if r.value.1 == 0 then g.guessesLeft - 1 else g.guessesLeft
  {
    if g.guessesLeft == 0 || g.words == {} {
      return Failure(IllegalState);
    }
    if guess in g.guesses {
      return Failure(IllegalArgument);
    }
    var guesses := g.guesses + {guess};
    var words := UpdateWords(g.words, guesses);
    var example := FirstWord(words);
    var next := DeviousGame(g.guessesLeft, guesses, words);
    forall w | w in words && guess != Dash
      ensures CountOccurrences(w, guess) == CountOccurrences(example, guess)
    {
      SamePatternSameCount(w, example, guesses, guess);
    }
    if guess in example {
      r := Success((next, CountOccurrences(example, guess)));
    } else {
      r := Success((next.(guessesLeft := g.guessesLeft - 1), 0));
    }
  }
}

=== FILE: hangman_patterns.dfy ===
/** What both hangman managers share: the display pattern of a word under a
    set of guessed letters, letter counting, the dictionary length filter and
    the error kinds of `record`. */
module HangmanPatterns {

  /** `IllegalArgumentException` and `IllegalStateException`. */
  datatype HangmanError = IllegalArgument | IllegalState

  /** The character shown for a letter not guessed yet. */
  const Dash: char := '-'

  /** The constructor check shared by both managers: a word length of at
      least 1 and a nonnegative number of wrong guesses. */
  predicate ValidSetup(length: int, max: int) {
    length >= 1 && max >= 0
  }

  /** `patternize`: a guessed letter shows itself, any other a dash. */
  function Patternize(c: char, guesses: set<char>): (r: char)
    ensures r == c || r == Dash
    ensures r == c <==> c in guesses || c == Dash
  {
    if c in guesses then c else Dash
  }

  /** `pattern(word)`: the word with every letter not yet guessed replaced
      by a dash. */
  function Pattern(word: string, guesses: set<char>): (r: string)
    ensures |r| == |word|
    ensures forall i :: 0 <= i < |word| ==> r[i] == Patternize(word[i], guesses)
  {
    if |word| == 0 then [] else [Patternize(word[0], guesses)] + Pattern(word[1..], guesses)
  }

  /** `countLetterOccurrences`: how many positions of the word hold the
      letter. */
  function CountOccurrences(word: string, letter: char): (n: nat)
    ensures n == multiset(word)[letter]
    ensures n > 0 <==> letter in word
  {
    if |word| == 0 then 0
    else
      assert word == [word[0]] + word[1..];
      (if word[0] == letter then 1 else 0) + CountOccurrences(word[1..], letter)
  }

  /** The dictionary words of the requested length. */
  function WordsOfLength(dictionary: seq<string>, length: int): (r: set<string>)
    ensures forall w :: w in r <==> w in dictionary && |w| == length
  {
    set k | 0 <= k < |dictionary| && |dictionary[k]| == length :: dictionary[k]
  }

  /** The pattern is the word itself exactly when every letter of the word
      has been guessed (a dash in the word needs no guess). */
  lemma PatternRevealsWord(word: string, guesses: set<char>)
    ensures Pattern(word, guesses) == word <==> forall i :: 0 <= i < |word| ==> word[i] in guesses || word[i] == Dash
  {
    if Pattern(word, guesses) == word {
      forall i | 0 <= i < |word|
        ensures word[i] in guesses || word[i] == Dash
      {
        assert Pattern(word, guesses)[i] == word[i];
      }
    }
  }

  /** Two words with the same pattern agree wherever a guessed letter
      (other than a dash) shows, and hold no guessed letter anywhere else. */
  lemma SamePatternSameGuessedLetters(a: string, b: string, guesses: set<char>, i: nat)
    requires Pattern(a, guesses) == Pattern(b, guesses) && i < |a|
    ensures |b| == |a|
    ensures a[i] in guesses && a[i] != Dash ==> b[i] == a[i]
    ensures b[i] in guesses && b[i] != Dash ==> a[i] == b[i]
  {
    assert Pattern(a, guesses)[i] == Pattern(b, guesses)[i];
  }

  /** A guessed letter other than the dash occurs in the pattern exactly as
      often as in the word. */
  lemma {:induction false} CountSurvivesPattern(word: string, guesses: set<char>, letter: char)
    requires letter in guesses && letter != Dash
    ensures CountOccurrences(Pattern(word, guesses), letter) == CountOccurrences(word, letter)
    decreases |word|
  {
    if |word| > 0 {
      CountSurvivesPattern(word[1..], guesses, letter);
      var p := Pattern(word, guesses);
      assert p == [Patternize(word[0], guesses)] + Pattern(word[1..], guesses);
      assert p[1..] == Pattern(word[1..], guesses);
    }
  }

  /** Hence words sharing a pattern hold a guessed non-dash letter equally
      often. */
  lemma SamePatternSameCount(a: string, b: string, guesses: set<char>, letter: char)
    requires Pattern(a, guesses) == Pattern(b, guesses)
    requires letter in guesses && letter != Dash
    ensures CountOccurrences(a, letter) == CountOccurrences(b, letter)
  {
    CountSurvivesPattern(a, guesses, letter);
    CountSurvivesPattern(b, guesses, letter);
  }

  /** The dash is the exception: "ab" and "a-" share the pattern "--" once
      the dash has been guessed, yet hold it zero times and once. */
  lemma DashCountsDiffer()
    ensures Pattern("ab", {Dash}) == Pattern("a-", {Dash})
    ensures CountOccurrences("ab", Dash) != CountOccurrences("a-", Dash)
  {
    assert Pattern("ab", {Dash}) == "--";
    assert Pattern("a-", {Dash}) == "--";
    assert CountOccurrences("a-", Dash) == 1 by {
      assert "a-"[1..] == "-";
    }
  }
}

=== FILE: huffman_build.dfy ===
/** Building a Huffman code tree from symbol frequencies (`getFrequencyTable`,
    `countChars`, `generateLeafQueue`, `combineTrees`, `generateCodeTree`).
    The priority queue is modelled as a sequence; each poll takes SOME tree
    of least frequency, so ties may be broken any way. */
module HuffmanBuild {
  import opened Wrappers
  import opened Bits
  import opened BinaryTrees
  import opened HuffmanTrees
  import opened HuffmanCodes

  type FrequencyTable = map<char, real>

  /** `countChars`: each character of the text mapped to its number of
      occurrences. */
  function CountChars(s: string): (m: map<char, real>)
    ensures forall c :: c in m <==> c in s
    ensures forall c :: c in m ==> m[c] == multiset(s)[c] as real
  {
    if |s| == 0 then map[]
    else
      var init := s[..|s| - 1];
      var c := s[|s| - 1];
      assert s == init + [c];
      var m := CountChars(init);
      if c in m then m[c := m[c] + 1.0] else m[c := 1.0]
  }

  /** `getFrequencyTable`: each character's share of the text. */
  function FrequencyTableOf(s: string): (m: FrequencyTable)
    ensures forall c :: c in m <==> c in s
    ensures forall c :: c in m ==> m[c] == (multiset(s)[c] as real) / (|s| as real)
  {
    if |s| == 0 then map[] else Scaled(CountChars(s), |s| as real)
  }

  /** Some key of a non-empty map. */
  ghost function SomeKey(m: map<char, real>): (k: char)
    requires |m| > 0
    ensures k in m
  {
    var k :| k in m; k
  }

  /** The sum of the values of a map, in no particular order. */
  ghost function SumValues(m: map<char, real>): real
    decreases |m|
  {
    if |m| == 0 then 0.0
    else
      var k := SomeKey(m);
      m[k] + SumValues(m - {k})
  }

  /** The sum may be split at any key. */
  lemma {:induction false} SumRemove(m: map<char, real>, k: char)
    requires k in m
    ensures SumValues(m) == m[k] + SumValues(m - {k})
    decreases |m|
  {
    var j := SomeKey(m);
    if j != k {
      SumRemove(m - {j}, k);
      SumRemove(m - {k}, j);
      assert m - {j} - {k} == m - {k} - {j};
    }
  }

  /** Setting one key changes the sum by the difference of the values. */
  lemma SumUpdate(m: map<char, real>, k: char, v: real)
    ensures k in m ==> SumValues(m[k := v]) == SumValues(m) - m[k] + v
    ensures k !in m ==> SumValues(m[k := v]) == SumValues(m) + v
  {
    var m' := m[k := v];
    SumRemove(m', k);
    assert m' - {k} == m - {k};
    if k in m {
      SumRemove(m, k);
    } else {
      assert m - {k} == m;
    }
  }

  /** The counts add up to the length of the text. */
  lemma {:induction false} CountsSumToLength(s: string)
    ensures SumValues(CountChars(s)) == |s| as real
  {
    if |s| == 0 {
      assert CountChars(s) == map[];
    } else {
      var init := s[..|s| - 1];
      var c := s[|s| - 1];
      var m := CountChars(init);
      CountsSumToLength(init);
      if c in m {
        SumUpdate(m, c, m[c] + 1.0);
      } else {
        SumUpdate(m, c, 1.0);
      }
    }
  }

  /** Every value of a map divided by d. */
  function Scaled(m: map<char, real>, d: real): (r: map<char, real>)
    requires d != 0.0
    ensures r.Keys == m.Keys
    ensures forall c :: c in r ==> r[c] == m[c] / d
  {
    map c | c in m :: m[c] / d
  }

  lemma ScaledRemove(m: map<char, real>, d: real, k: char)
    requires d != 0.0
    ensures Scaled(m, d) - {k} == Scaled(m - {k}, d)
  {
  }

  /** Dividing every value divides the sum. */
  lemma {:induction false} SumScaled(m: map<char, real>, d: real)
    requires d != 0.0
    ensures SumValues(Scaled(m, d)) == SumValues(m) / d
    decreases |m|
  {
    var scaled := Scaled(m, d);
    if |m| > 0 {
      var k := SomeKey(m);
      SumRemove(m, k);
      SumRemove(scaled, k);
      ScaledRemove(m, d, k);
      SumScaled(m - {k}, d);
      DivideSum(SumValues(m), m[k], SumValues(m - {k}), SumValues(scaled), scaled[k], SumValues(scaled - {k}), d);
    } else {
      assert scaled == map[];
    }
  }

  /** A sum split in two parts, each part divided, is the sum divided. */
  lemma DivideSum(total: real, x: real, y: real, scaledTotal: real, scaledX: real, scaledY: real, d: real)
    requires d != 0.0
    requires total == x + y && scaledTotal == scaledX + scaledY
    requires scaledX == x / d && scaledY == y / d
    ensures scaledTotal == total / d
  {
  }

  /** The frequencies of a non-empty text add up to one. */
  lemma FrequenciesSumToOne(s: string)
    requires |s| > 0
    ensures SumValues(FrequencyTableOf(s)) == 1.0
  {
    var n := |s| as real;
    assert FrequencyTableOf(s) == Scaled(CountChars(s), n);
    CountsSumToLength(s);
    SharesSumToOne(CountChars(s), n);
  }

  /** Values divided by their own total add up to one. */
  lemma SharesSumToOne(m: map<char, real>, n: real)
    requires n != 0.0 && SumValues(m) == n
    ensures SumValues(Scaled(m, n)) == 1.0
  {
    SumScaled(m, n);
  }

  /** The frequency of a tree's root (0 when absent). */
  function Freq(t: HuffmanTree): real {
    if t.Node? && t.value.frequency.Some? then t.value.frequency.value else 0.0
  }

  /** A tree built by merging: a leaf carries a symbol; a merged node has no
      symbol, two children, and the sum of their frequencies. */
  predicate Merged(t: HuffmanTree) {
    && t.Node?
    && t.value.frequency.Some?
    && (Leaf(t) ==> t.value.symbol.Some?)
    && (!Leaf(t) ==>
          && t.value.symbol.None?
          && Merged(t.left) && Merged(t.right)
          && Freq(t) == Freq(t.left) + Freq(t.right))
  }

  /** Every leaf's symbol is in the table, with the table's frequency. */
  predicate LeavesFrom(t: HuffmanTree, table: FrequencyTable) {
    t.Node? ==>
      && (Leaf(t) ==>
            && t.value.symbol.Some? && t.value.symbol.value in table
            && t.value.frequency == Some(table[t.value.symbol.value]))
      && (!Leaf(t) ==> LeavesFrom(t.left, table) && LeavesFrom(t.right, table))
  }

  lemma {:induction false} MergedIsCodeTree(t: HuffmanTree)
    requires Merged(t)
    ensures CodeTreeShape(t)
  {
    if !Leaf(t) {
      MergedIsCodeTree(t.left);
      MergedIsCodeTree(t.right);
    }
  }

  /** The leaf symbols of all trees in a queue. */
  function QueueSymbols(q: seq<HuffmanTree>): multiset<char> {
    if |q| == 0 then multiset{} else LeafSymbols(q[0]) + QueueSymbols(q[1..])
  }

  /** The total root frequency of a queue. */
  function QueueFrequency(q: seq<HuffmanTree>): real {
    if |q| == 0 then 0.0 else Freq(q[0]) + QueueFrequency(q[1..])
  }

  lemma {:induction false} QueueAppend(a: seq<HuffmanTree>, b: seq<HuffmanTree>)
    ensures QueueSymbols(a + b) == QueueSymbols(a) + QueueSymbols(b)
    ensures QueueFrequency(a + b) == QueueFrequency(a) + QueueFrequency(b)
  {
    if |a| == 0 {
      assert a + b == b;
    } else {
      assert (a + b)[1..] == a[1..] + b;
      QueueAppend(a[1..], b);
    }
  }

  /** The queue without position i. */
  function RemoveAt(q: seq<HuffmanTree>, i: nat): (r: seq<HuffmanTree>)
    requires i < |q|
    ensures |r| == |q| - 1
    ensures forall k :: 0 <= k < |r| ==> r[k] == if k < i then q[k] else q[k + 1]
  {
    q[..i] + q[i + 1..]
  }

  /** Removing a position removes one occurrence of its tree. */
  lemma RemoveAtContents(q: seq<HuffmanTree>, i: nat)
    requires i < |q|
    ensures multiset(RemoveAt(q, i)) == multiset(q) - multiset{q[i]}
  {
    assert q == q[..i] + [q[i]] + q[i + 1..];
  }

  lemma {:induction false} QueueRemove(q: seq<HuffmanTree>, i: nat)
    requires i < |q|
    ensures QueueSymbols(q) == LeafSymbols(q[i]) + QueueSymbols(RemoveAt(q, i))
    ensures QueueFrequency(q) == Freq(q[i]) + QueueFrequency(RemoveAt(q, i))
  {
    var a, b := q[..i], q[i + 1..];
    var mid := [q[i]] + b;
    assert q == a + mid;
    assert mid[1..] == b;
    assert RemoveAt(q, i) == a + b;
    QueueAppend(a, mid);
    QueueAppend(a, b);
  }

  /** Position i holds a tree of least frequency. */
  predicate IsMinAt(q: seq<HuffmanTree>, i: int) {
    0 <= i < |q| && forall k :: 0 <= k < |q| ==> Freq(q[i]) <= Freq(q[k])
  }

  /** The first position of least frequency, a witness that one exists. */
  function MinIndex(q: seq<HuffmanTree>): (i: nat)
    requires |q| > 0
    ensures IsMinAt(q, i)
  {
    if |q| == 1 then 0
    else
      var j := MinIndex(q[1..]);
      if Freq(q[0]) <= Freq(q[1 + j]) then 0 else 1 + j
  }

  /** A queue entry as `generateLeafQueue` makes it. */
  predicate QueuedLeaf(t: HuffmanTree, table: FrequencyTable) {
    Leaf(t) && Merged(t) && LeavesFrom(t, table) && t.value.code == Some([])
  }

  /** Loop invariant of `generateLeafQueue`: the queue holds one leaf per
      table entry already visited. */
  ghost predicate LeafQueueInvariant(table: FrequencyTable, q: seq<HuffmanTree>, remaining: FrequencyTable) {
    && remaining.Keys <= table.Keys
    && (forall c :: c in remaining ==> remaining[c] == table[c])
    && |q| + |remaining| == |table|
    && (forall k :: 0 <= k < |q| ==> QueuedLeaf(q[k], table))
    && (forall c :: QueueSymbols(q)[c] == if c in table && c !in remaining then 1 else 0)
    && QueueFrequency(q) + SumValues(remaining) == SumValues(table)
  }

  lemma LeafQueueStep(table: FrequencyTable, q: seq<HuffmanTree>, remaining: FrequencyTable, c: char)
    requires LeafQueueInvariant(table, q, remaining) && c in remaining
    ensures LeafQueueInvariant(table, q + [MakeLeafNode(Some(c), Some(table[c]), Some([]))], remaining - {c})
  {
    var leaf := MakeLeafNode(Some(c), Some(table[c]), Some([]));
    LeafQueueLeaves(table, q, c);
    LeafQueueSymbols(table, q, remaining, c);
    SingletonQueue(leaf);
    QueueAppend(q, [leaf]);
    SumRemove(remaining, c);
    AddBack(QueueFrequency(q), Freq(leaf), SumValues(remaining - {c}), SumValues(table));
  }

  /** Appending the leaf for a table entry keeps every queue entry a queued
      leaf. */
  lemma LeafQueueLeaves(table: FrequencyTable, q: seq<HuffmanTree>, c: char)
    requires c in table && forall k :: 0 <= k < |q| ==> QueuedLeaf(q[k], table)
    ensures forall k :: 0 <= k < |q| + 1 ==> QueuedLeaf((q + [MakeLeafNode(Some(c), Some(table[c]), Some([]))])[k], table)
  {
    var q' := q + [MakeLeafNode(Some(c), Some(table[c]), Some([]))];
    forall k | 0 <= k < |q'|
      ensures QueuedLeaf(q'[k], table)
    {
      if k < |q| {
        assert q'[k] == q[k];
      }
    }
  }

  /** Appending the leaf for a pending entry moves its symbol from pending
      to queued. */
  lemma LeafQueueSymbols(table: FrequencyTable, q: seq<HuffmanTree>, remaining: FrequencyTable, c: char)
    requires c in remaining && remaining.Keys <= table.Keys
    requires forall d :: QueueSymbols(q)[d] == if d in table && d !in remaining then 1 else 0
    ensures forall d :: QueueSymbols(q + [MakeLeafNode(Some(c), Some(table[c]), Some([]))])[d]
                        == if d in table && d !in remaining - {c} then 1 else 0
  {
    var leaf := MakeLeafNode(Some(c), Some(table[c]), Some([]));
    assert LeafSymbols(leaf) == multiset{c};
    SingletonQueue(leaf);
    QueueAppend(q, [leaf]);
  }

  /** Moving an amount from one side of a balanced sum to the other. */
  lemma AddBack(done: real, x: real, rest: real, total: real)
    requires done + (x + rest) == total
    ensures (done + x) + rest == total
  {
  }

  /** `generateLeafQueue`: one leaf per table entry, carrying the entry's
      symbol and frequency and an empty code. */
  method GenerateLeafQueue(table: FrequencyTable) returns (q: seq<HuffmanTree>)
    ensures |q| == |table|
    ensures forall k :: 0 <= k < |q| ==> QueuedLeaf(q[k], table)
    ensures forall c :: QueueSymbols(q)[c] == if c in table then 1 else 0
    ensures QueueFrequency(q) == SumValues(table)
  {
    q := [];
    var remaining := table;
    while remaining != map[]
      invariant LeafQueueInvariant(table, q, remaining)
      decreases |remaining|
    {
      var c :| c in remaining;
      LeafQueueStep(table, q, remaining, c);
      q := q + [MakeLeafNode(Some(c), Some(table[c]), Some([]))];
      remaining := remaining - {c};
    }
    LeafQueueDone(table, q);
  }

  /** With nothing remaining, the invariant is the postcondition. */
  lemma LeafQueueDone(table: FrequencyTable, q: seq<HuffmanTree>)
    requires LeafQueueInvariant(table, q, map[])
    ensures |q| == |table|
    ensures forall k :: 0 <= k < |q| ==> QueuedLeaf(q[k], table)
    ensures forall c :: QueueSymbols(q)[c] == if c in table then 1 else 0
    ensures QueueFrequency(q) == SumValues(table)
  {
    assert SumValues(map[]) == 0.0;
  }

  /** The tree `combineTrees` offers back: no symbol, the two polled trees
      as children, the sum of their frequencies. */
  function MergePair(left: HuffmanTree, right: HuffmanTree): (t: HuffmanTree)
    requires Merged(left) && Merged(right)
    ensures Merged(t) && !Leaf(t)
    ensures Freq(t) == Freq(left) + Freq(right)
    ensures LeafSymbols(t) == LeafSymbols(left) + LeafSymbols(right)
    ensures t.left == left && t.right == right
  {
    MakeInternal(Some(Freq(left) + Freq(right)), Some(left), Some(right))
  }

  lemma SingletonQueue(t: HuffmanTree)
    ensures QueueSymbols([t]) == LeafSymbols(t)
    ensures QueueFrequency([t]) == Freq(t)
  {
    assert [t][1..] == [];
  }

  /** A least element by position is least over the queue's contents. */
  lemma MinOverContents(q: seq<HuffmanTree>, i: int)
    requires IsMinAt(q, i)
    ensures forall t :: t in multiset(q) ==> Freq(q[i]) <= Freq(t)
  {
    forall t | t in multiset(q)
      ensures Freq(q[i]) <= Freq(t)
    {
      var k :| 0 <= k < |q| && q[k] == t;
    }
  }

  /** The queue after polling positions i and then j of the rest, and
      offering the merge of the two polled trees. */
  function Combine(q: seq<HuffmanTree>, i: nat, j: nat): (r: seq<HuffmanTree>)
    requires i < |q| && j < |q| - 1
    requires forall k :: 0 <= k < |q| ==> Merged(q[k])
    ensures |r| == |q| - 1
  {
    var rest := RemoveAt(q, i);
    RemoveAt(rest, j) + [MergePair(q[i], rest[j])]
  }

  /** What `Combine` keeps, by position: every other tree, unchanged. */
  lemma CombineKeeps(q: seq<HuffmanTree>, i: nat, j: nat)
    requires i < |q| && j < |q| - 1
    requires forall k :: 0 <= k < |q| ==> Merged(q[k])
    ensures var r := Combine(q, i, j);
            && (forall k :: 0 <= k < |r| - 1 ==> r[k] in q)
            && (forall k :: 0 <= k < |r| ==> Merged(r[k]))
  {
    var rest := RemoveAt(q, i);
    var r := Combine(q, i, j);
    forall k | 0 <= k < |r| - 1
      ensures r[k] in q
    {
      var k1 := if k < j then k else k + 1;
      var k2 := if k1 < i then k1 else k1 + 1;
      assert r[k] == rest[k1] == q[k2];
    }
  }

  /** What `Combine` keeps, as contents: the queue minus the two polled
      trees, plus their merge. */
  lemma CombineContents(q: seq<HuffmanTree>, i: nat, j: nat)
    requires i < |q| && j < |q| - 1
    requires forall k :: 0 <= k < |q| ==> Merged(q[k])
    ensures var r, left, right := Combine(q, i, j), q[i], RemoveAt(q, i)[j];
            && right in multiset(q) - multiset{left}
            && multiset(r) == multiset(q) - multiset{left} - multiset{right} + multiset{r[|r| - 1]}
  {
    var rest := RemoveAt(q, i);
    var rest2 := RemoveAt(rest, j);
    var r := Combine(q, i, j);
    RemoveAtContents(q, i);
    RemoveAtContents(rest, j);
    assert r == rest2 + [r[|r| - 1]];
    assert multiset(r) == multiset(rest2) + multiset{r[|r| - 1]};
  }

  /** `Combine` keeps the queue's leaf symbols and total frequency. */
  lemma CombineSums(q: seq<HuffmanTree>, i: nat, j: nat)
    requires i < |q| && j < |q| - 1
    requires forall k :: 0 <= k < |q| ==> Merged(q[k])
    ensures QueueSymbols(Combine(q, i, j)) == QueueSymbols(q)
    ensures QueueFrequency(Combine(q, i, j)) == QueueFrequency(q)
  {
    var rest := RemoveAt(q, i);
    var rest2 := RemoveAt(rest, j);
    var node := MergePair(q[i], rest[j]);
    QueueRemove(q, i);
    QueueRemove(rest, j);
    CombinedSymbols(q, rest, rest2, q[i], rest[j], node);
    CombinedFrequency(q, rest, rest2, q[i], rest[j], node);
  }

  /** `combineTrees`: poll a least-frequency tree, then a least-frequency tree
      of the rest, and offer their merge (the first polled on the left). */
  method CombineTrees(q: seq<HuffmanTree>) returns (r: seq<HuffmanTree>, left: HuffmanTree, right: HuffmanTree)
    requires |q| >= 2
    requires forall k :: 0 <= k < |q| ==> Merged(q[k])
    ensures |r| == |q| - 1
    ensures left in q && forall k :: 0 <= k < |q| ==> Freq(left) <= Freq(q[k])
    ensures right in multiset(q) - multiset{left}
    ensures forall t :: t in multiset(q) - multiset{left} ==> Freq(right) <= Freq(t)
    ensures Merged(left) && Merged(right) && r[|r| - 1] == MergePair(left, right)
    ensures multiset(r) == multiset(q) - multiset{left} - multiset{right} + multiset{r[|r| - 1]}
    ensures forall k :: 0 <= k < |r| - 1 ==> r[k] in q
    ensures forall k :: 0 <= k < |r| ==> Merged(r[k])
    ensures QueueSymbols(r) == QueueSymbols(q)
    ensures QueueFrequency(r) == QueueFrequency(q)
  {
    var i0 := MinIndex(q);
    var i :| 0 <= i < |q| && IsMinAt(q, i);
    assert IsMinAt(q, i);
    left := q[i];
    var rest := RemoveAt(q, i);
    var j0 := MinIndex(rest);
    var j :| 0 <= j < |rest| && IsMinAt(rest, j);
    assert IsMinAt(rest, j);
    right := rest[j];
    r := Combine(q, i, j);
    CombineKeeps(q, i, j);
    CombineContents(q, i, j);
    CombineSums(q, i, j);
    RemoveAtContents(q, i);
    MinOverContents(rest, j);
  }

  /** The leaf symbols of a queue after two removals and one merge. */
  lemma CombinedSymbols(q: seq<HuffmanTree>, rest: seq<HuffmanTree>, rest2: seq<HuffmanTree>,
                        left: HuffmanTree, right: HuffmanTree, node: HuffmanTree)
    requires LeafSymbols(node) == LeafSymbols(left) + LeafSymbols(right)
    requires QueueSymbols(q) == LeafSymbols(left) + QueueSymbols(rest)
    requires QueueSymbols(rest) == LeafSymbols(right) + QueueSymbols(rest2)
    ensures QueueSymbols(rest2 + [node]) == QueueSymbols(q)
  {
    QueueAppend(rest2, [node]);
    SingletonQueue(node);
    UnionRearrange(LeafSymbols(left), LeafSymbols(right), QueueSymbols(rest2));
  }

  /** The total frequency of a queue after two removals and one merge. */
  lemma CombinedFrequency(q: seq<HuffmanTree>, rest: seq<HuffmanTree>, rest2: seq<HuffmanTree>,
                          left: HuffmanTree, right: HuffmanTree, node: HuffmanTree)
    requires Freq(node) == Freq(left) + Freq(right)
    requires QueueFrequency(q) == Freq(left) + QueueFrequency(rest)
    requires QueueFrequency(rest) == Freq(right) + QueueFrequency(rest2)
    ensures QueueFrequency(rest2 + [node]) == QueueFrequency(q)
  {
    QueueAppend(rest2, [node]);
    SingletonQueue(node);
  }

  lemma UnionRearrange(a: multiset<char>, b: multiset<char>, c: multiset<char>)
    ensures c + (a + b) == a + (b + c)
  {
  }

  /** The code a queued tree carries before `assignCodes`: the empty code
      on a leaf from `generateLeafQueue`, none on a merged node. */
  predicate FreshCode(t: HuffmanTree) {
    t.Node? && (t.value.code.None? || t.value.code == Some([]))
  }

  /** `generateCodeTree`: merge until one tree remains.  An empty table
      leaves nothing to poll (the Java code then fails), hence the requirement.
      The result is a merged tree whose leaves are exactly the table's
      symbols, each once, with the table's frequencies, and whose root
      carries the total frequency. */
  method GenerateCodeTree(table: FrequencyTable) returns (t: HuffmanTree)
    requires |table| > 0
    ensures Merged(t) && LeavesFrom(t, table)
    ensures forall c :: LeafSymbols(t)[c] == if c in table then 1 else 0
    ensures Freq(t) == SumValues(table)
    ensures FreshCode(t)
  {
    var q := GenerateLeafQueue(table);
    while |q| > 1
      invariant |q| >= 1 && CodeQueue(q, table)
      decreases |q|
    {
      q := MergeStep(q, table);
    }
    t := q[0];
    SingleTreeQueue(q, table);
  }

  /** The loop invariant of `generateCodeTree`: merged trees with fresh
      codes, built from table entries, holding each table symbol once in
      all and the table's total frequency. */
  ghost predicate CodeQueue(q: seq<HuffmanTree>, table: FrequencyTable) {
    && (forall k :: 0 <= k < |q| ==> Merged(q[k]) && LeavesFrom(q[k], table) && FreshCode(q[k]))
    && (forall c :: QueueSymbols(q)[c] == if c in table then 1 else 0)
    && QueueFrequency(q) == SumValues(table)
  }

  /** One round of `generateCodeTree`: the queue is one tree shorter and
      keeps the invariant. */
  method MergeStep(q: seq<HuffmanTree>, table: FrequencyTable) returns (q': seq<HuffmanTree>)
    requires |q| > 1 && CodeQueue(q, table)
    ensures |q'| == |q| - 1 && CodeQueue(q', table)
  {
    var left, right;
    q', left, right := CombineTrees(q);
    forall k | 0 <= k < |q'|
      ensures LeavesFrom(q'[k], table) && FreshCode(q'[k])
    {
      if k < |q'| - 1 {
        var m :| 0 <= m < |q| && q[m] == q'[k];
      } else {
        var a :| 0 <= a < |q| && q[a] == left;
        var b :| 0 <= b < |q| && q[b] == right;
      }
    }
  }

  /** The last tree standing carries the whole invariant. */
  lemma SingleTreeQueue(q: seq<HuffmanTree>, table: FrequencyTable)
    requires |q| == 1 && CodeQueue(q, table)
    ensures Merged(q[0]) && LeavesFrom(q[0], table)
    ensures forall c :: LeafSymbols(q[0])[c] == if c in table then 1 else 0
    ensures Freq(q[0]) == SumValues(table)
    ensures FreshCode(q[0])
  {
    assert q[1..] == [];
    assert QueueSymbols(q) == LeafSymbols(q[0]) + QueueSymbols([]);
    assert QueueFrequency(q) == Freq(q[0]) + QueueFrequency([]);
  }

  /** The tree built from any non-empty table is a decoding tree with
      distinct leaf symbols. */
  lemma BuiltTreeDecodes(t: HuffmanTree, table: FrequencyTable)
    requires Merged(t)
    requires forall c :: LeafSymbols(t)[c] == if c in table then 1 else 0
    ensures CodeTreeShape(t) && DistinctLeaves(t)
    ensures forall c :: c in GenerateCodeTable(t) <==> c in table
  {
    MergedIsCodeTree(t);
  }

  /** A merged tree has at least one leaf symbol. */
  lemma {:induction false} MergedHasSymbol(t: HuffmanTree) returns (c: char)
    requires Merged(t)
    ensures c in LeafSymbols(t)
  {
    if Leaf(t) {
      c := t.value.symbol.value;
    } else {
      c := MergedHasSymbol(t.left);
    }
  }

  /** The root is a single leaf exactly when the table has one symbol; with
      two or more symbols the decoding loop therefore terminates. */
  lemma SingleLeafIffOneSymbol(t: HuffmanTree, table: FrequencyTable)
    requires Merged(t)
    requires forall c :: LeafSymbols(t)[c] == if c in table then 1 else 0
    ensures Leaf(t) <==> |table| == 1
  {
    if Leaf(t) {
      var a := t.value.symbol.value;
      assert LeafSymbols(t) == multiset{a};
      assert forall b :: b in table ==> LeafSymbols(t)[b] == 1;
      assert table.Keys == {a};
    } else {
      var a := MergedHasSymbol(t.left);
      var b := MergedHasSymbol(t.right);
      assert LeafSymbols(t)[a] == LeafSymbols(t.left)[a] + LeafSymbols(t.right)[a];
      assert a != b;
      assert {a, b} <= table.Keys;
      assert |{a, b}| == 2;
      SubsetCard({a, b}, table.Keys);
    }
  }

  lemma SubsetCard(a: set<char>, b: set<char>)
    requires a <= b
    ensures |a| <= |b|
  {
    assert b == a + (b - a);
  }
}

=== FILE: huffman_codec.dfy ===
/** The `HuffmanCode` object, in its two versions: a code tree (absent in
    the earlier version's table-only instance) and a symbol-to-code table.
    The later version can also rebuild the tree from a table. */
module HuffmanCodec {
  import opened Wrappers
  import opened Bits
  import opened BinaryTrees
  import opened HuffmanTrees
  import opened HuffmanCodes
  import opened HuffmanBuild
  import opened HuffmanRebuild

  /** The object's two fields; `getCode` returns `table`. */
  datatype Codec = Codec(tree: Option<HuffmanTree>, table: CodeTable)

  /** What makes `decode` undo `encode`: the tree is a decoding tree whose
      nodes carry their paths as codes, the table is prefix-free, and each
      code in the table leads to a leaf holding its symbol. */
  predicate Consistent(codec: Codec) {
    && codec.tree.Some?
    && CodeTreeShape(codec.tree.value)
    && CodesFrom(codec.tree.value, [])
    && PrefixFree(codec.table)
    && forall c :: c in codec.table ==> LeafAt(codec.tree.value, codec.table[c]) == Some(c)
  }

  /** The frequency-table constructor of the later version: build the tree,
      assign codes, then read the table off the tree.  The table has exactly
      the frequency table's symbols; with two or more of them the root is
      not a leaf. */
  method FromFrequencies(frequencies: FrequencyTable) returns (codec: Codec)
    requires |frequencies| > 0
    ensures Consistent(codec)
    ensures codec.table.Keys == frequencies.Keys
    ensures DistinctLeaves(codec.tree.value)
    ensures !Leaf(codec.tree.value) <==> |frequencies| >= 2
  {
    var t := GenerateCodeTree(frequencies);
    var u := AssignCodes(t);
    AssignedTreeIsConsistent(frequencies, t, u);
    codec := Codec(Some(u), GenerateCodeTable(u));
  }

  /** A merged tree of the frequency table's symbols, with every node's code
      set to its path from the root, yields a consistent codec whose table has exactly the
      frequency table's symbols. */
  lemma AssignedTreeIsConsistent(frequencies: FrequencyTable, t: HuffmanTree, u: HuffmanTree)
    requires |frequencies| > 0
    requires Merged(t) && LeavesFrom(t, frequencies) && FreshCode(t)
    requires forall c :: LeafSymbols(t)[c] == if c in frequencies then 1 else 0
    requires CodesFrom(u, []) && EraseCodes(u) == EraseCodes(t)
    ensures CodeTreeShape(u)
    ensures Consistent(Codec(Some(u), GenerateCodeTable(u)))
    ensures GenerateCodeTable(u).Keys == frequencies.Keys
    ensures DistinctLeaves(u)
    ensures !Leaf(u) <==> |frequencies| >= 2
  {
    MergedIsCodeTree(t);
    SingleLeafIffOneSymbol(t, frequencies);
    ErasedCodesPreserveShape(t, u);
    GeneratedTableIsPrefixFree(u);
    KeysFromLeafCounts(GenerateCodeTable(u), frequencies, LeafSymbols(u));
  }

  /** A table keyed by the symbols of a multiset that counts each frequency
      table symbol once has the frequency table's keys. */
  lemma KeysFromLeafCounts(table: CodeTable, frequencies: FrequencyTable, m: multiset<char>)
    requires forall c :: c in table <==> c in m
    requires forall c :: m[c] == if c in frequencies then 1 else 0
    ensures table.Keys == frequencies.Keys
  {
    forall c
      ensures c in table <==> c in frequencies
    {
      assert m[c] == if c in frequencies then 1 else 0;
    }
  }

  /** The frequency-table constructor of the earlier version: the table is
      read off the tree BEFORE codes are assigned.  The order makes no
      difference: the result satisfies the same contract. */
  method FromFrequenciesEarlier(frequencies: FrequencyTable) returns (codec: Codec)
    requires |frequencies| > 0
    ensures Consistent(codec)
    ensures codec.table.Keys == frequencies.Keys
    ensures DistinctLeaves(codec.tree.value)
    ensures !Leaf(codec.tree.value) <==> |frequencies| >= 2
  {
    var t := GenerateCodeTree(frequencies);
    MergedIsCodeTree(t);
    SingleLeafIffOneSymbol(t, frequencies);
    var table := GenerateCodeTable(t);
    GeneratedTableIsPrefixFree(t);
    var u := AssignCodes(t);
    TableIgnoresCodes(t, u);
    ErasedCodesPreserveShape(t, u);
    forall c | c in table
      ensures LeafAt(u, table[c]) == Some(c)
    {
      LeafAtIgnoresCodes(t, u, table[c]);
    }
    codec := Codec(Some(u), table);
  }

  /** The seed-string constructor: code the text's own character
      frequencies.  An empty seed gives an empty table and the Java code
      fails, hence the requirement. */
  method FromSeed(seed: string) returns (codec: Codec)
    requires |seed| > 0
    ensures Consistent(codec)
    ensures forall c :: c in codec.table <==> c in seed
    ensures !Leaf(codec.tree.value) <==> exists k :: 0 <= k < |seed| && seed[k] != seed[0]
  {
    var frequencies := FrequencyTableOf(seed);
    SeedSymbols(seed, frequencies.Keys);
    codec := FromFrequencies(frequencies);
  }

  /** A non-empty text has at least two distinct characters exactly when
      its character set has two or more members. */
  lemma SeedSymbols(seed: string, symbols: set<char>)
    requires |seed| > 0 && forall c :: c in symbols <==> c in seed
    ensures |symbols| > 0
    ensures |symbols| >= 2 <==> exists k :: 0 <= k < |seed| && seed[k] != seed[0]
  {
    assert seed[0] in symbols;
    if exists k :: 0 <= k < |seed| && seed[k] != seed[0] {
      var k :| 0 <= k < |seed| && seed[k] != seed[0];
      assert {seed[0], seed[k]} <= symbols;
      SubsetCard({seed[0], seed[k]}, symbols);
    } else {
      assert symbols == {seed[0]};
    }
  }

  /** The code-table constructor of the later version: keep the table and
      rebuild a tree from it.  None stands for the Java code never returning,
      which happens exactly when some branch of the code space meets no
      code; a table read off a decoding tree always gives a codec. */
  method FromCodeTable(table: CodeTable) returns (r: Option<Codec>)
    ensures r.Some? ==> r.value.table == table && r.value.tree.Some?
    ensures r.None? <==> exists q :: DeadBranch(table, q)
    ensures forall t :: CodeTreeShape(t) && DistinctLeaves(t) && table == GenerateCodeTable(t) ==>
              r.Some? && Skeleton(r.value.tree.value) == Skeleton(t)
    ensures r.Some? ==> CodeTreeShape(r.value.tree.value) && CodesFrom(r.value.tree.value, [])
    ensures r.Some? && PrefixFree(table) ==> Consistent(r.value)
    ensures r.Some? && PrefixFree(table) && |table| >= 2 ==> !Leaf(r.value.tree.value)
    ensures r.Some? && PrefixFree(table) && |table| >= 2 ==>
              forall s :: (forall k :: 0 <= k < |s| ==> s[k] in table) ==>
                EncodeWith(r.value, s).Some? && DecodeFrom(r.value.tree.value, r.value.tree.value, EncodeWith(r.value, s).value) == s
  {
    var tree := GenerateTreeFromTable(table);
    if tree.None? {
      return None;
    }
    r := Some(Codec(tree, table));
    if PrefixFree(table) && |table| >= 2 {
      forall s | forall k :: 0 <= k < |s| ==> s[k] in table
        ensures EncodeWith(r.value, s).Some? && DecodeFrom(r.value.tree.value, r.value.tree.value, EncodeWith(r.value, s).value) == s
      {
        CodecRoundTrip(r.value, s);
      }
    }
  }

  /** The code-table constructor of the earlier version: it stores the
      table and no tree, so such a codec can encode but not decode. */
  function FromCodeTableEarlier(table: CodeTable): (codec: Codec)
    ensures codec.tree.None? && codec.table == table
  {
    Codec(None, table)
  }

  /** `encode`: the table's codes of the characters, concatenated; None when
      a character has no code (the Java code fails). */
  function EncodeWith(codec: Codec, s: string): (r: Option<BitString>)
    ensures r.Some? <==> forall k :: 0 <= k < |s| ==> s[k] in codec.table
    ensures |s| == 0 ==> r == Some([])
    ensures |s| == 1 && s[0] in codec.table ==> r == Some(codec.table[s[0]])
  {
    Encode(codec.table, s)
  }

  /** `decode`: walk the tree from the root.  A codec without a tree (the
      earlier version's table-only instance) or with a single-leaf root makes
      the Java code fail or loop, hence the requirements. */
  method DecodeWith(codec: Codec, bits: BitString) returns (s: string)
    requires codec.tree.Some? && CodeTreeShape(codec.tree.value) && !Leaf(codec.tree.value)
    ensures s == DecodeFrom(codec.tree.value, codec.tree.value, bits)
  {
    s := Decode(codec.tree.value, bits);
  }

  /** The earlier version's `isLeaf` helper (no left and no right child)
      agrees with the tree's own `isLeaf` (exactly one node). */
  function IsLeafEarlier(t: HuffmanTree): (r: bool)
    requires t.Node?
    ensures r <==> NumberOfNodes(t) == 1
    ensures r <==> IsLeaf(t) == Success(true)
  {
    t.left.Empty? && t.right.Empty?
  }

  /** `decode(encode(s)) == s` for a consistent codec whose root is not a
      leaf, for every text over the table's symbols. */
  lemma CodecRoundTrip(codec: Codec, s: string)
    requires Consistent(codec) && !Leaf(codec.tree.value)
    requires forall k :: 0 <= k < |s| ==> s[k] in codec.table
    ensures EncodeWith(codec, s).Some?
    ensures DecodeFrom(codec.tree.value, codec.tree.value, EncodeWith(codec, s).value) == s
  {
    RoundTrip(codec.tree.value, codec.table, s);
  }

  /** A table produced by a codec built from frequencies rebuilds into a
      codec with the same tree shape and symbols and the same codes. */
  lemma RebuildFromOwnTable(codec: Codec, inv: InverseMap, bound: nat)
    requires codec.tree.Some? && CodeTreeShape(codec.tree.value) && DistinctLeaves(codec.tree.value)
    requires codec.table == GenerateCodeTable(codec.tree.value)
    requires IsInverse(codec.table, inv)
    requires forall p :: p in inv ==> |p| <= bound
    ensures TreeFromTable(inv, [], bound).Some?
    ensures Skeleton(TreeFromTable(inv, [], bound).value) == Skeleton(codec.tree.value)
    ensures CodesFrom(TreeFromTable(inv, [], bound).value, [])
  {
    TableThenRebuild(codec.tree.value, inv, bound);
  }
}

=== FILE: huffman_codes.dfy ===
/** Code trees and code tables of the Huffman codec (`HuffmanCode`): the
    shape a decoding tree must have, the symbol-to-code table derived from it
    (`generateCodeTable` / `mergeCodeTables`), the code assignment pass
    (`assignCodes`), table-driven `encode` and tree-driven `decode`. */
module HuffmanCodes {
  import opened Wrappers
  import opened Bits
  import opened BinaryTrees
  import opened HuffmanTrees

  type CodeTable = map<char, BitString>

  /** The shape every decoding tree has: rooted, each leaf carries a symbol,
      each internal node has two rooted children. */
  predicate CodeTreeShape(t: HuffmanTree) {
    && t.Node?
    && (Leaf(t) ==> t.value.symbol.Some?)
    && (!Leaf(t) ==> CodeTreeShape(t.left) && CodeTreeShape(t.right))
  }

  /** The symbols held by the leaves, with multiplicity. */
  function LeafSymbols(t: HuffmanTree): multiset<char> {
    match t
    case Empty => multiset{}
    case Node(v, l, r) =>
      if l.Empty? && r.Empty? then
        (if v.symbol.Some? then multiset{v.symbol.value} else multiset{})
      else LeafSymbols(l) + LeafSymbols(r)
  }

  /** No symbol sits at two leaves. */
  predicate DistinctLeaves(t: HuffmanTree) {
    forall c :: LeafSymbols(t)[c] <= 1
  }

  /** The subtree reached by following a bit path from `t` (0 = left,
      1 = right); falling off the tree gives the empty tree. */
  function Subtree(t: HuffmanTree, p: BitString): HuffmanTree
    decreases |p|
  {
    if |p| == 0 || t.Empty? then t
    else Subtree(if p[0] == 0 then t.left else t.right, p[1..])
  }

  /** The symbol of the leaf that the path `p` ends at exactly, if any. */
  function LeafAt(t: HuffmanTree, p: BitString): Option<char> {
    var s := Subtree(t, p);
    if Leaf(s) then s.value.symbol else None
  }

  lemma {:induction false} SubtreeOfEmpty(p: BitString)
    ensures Subtree(Empty, p) == Empty
  {
  }

  /** Following a path that starts with a bit descends into that child. */
  lemma SubtreeStep(t: HuffmanTree, b: Bit, p: BitString)
    requires t.Node?
    ensures Subtree(t, [b] + p) == Subtree(if b == 0 then t.left else t.right, p)
    ensures LeafAt(t, [b] + p) == LeafAt(if b == 0 then t.left else t.right, p)
  {
    assert ([b] + p)[1..] == p;
  }

  /** A path ending at a leaf cannot continue: leaf paths form a prefix-free set. */
  lemma {:induction false} LeafPathsPrefixFree(t: HuffmanTree, p: BitString, q: BitString)
    requires LeafAt(t, p).Some? && LeafAt(t, q).Some? && p <= q
    ensures p == q
  {
    if |p| == 0 {
      if |q| > 0 {
        SubtreeOfEmpty(q[1..]);
      }
    } else {
      assert t.Node? by {
        if t.Empty? {
          SubtreeOfEmpty(p);
        }
      }
      var child := if p[0] == 0 then t.left else t.right;
      assert [p[0]] + p[1..] == p;
      assert [q[0]] + q[1..] == q;
      SubtreeStep(t, p[0], p[1..]);
      SubtreeStep(t, q[0], q[1..]);
      LeafPathsPrefixFree(child, p[1..], q[1..]);
    }
  }

  /** A leaf reached by a path holds one of the tree's leaf symbols. */
  lemma {:induction false} LeafAtInLeafSymbols(t: HuffmanTree, p: BitString)
    requires LeafAt(t, p).Some?
    ensures LeafAt(t, p).value in LeafSymbols(t)
    decreases |p|
  {
    if t.Empty? {
      SubtreeOfEmpty(p);
    } else if |p| > 0 {
      if Leaf(t) {
        SubtreeOfEmpty(p[1..]);
      } else {
        assert [p[0]] + p[1..] == p;
        SubtreeStep(t, p[0], p[1..]);
        LeafAtInLeafSymbols(if p[0] == 0 then t.left else t.right, p[1..]);
      }
    }
  }

  /** No code of the table is a prefix of the code of another symbol. */
  predicate PrefixFree(table: CodeTable) {
    forall c, d :: c in table && d in table && c != d ==> !(table[c] <= table[d])
  }

  /** `mergeCodeTables`: the left table's codes get a leading 0, the right
      table's a leading 1; a symbol in both keeps its right-hand code. */
  function MergeCodeTables(table1: CodeTable, table2: CodeTable): (r: CodeTable)
    ensures r.Keys == table1.Keys + table2.Keys
    ensures forall c :: c in table2 ==> r[c] == [1] + table2[c]
    ensures forall c :: c in table1 && c !in table2 ==> r[c] == [0] + table1[c]
  {
    map c | c in table1.Keys + table2.Keys :: if c in table2 then [1] + table2[c] else [0] + table1[c]
  }

  /** `generateCodeTable`: the table holds exactly the leaf symbols, and each
      symbol's code is a path from the root to a leaf holding that symbol. */
  function GenerateCodeTable(t: HuffmanTree): (r: CodeTable)
    requires CodeTreeShape(t)
    ensures forall c :: c in r <==> c in LeafSymbols(t)
    ensures forall c :: c in r ==> LeafAt(t, r[c]) == Some(c)
  {
    if Leaf(t) then
      map[t.value.symbol.value := []]
    else
      var t1 := GenerateCodeTable(t.left);
      var t2 := GenerateCodeTable(t.right);
      var r := MergeCodeTables(t1, t2);
      assert forall c :: c in r ==> LeafAt(t, r[c]) == Some(c) by {
        forall c | c in r
          ensures LeafAt(t, r[c]) == Some(c)
        {
          if c in t2 {
            SubtreeStep(t, 1, t2[c]);
          } else {
            SubtreeStep(t, 0, t1[c]);
          }
        }
      }
      r
  }

  /** The derived codes are prefix-free. */
  lemma GeneratedTableIsPrefixFree(t: HuffmanTree)
    requires CodeTreeShape(t)
    ensures PrefixFree(GenerateCodeTable(t))
  {
    var table := GenerateCodeTable(t);
    forall c, d | c in table && d in table && c != d
      ensures !(table[c] <= table[d])
    {
      if table[c] <= table[d] {
        LeafPathsPrefixFree(t, table[c], table[d]);
      }
    }
  }

  /** With distinct leaf symbols the table is the exact inverse of the leaf
      paths: a path reaches a leaf with symbol c iff c's code is that path. */
  lemma {:induction false} TableMatchesLeafPaths(t: HuffmanTree, q: BitString)
    requires CodeTreeShape(t) && DistinctLeaves(t)
    requires LeafAt(t, q).Some?
    ensures LeafAt(t, q).value in GenerateCodeTable(t)
    ensures GenerateCodeTable(t)[LeafAt(t, q).value] == q
    decreases t
  {
    var c := LeafAt(t, q).value;
    LeafAtInLeafSymbols(t, q);
    if Leaf(t) {
      if |q| > 0 {
        SubtreeOfEmpty(q[1..]);
      }
    } else {
      assert |q| > 0;
      assert [q[0]] + q[1..] == q;
      SubtreeStep(t, q[0], q[1..]);
      var child := if q[0] == 0 then t.left else t.right;
      assert DistinctLeaves(child) by {
        forall d
          ensures LeafSymbols(child)[d] <= 1
        {
          assert LeafSymbols(t)[d] == LeafSymbols(t.left)[d] + LeafSymbols(t.right)[d];
        }
      }
      TableMatchesLeafPaths(child, q[1..]);
      LeafAtInLeafSymbols(child, q[1..]);
      assert LeafSymbols(t)[c] == LeafSymbols(t.left)[c] + LeafSymbols(t.right)[c];
      if q[0] == 0 {
        assert c !in GenerateCodeTable(t.right);
      }
    }
  }

  /** Every node of `t` carries as its code `prefix` followed by its path. */
  predicate CodesFrom(t: HuffmanTree, prefix: BitString) {
    t.Node? ==>
      && t.value.code == Some(prefix)
      && CodesFrom(t.left, prefix + [0])
      && CodesFrom(t.right, prefix + [1])
  }

  /** A tree with its codes erased, to compare trees up to code assignment. */
  function EraseCodes(t: HuffmanTree): HuffmanTree {
    match t
    case Empty => Empty
    case Node(v, l, r) => Node(v.(code := None), EraseCodes(l), EraseCodes(r))
  }

  /** The recursion of `assignCodes` below a node whose code is `code`: each
      left child gets the parent's code plus 0, each right child plus 1. */
  function AssignFrom(t: HuffmanTree, code: BitString): (r: HuffmanTree)
    ensures CodesFrom(r, code)
    ensures EraseCodes(r) == EraseCodes(t)
  {
    match t
    case Empty => Empty
    case Node(v, l, rt) => Node(v.(code := Some(code)), AssignFrom(l, code + [0]), AssignFrom(rt, code + [1]))
  }

  /** `assignCodes`: the root keeps its code, or gets the empty code if it
      has none; below it every code is the root code followed by the path. */
  function AssignCodes(t: HuffmanTree): (r: HuffmanTree)
    requires t.Node?
    ensures CodesFrom(r, t.value.code.GetOr([]))
    ensures t.value.code.None? || t.value.code == Some([]) ==> CodesFrom(r, [])
    ensures EraseCodes(r) == EraseCodes(t)
  {
    AssignFrom(t, t.value.code.GetOr([]))
  }

  /** The code of every node reached from the root is root code ++ path. */
  lemma {:induction false} CodeIsPath(t: HuffmanTree, prefix: BitString, p: BitString)
    requires CodesFrom(t, prefix)
    requires Subtree(t, p).Node?
    ensures Subtree(t, p).value.code == Some(prefix + p)
    decreases |p|
  {
    if |p| == 0 {
      assert prefix + p == prefix;
    } else {
      assert t.Node? by {
        if t.Empty? {
          SubtreeOfEmpty(p);
        }
      }
      assert [p[0]] + p[1..] == p;
      SubtreeStep(t, p[0], p[1..]);
      CodeIsPath(if p[0] == 0 then t.left else t.right, prefix + [p[0]], p[1..]);
      assert prefix + [p[0]] + p[1..] == prefix + p;
    }
  }

  /** Everything the codec reads from a tree ignores the code fields. */
  lemma {:induction false} ErasedCodesPreserveShape(t: HuffmanTree, u: HuffmanTree)
    requires EraseCodes(t) == EraseCodes(u)
    ensures CodeTreeShape(t) <==> CodeTreeShape(u)
    ensures LeafSymbols(t) == LeafSymbols(u)
    ensures Leaf(t) <==> Leaf(u)
    ensures t.Node? <==> u.Node?
    ensures t.Node? ==> t.value.symbol == u.value.symbol && t.value.frequency == u.value.frequency
    ensures t.Node? ==> EraseCodes(t.left) == EraseCodes(u.left) && EraseCodes(t.right) == EraseCodes(u.right)
  {
    if t.Node? {
      ErasedCodesPreserveShape(t.left, u.left);
      ErasedCodesPreserveShape(t.right, u.right);
    }
  }

  /** Hence the table does not depend on when codes are assigned: building it
      before `assignCodes` (the earlier variant) or after gives the same table. */
  lemma {:induction false} TableIgnoresCodes(t: HuffmanTree, u: HuffmanTree)
    requires CodeTreeShape(t) && EraseCodes(t) == EraseCodes(u)
    ensures CodeTreeShape(u) && GenerateCodeTable(t) == GenerateCodeTable(u)
    decreases t
  {
    ErasedCodesPreserveShape(t, u);
    if !Leaf(t) {
      TableIgnoresCodes(t.left, u.left);
      TableIgnoresCodes(t.right, u.right);
    }
  }

  /** Leaf paths likewise ignore codes. */
  lemma {:induction false} LeafAtIgnoresCodes(t: HuffmanTree, u: HuffmanTree, p: BitString)
    requires EraseCodes(t) == EraseCodes(u)
    ensures LeafAt(t, p) == LeafAt(u, p)
    decreases |p|
  {
    ErasedCodesPreserveShape(t, u);
    if |p| > 0 && t.Node? {
      assert [p[0]] + p[1..] == p;
      SubtreeStep(t, p[0], p[1..]);
      SubtreeStep(u, p[0], p[1..]);
      if p[0] == 0 {
        LeafAtIgnoresCodes(t.left, u.left, p[1..]);
      } else {
        LeafAtIgnoresCodes(t.right, u.right, p[1..]);
      }
    }
  }

  /** `encode`: the concatenation of the codes of the characters, in order;
      a character missing from the table makes the Java code fail. */
  function Encode(table: CodeTable, s: string): (r: Option<BitString>)
    ensures r.Some? <==> forall k :: 0 <= k < |s| ==> s[k] in table
    ensures |s| == 0 ==> r == Some([])
    ensures |s| == 1 && s[0] in table ==> r == Some(table[s[0]])
  {
    if |s| == 0 then Some([])
    else if s[0] !in table then None
    else
      var rest := Encode(table, s[1..]);
      if rest.None? then None
      else
        assert |s| == 1 ==> rest.value == [] && table[s[0]] + rest.value == table[s[0]];
        Some(table[s[0]] + rest.value)
  }

  /** Encoding distributes over concatenation of the input. */
  lemma {:induction false} EncodeAppend(table: CodeTable, s1: string, s2: string)
    requires forall k :: 0 <= k < |s1| ==> s1[k] in table
    requires forall k :: 0 <= k < |s2| ==> s2[k] in table
    ensures Encode(table, s1 + s2).Some?
    ensures Encode(table, s1 + s2).value == Encode(table, s1).value + Encode(table, s2).value
  {
    if |s1| > 0 {
      assert (s1 + s2)[1..] == s1[1..] + s2;
      EncodeAppend(table, s1[1..], s2);
    } else {
      assert s1 + s2 == s2;
    }
  }

  /** The guard of the decoding loop: bits remain, or the current node is a
      leaf (whose symbol has not been emitted yet). */
  predicate Guard(cur: HuffmanTree, rest: BitString) {
    |rest| > 0 || Leaf(cur)
  }

  /** One iteration of the decoding loop: at a leaf emit its symbol and go
      back to the root without consuming; otherwise consume one bit and
      descend (0 left, 1 right). */
  function Step(root: HuffmanTree, cur: HuffmanTree, rest: BitString): (r: (HuffmanTree, BitString, string))
    requires CodeTreeShape(root) && CodeTreeShape(cur) && Guard(cur, rest)
    ensures CodeTreeShape(r.0)
    ensures Leaf(cur) ==> r.0 == root && r.1 == rest && r.2 == [cur.value.symbol.value]
    ensures !Leaf(cur) ==> |r.1| + 1 == |rest| && r.2 == "" &&
                           r.0 == (if rest[0] == 0 then cur.left else cur.right)
  {
    if Leaf(cur) then (root, rest, [cur.value.symbol.value])
    else if rest[0] == 0 then (cur.left, rest[1..], "")
    else (cur.right, rest[1..], "")
  }

  /** The whole decoding loop from node `cur` with bits `rest` still unread.
      It ends once no bits remain and the current node is not a leaf, so a
      final symbol reached by the last bit is still emitted.  A root that is
      itself a leaf would make the loop run forever, hence the requirement.
      Every symbol but a pending one costs at least one bit. */
  function DecodeFrom(root: HuffmanTree, cur: HuffmanTree, rest: BitString): (r: string)
    requires CodeTreeShape(root) && !Leaf(root) && CodeTreeShape(cur)
    ensures |r| <= |rest| + (if Leaf(cur) then 1 else 0)
    decreases |rest|, if Leaf(cur) then 1 else 0
  {
    if Guard(cur, rest) then
      var next := Step(root, cur, rest);
      next.2 + DecodeFrom(root, next.0, next.1)
    else ""
  }

  /** With a single-leaf root the loop state repeats forever: the guard holds
      and one iteration returns to the same node with the same unread bits. */
  lemma SingleLeafRootNeverTerminates(root: HuffmanTree, rest: BitString)
    requires CodeTreeShape(root) && Leaf(root)
    ensures Guard(root, rest)
    ensures Step(root, root, rest).0 == root && Step(root, root, rest).1 == rest
  {
  }

  /** `decode`, the loop as the Java code writes it, with an index into the bits. */
  method Decode(root: HuffmanTree, bits: BitString) returns (decoded: string)
    requires CodeTreeShape(root) && !Leaf(root)
    ensures decoded == DecodeFrom(root, root, bits)
  {
    var cur := root;
    decoded := "";
    var i := 0;
    while i < |bits| || Leaf(cur)
      invariant 0 <= i <= |bits|
      invariant CodeTreeShape(cur)
      invariant decoded + DecodeFrom(root, cur, bits[i..]) == DecodeFrom(root, root, bits)
      decreases |bits| - i, if Leaf(cur) then 1 else 0
    {
      if Leaf(cur) {
        decoded := decoded + [cur.value.symbol.value];
        cur := root;
      } else if bits[i] == 0 {
        assert bits[i..][1..] == bits[i + 1..];
        cur := cur.left;
        i := i + 1;
      } else {
        assert bits[i..][1..] == bits[i + 1..];
        cur := cur.right;
        i := i + 1;
      }
    }
  }

  /** Reading a complete code from node `cur` emits its symbol and returns to
      the root with the following bits unread. */
  lemma {:induction false} DecodeLeafPath(root: HuffmanTree, cur: HuffmanTree, p: BitString, rest: BitString)
    requires CodeTreeShape(root) && !Leaf(root) && CodeTreeShape(cur)
    requires LeafAt(cur, p).Some?
    ensures DecodeFrom(root, cur, p + rest) == [LeafAt(cur, p).value] + DecodeFrom(root, root, rest)
    decreases |p|
  {
    if |p| == 0 {
      assert p + rest == rest;
    } else {
      if Leaf(cur) {
        SubtreeOfEmpty(p[1..]);
      }
      assert [p[0]] + p[1..] == p;
      SubtreeStep(cur, p[0], p[1..]);
      assert (p + rest)[1..] == p[1..] + rest;
      DecodeLeafPath(root, if p[0] == 0 then cur.left else cur.right, p[1..], rest);
    }
  }

  /** Bits that stop strictly inside the tree decode to nothing: a trailing
      incomplete code is dropped. */
  lemma {:induction false} DecodeIncomplete(root: HuffmanTree, cur: HuffmanTree, p: BitString)
    requires CodeTreeShape(root) && !Leaf(root) && CodeTreeShape(cur)
    requires Subtree(cur, p).Node? && !Leaf(Subtree(cur, p))
    ensures DecodeFrom(root, cur, p) == ""
    decreases |p|
  {
    if |p| > 0 {
      if Leaf(cur) {
        SubtreeOfEmpty(p[1..]);
      }
      assert [p[0]] + p[1..] == p;
      SubtreeStep(cur, p[0], p[1..]);
      DecodeIncomplete(root, if p[0] == 0 then cur.left else cur.right, p[1..]);
    }
  }

  /** Round trip: if every code in the table leads to a leaf with its own
      symbol, decoding the encoding of s followed by any tail gives s followed
      by the decoding of the tail. */
  lemma {:induction false} DecodeEncode(root: HuffmanTree, table: CodeTable, s: string, tail: BitString)
    requires CodeTreeShape(root) && !Leaf(root)
    requires forall c :: c in table ==> LeafAt(root, table[c]) == Some(c)
    requires forall k :: 0 <= k < |s| ==> s[k] in table
    ensures DecodeFrom(root, root, Encode(table, s).value + tail) == s + DecodeFrom(root, root, tail)
  {
    if |s| > 0 {
      var code := table[s[0]];
      var rest := Encode(table, s[1..]).value;
      assert Encode(table, s).value + tail == code + (rest + tail);
      DecodeLeafPath(root, root, code, rest + tail);
      DecodeEncode(root, table, s[1..], tail);
      assert s == [s[0]] + s[1..];
    } else {
      assert Encode(table, s).value + tail == tail;
      assert s + DecodeFrom(root, root, tail) == DecodeFrom(root, root, tail);
    }
  }

  /** `decode(encode(s)) == s` for every s over the table's symbols. */
  lemma RoundTrip(root: HuffmanTree, table: CodeTable, s: string)
    requires CodeTreeShape(root) && !Leaf(root)
    requires forall c :: c in table ==> LeafAt(root, table[c]) == Some(c)
    requires forall k :: 0 <= k < |s| ==> s[k] in table
    ensures DecodeFrom(root, root, Encode(table, s).value) == s
  {
    DecodeEncode(root, table, s, []);
    assert Encode(table, s).value + [] == Encode(table, s).value;
  }

  /** A trailing incomplete code after a complete encoding is silently dropped. */
  lemma TrailingBitsDropped(root: HuffmanTree, table: CodeTable, s: string, partial: BitString)
    requires CodeTreeShape(root) && !Leaf(root)
    requires forall c :: c in table ==> LeafAt(root, table[c]) == Some(c)
    requires forall k :: 0 <= k < |s| ==> s[k] in table
    requires Subtree(root, partial).Node? && !Leaf(Subtree(root, partial))
    ensures DecodeFrom(root, root, Encode(table, s).value + partial) == s
  {
    DecodeEncode(root, table, s, partial);
    DecodeIncomplete(root, root, partial);
    assert s + "" == s;
  }
}

=== FILE: huffman_rebuild.dfy ===
/** Rebuilding a decoding tree from a symbol-to-code table
    (`getInverseCodeMap`, `generateTreeFromTable`,
    `generateTreeFromTableInner`). */
module HuffmanRebuild {
  import opened Wrappers
  import opened Bits
  import opened BinaryTrees
  import opened HuffmanTrees
  import opened HuffmanCodes

  /** Codes to symbols.  The Java code keys this map by the codes' 0/1 text,
      which determines the bits (`Bits.RenderThenParse`). */
  type InverseMap = map<BitString, char>

  /** `inv` maps each code of the table back to a symbol that has it. */
  ghost predicate IsInverse(table: CodeTable, inv: InverseMap) {
    && inv.Keys == table.Values
    && forall p :: p in inv ==> inv[p] in table && table[inv[p]] == p
  }

  /** No two symbols share a code. */
  predicate Injective(table: CodeTable) {
    forall c, d :: c in table && d in table && c != d ==> table[c] != table[d]
  }

  /** `getInverseCodeMap`: visits the entries in some order, later entries
      overwriting earlier ones on a shared code. */
  method InverseCodeMap(table: CodeTable) returns (inv: InverseMap)
    ensures IsInverse(table, inv)
  {
    inv := map[];
    var remaining := table;
    while remaining != map[]
      invariant remaining.Keys <= table.Keys
      invariant forall c :: c in remaining ==> remaining[c] == table[c]
      invariant forall p :: p in inv ==> inv[p] in table && inv[p] !in remaining && table[inv[p]] == p
      invariant forall c :: c in table && c !in remaining ==> table[c] in inv
      decreases |remaining|
    {
      var c :| c in remaining;
      inv := inv[table[c] := c];
      remaining := remaining - {c};
    }
    forall p | p in table.Values
      ensures p in inv
    {
      var c :| c in table && table[c] == p;
    }
  }

  /** For a table in which no two symbols share a code, the inverse is
      unique and undoes the table. */
  lemma InverseUndoesTable(table: CodeTable, inv: InverseMap)
    requires IsInverse(table, inv) && Injective(table)
    ensures forall c :: c in table ==> table[c] in inv && inv[table[c]] == c
  {
    forall c | c in table
      ensures table[c] in inv && inv[table[c]] == c
    {
      assert table[c] in table.Values;
    }
  }

  /** A prefix-free table is injective. */
  lemma PrefixFreeIsInjective(table: CodeTable)
    requires PrefixFree(table)
    ensures Injective(table)
  {
  }

  /** No code of `inv` is a proper prefix of another. */
  predicate PrefixFreeKeys(inv: InverseMap) {
    forall p, q :: p in inv && q in inv && p != q ==> !(p <= q)
  }

  lemma PrefixFreeInverse(table: CodeTable, inv: InverseMap)
    requires IsInverse(table, inv) && PrefixFree(table)
    ensures PrefixFreeKeys(inv)
  {
    forall p, q | p in inv && q in inv && p != q
      ensures !(p <= q)
    {
      assert table[inv[p]] == p && table[inv[q]] == q;
    }
  }

  /** `generateTreeFromTableInner` below the node whose code is `prefix`:
      a code of the map gives a leaf with that symbol; any other prefix gives
      a node with no symbol whose children are built for prefix+0 and
      prefix+1.  Every node carries its prefix as its code and no frequency.
      The Java recursion does not terminate when some branch below
      `prefix` never meets a code; here, with `bound` at least the length of
      every code, a prefix of length `bound` or more that is not a code can
      only lead to such a branch, and the result is None. */
  function TreeFromTable(inv: InverseMap, prefix: BitString, bound: nat): (r: Option<HuffmanTree>)
    ensures r.Some? ==> CodeTreeShape(r.value) && CodesFrom(r.value, prefix)
    ensures r.Some? ==> r.value.value.frequency.None?
    ensures r.Some? && Leaf(r.value) ==> prefix in inv && r.value.value.symbol == Some(inv[prefix])
    ensures prefix in inv ==> r.Some? && Leaf(r.value)
    decreases bound - |prefix|
  {
    if prefix in inv then
      Some(MakeLeafNode(Some(inv[prefix]), None, Some(prefix)))
    else if |prefix| >= bound then
      None
    else
      var left := TreeFromTable(inv, prefix + [0], bound);
      var right := TreeFromTable(inv, prefix + [1], bound);
      if left.Some? && right.Some? then
        Some(MakeNode(None, None, Some(prefix), left, right))
      else None
  }

  /** A branch of the code space that meets no code: no code lies on the
      way down to `q` or below it.  The Java recursion down such a
      branch never returns. */
  ghost predicate DeadBranch(table: CodeTable, q: BitString) {
    forall c :: c in table ==> !(table[c] <= q) && !(q <= table[c])
  }

  /** `generateTreeFromTable`: invert the table and build from the empty
      prefix, with the longest code's length as the bound.  None, standing
      for the Java code never returning, comes back exactly when some branch
      meets no code; the table of a decoding tree always rebuilds that
      tree's shape and leaf symbols. */
  method GenerateTreeFromTable(table: CodeTable) returns (r: Option<HuffmanTree>)
    ensures exists inv, b :: IsInverse(table, inv) && (forall p :: p in inv ==> |p| <= b) && r == TreeFromTable(inv, [], b)
    ensures r.None? <==> exists q :: DeadBranch(table, q)
    ensures forall t :: CodeTreeShape(t) && DistinctLeaves(t) && table == GenerateCodeTable(t) ==>
              r.Some? && Skeleton(r.value) == Skeleton(t)
    ensures r.Some? ==> CodeTreeShape(r.value) && CodesFrom(r.value, [])
    ensures r.Some? && PrefixFree(table) ==>
              forall c :: c in table ==> LeafAt(r.value, table[c]) == Some(c)
    ensures r.Some? && PrefixFree(table) && |table| >= 2 ==> !Leaf(r.value)
  {
    var inv := InverseCodeMap(table);
    var bound := LongestCode(inv);
    r := TreeFromTable(inv, [], bound);
    if r.None? {
      var q := NoneHasEndlessBranch(inv, [], bound);
      assert DeadBranch(table, q) by {
        forall c | c in table
          ensures !(table[c] <= q) && !(q <= table[c])
        {
          var p := table[c];
          assert p in table.Values && [] <= p;
          assert q <= p ==> q == p;
        }
      }
    } else {
      forall q
        ensures !DeadBranch(table, q)
      {
        var p := CodeOnEveryBranch(inv, [], bound, q);
        assert inv[p] in table && table[inv[p]] == p;
      }
    }
    forall t | CodeTreeShape(t) && DistinctLeaves(t) && table == GenerateCodeTable(t)
      ensures r.Some? && Skeleton(r.value) == Skeleton(t)
    {
      TableThenRebuild(t, inv, bound);
    }
    if r.Some? && PrefixFree(table) {
      PrefixFreeIsInjective(table);
      InverseUndoesTable(table, inv);
      PrefixFreeInverse(table, inv);
      forall c | c in table
        ensures LeafAt(r.value, table[c]) == Some(c)
      {
        RebuiltLeaf(inv, [], bound, table[c]);
        assert table[c][0..] == table[c];
      }
      if |table| >= 2 {
        NoEmptyCode(table);
      }
    }
  }

  /** With two or more symbols, a prefix-free table has no empty code, so
      the rebuilt root is not a leaf. */
  lemma NoEmptyCode(table: CodeTable)
    requires PrefixFree(table) && |table| >= 2
    ensures forall c :: c in table ==> table[c] != []
  {
    forall c | c in table
      ensures table[c] != []
    {
      var others := table.Keys - {c};
      assert |others| == |table.Keys| - 1;
      var d :| d in others;
      assert !(table[c] <= table[d]);
    }
  }

  /** The length of the longest code (0 for an empty map). */
  method LongestCode(inv: InverseMap) returns (bound: nat)
    ensures forall p :: p in inv ==> |p| <= bound
  {
    bound := 0;
    var remaining := inv.Keys;
    while remaining != {}
      invariant remaining <= inv.Keys
      invariant forall p :: p in inv && p !in remaining ==> |p| <= bound
      decreases |remaining|
    {
      var p :| p in remaining;
      if |p| > bound {
        bound := |p|;
      }
      remaining := remaining - {p};
    }
  }

  /** No code lies at or below `prefix`. */
  predicate NoCodeBelow(inv: InverseMap, prefix: BitString) {
    forall p :: p in inv ==> !(prefix <= p)
  }

  /** Below a prefix that no code extends the Java recursion never ends,
      and the model gives None. */
  lemma {:induction false} NoCodeBelowGivesNone(inv: InverseMap, prefix: BitString, bound: nat)
    requires NoCodeBelow(inv, prefix)
    ensures TreeFromTable(inv, prefix, bound).None?
    decreases bound - |prefix|
  {
    assert prefix <= prefix;
    if |prefix| < bound {
      assert NoCodeBelow(inv, prefix + [0]) by {
        forall p | p in inv
          ensures !(prefix + [0] <= p)
        {
          assert prefix + [0] <= p ==> prefix <= p;
        }
      }
      NoCodeBelowGivesNone(inv, prefix + [0], bound);
    }
  }

  /** Below a node that the model rebuilds, every branch meets a code: some
      code lies on the way down to `q` or below it. */
  lemma {:induction false} CodeOnEveryBranch(inv: InverseMap, prefix: BitString, bound: nat, q: BitString) returns (p: BitString)
    requires TreeFromTable(inv, prefix, bound).Some? && prefix <= q
    ensures p in inv && prefix <= p && (p <= q || q <= p)
    decreases bound - |prefix|
  {
    if prefix in inv {
      p := prefix;
    } else if q == prefix {
      p := CodeOnEveryBranch(inv, prefix + [0], bound, prefix + [0]);
    } else {
      var b := q[|prefix|];
      assert prefix + [b] <= q;
      p := CodeOnEveryBranch(inv, prefix + [b], bound, q);
    }
  }

  /** The bound is immaterial once it covers every code: the model's result
      does not depend on it. */
  lemma {:induction false} BoundIrrelevant(inv: InverseMap, prefix: BitString, b1: nat, b2: nat)
    requires forall p :: p in inv ==> |p| <= b1
    requires b1 <= b2
    ensures TreeFromTable(inv, prefix, b1) == TreeFromTable(inv, prefix, b2)
    decreases b2 - |prefix|
  {
    if prefix !in inv && |prefix| < b2 {
      if |prefix| >= b1 {
        assert NoCodeBelow(inv, prefix) by {
          forall p | p in inv
            ensures !(prefix <= p)
          {
            assert prefix <= p ==> p == prefix;
          }
        }
        NoCodeBelowGivesNone(inv, prefix, b2);
      } else {
        BoundIrrelevant(inv, prefix + [0], b1, b2);
        BoundIrrelevant(inv, prefix + [1], b1, b2);
      }
    }
  }

  /** A None result has a witness: a branch from `prefix` to a node of depth
      at least `bound` that meets no code; with every code no longer than
      `bound`, nothing below it is a code either, so the Java recursion
      down that branch never returns. */
  lemma {:induction false} NoneHasEndlessBranch(inv: InverseMap, prefix: BitString, bound: nat) returns (q: BitString)
    requires TreeFromTable(inv, prefix, bound).None?
    ensures prefix <= q && |q| >= bound
    ensures forall p :: p in inv && prefix <= p ==> !(p <= q)
    decreases bound - |prefix|
  {
    assert prefix !in inv;
    if |prefix| >= bound {
      q := prefix;
      forall p | p in inv && prefix <= p
        ensures !(p <= q)
      {
        assert p <= q ==> p == prefix;
      }
    } else {
      var b: Bit := if TreeFromTable(inv, prefix + [0], bound).None? then 0 else 1;
      q := NoneHasEndlessBranch(inv, prefix + [b], bound);
      forall p | p in inv && prefix <= p
        ensures !(p <= q)
      {
        assert p != prefix;
        SharedNextBit(prefix, b, p, q);
      }
    }
  }

  /** Two extensions of `prefix`, one a prefix of the other, agree on the
      bit that follows `prefix`. */
  lemma SharedNextBit(prefix: BitString, b: Bit, p: BitString, q: BitString)
    requires prefix <= p && |p| > |prefix| && prefix + [b] <= q
    ensures p <= q ==> prefix + [b] <= p
  {
    if p <= q {
      assert p[|prefix|] == q[|prefix|] == b;
      assert p[..|prefix| + 1] == prefix + [b];
    }
  }

  /** In a rebuilt tree, each code of a prefix-free map below `prefix` leads
      (from the node for `prefix`) to a leaf holding the code's symbol. */
  lemma {:induction false} RebuiltLeaf(inv: InverseMap, prefix: BitString, bound: nat, p: BitString)
    requires PrefixFreeKeys(inv)
    requires TreeFromTable(inv, prefix, bound).Some?
    requires p in inv && prefix <= p
    ensures LeafAt(TreeFromTable(inv, prefix, bound).value, p[|prefix|..]) == Some(inv[p])
    decreases bound - |prefix|
  {
    var u := TreeFromTable(inv, prefix, bound).value;
    if prefix in inv {
      assert p == prefix;
      assert p[|prefix|..] == [];
    } else {
      assert p != prefix;
      var b := p[|prefix|];
      var child := prefix + [b];
      assert child <= p;
      RebuiltLeaf(inv, child, bound, p);
      assert p[|prefix|..] == [b] + p[|child|..];
      SubtreeStep(u, b, p[|child|..]);
    }
  }

  /** The leaf symbols of a tree with their shape: each node's symbol if it
      is a leaf, nothing otherwise. */
  function Skeleton(t: HuffmanTree): Tree<Option<char>> {
    match t
    case Empty => Empty
    case Node(v, l, r) => Node(if l.Empty? && r.Empty? then v.symbol else None, Skeleton(l), Skeleton(r))
  }

  lemma ChildHeight(t: HuffmanTree)
    requires t.Node? && t.left.Node? && t.right.Node?
    ensures Height(t.left) < Height(t) && Height(t.right) < Height(t)
  {
  }

  /** `t` below `prefix` agrees with the map: a path extending `prefix` is a
      code exactly when it ends at a leaf of `t`, with that leaf's symbol. */
  ghost predicate AgreesBelow(inv: InverseMap, prefix: BitString, t: HuffmanTree) {
    forall q :: prefix <= q ==>
      (q in inv <==> LeafAt(t, q[|prefix|..]).Some?) &&
      (q in inv ==> LeafAt(t, q[|prefix|..]) == Some(inv[q]))
  }

  lemma AgreesBelowChild(inv: InverseMap, prefix: BitString, t: HuffmanTree, b: Bit)
    requires t.Node? && AgreesBelow(inv, prefix, t)
    ensures AgreesBelow(inv, prefix + [b], if b == 0 then t.left else t.right)
  {
    var child := if b == 0 then t.left else t.right;
    var pb := prefix + [b];
    forall q | pb <= q
      ensures (q in inv <==> LeafAt(child, q[|pb|..]).Some?) &&
              (q in inv ==> LeafAt(child, q[|pb|..]) == Some(inv[q]))
    {
      assert prefix <= q;
      assert q[|prefix|..] == [b] + q[|pb|..];
      SubtreeStep(t, b, q[|pb|..]);
    }
  }

  /** Rebuilding from a map that agrees with a decoding tree reproduces the
      tree's shape and leaf symbols, provided the bound reaches its depth. */
  lemma {:induction false} RebuildReproduces(inv: InverseMap, prefix: BitString, bound: nat, t: HuffmanTree)
    requires CodeTreeShape(t) && AgreesBelow(inv, prefix, t)
    requires |prefix| + Height(t) <= bound
    ensures TreeFromTable(inv, prefix, bound).Some?
    ensures Skeleton(TreeFromTable(inv, prefix, bound).value) == Skeleton(t)
    decreases t
  {
    assert prefix <= prefix && prefix[|prefix|..] == [];
    if Leaf(t) {
      assert prefix in inv;
    } else {
      assert prefix !in inv;
      ChildHeight(t);
      AgreesBelowChild(inv, prefix, t, 0);
      AgreesBelowChild(inv, prefix, t, 1);
      RebuildReproduces(inv, prefix + [0], bound, t.left);
      RebuildReproduces(inv, prefix + [1], bound, t.right);
    }
  }

  /** The round trip through a table: the table derived from a decoding tree
      with distinct leaf symbols, inverted and rebuilt with any bound that
      covers its codes, gives back the tree's shape and leaf symbols. */
  lemma TableThenRebuild(t: HuffmanTree, inv: InverseMap, bound: nat)
    requires CodeTreeShape(t) && DistinctLeaves(t)
    requires IsInverse(GenerateCodeTable(t), inv)
    requires forall p :: p in inv ==> |p| <= bound
    ensures TreeFromTable(inv, [], bound).Some?
    ensures Skeleton(TreeFromTable(inv, [], bound).value) == Skeleton(t)
  {
    var table := GenerateCodeTable(t);
    GeneratedTableIsPrefixFree(t);
    PrefixFreeIsInjective(table);
    InverseUndoesTable(table, inv);
    var root: BitString := [];
    forall q | root <= q
      ensures (q in inv <==> LeafAt(t, q[|root|..]).Some?) &&
              (q in inv ==> LeafAt(t, q[|root|..]) == Some(inv[q]))
    {
      assert q[|root|..] == q;
      if q in inv {
        assert table[inv[q]] == q;
      }
      if LeafAt(t, q).Some? {
        TableMatchesLeafPaths(t, q);
        assert table[LeafAt(t, q).value] in table.Values;
      }
    }
    var depth := DepthCovered(t, table);
    BoundIrrelevant(inv, [], depth, if depth <= bound then bound else depth);
    BoundIrrelevant(inv, [], bound, if depth <= bound then bound else depth);
    RebuildReproduces(inv, [], if depth <= bound then bound else depth, t);
  }

  /** The height of a decoding tree is the length of one of its codes. */
  lemma DepthCovered(t: HuffmanTree, table: CodeTable) returns (depth: nat)
    requires CodeTreeShape(t) && table == GenerateCodeTable(t)
    ensures depth == Height(t)
    ensures forall p :: p in table.Values ==> |p| <= depth
  {
    depth := Height(t);
    forall p | p in table.Values
      ensures |p| <= depth
    {
      var c :| c in table && table[c] == p;
      LeafPathWithinHeight(t, p);
    }
  }

  lemma {:induction false} LeafPathWithinHeight(t: HuffmanTree, p: BitString)
    requires CodeTreeShape(t) && LeafAt(t, p).Some?
    ensures |p| <= Height(t)
    decreases t
  {
    if |p| > 0 {
      if Leaf(t) {
        SubtreeOfEmpty(p[1..]);
      } else {
        assert [p[0]] + p[1..] == p;
        SubtreeStep(t, p[0], p[1..]);
        ChildHeight(t);
        LeafPathWithinHeight(if p[0] == 0 then t.left else t.right, p[1..]);
      }
    }
  }
}

=== FILE: huffman_tree.dfy ===
/** The values stored at a Huffman tree node (`HuffmanTreeNodeValues`) and
    the Huffman tree itself (`HuffmanTree`), a binary tree of such values
    with its own narrow equality, hash and frequency ordering. */
module HuffmanTrees {
  import opened Wrappers
  import opened Bits
  import opened BinaryTrees

  /** The (symbol, frequency, code) triple; each field may be absent (`null`).
      Frequencies are exact reals here, not IEEE doubles. */
  datatype NodeValues = NodeValues(symbol: Option<char>, frequency: Option<real>, code: Option<BitString>)

  /** The no-argument constructor: all three fields absent. */
  function NoValues(): (v: NodeValues)
    ensures v.symbol.None? && v.frequency.None? && v.code.None?
  {
    NodeValues(None, None, None)
  }

  /** `setSymbol` on the triple: only the symbol changes. */
  function WithSymbol(v: NodeValues, symbol: Option<char>): (r: NodeValues)
    ensures r.symbol == symbol && r.frequency == v.frequency && r.code == v.code
  {
    v.(symbol := symbol)
  }

  /** `setFrequency` on the triple: only the frequency changes. */
  function WithFrequency(v: NodeValues, frequency: Option<real>): (r: NodeValues)
    ensures r.frequency == frequency && r.symbol == v.symbol && r.code == v.code
  {
    v.(frequency := frequency)
  }

  /** `setCode` on the triple: only the code changes. */
  function WithCode(v: NodeValues, code: Option<BitString>): (r: NodeValues)
    ensures r.code == code && r.symbol == v.symbol && r.frequency == v.frequency
  {
    v.(code := code)
  }

  /** Java's rendering of a `null` reference inside a string concatenation. */
  const NullText: string := "null"

  /** The symbol as `toString` shows it: the character, or "null". */
  function SymbolText(symbol: Option<char>): (t: string)
    ensures symbol.Some? ==> t == [symbol.value]
    ensures symbol.None? ==> t == NullText
  {
    if symbol.Some? then [symbol.value] else NullText
  }

  /** The frequency as `toString` shows it; how a double prints is supplied
      by the caller as `showFrequency`. */
  function FrequencyText(frequency: Option<real>, showFrequency: real -> string): (t: string)
    ensures frequency.Some? ==> t == showFrequency(frequency.value)
    ensures frequency.None? ==> t == NullText
  {
    if frequency.Some? then showFrequency(frequency.value) else NullText
  }

  /** The code as `toString` shows it: its 0/1 digits, or "null". */
  function CodeText(code: Option<BitString>): (t: string)
    ensures code.Some? ==> |t| == |code.value| && IsBitText(t) && t == ToString(code.value)
    ensures code.None? ==> t == NullText
  {
    if code.Some? then ToString(code.value) else NullText
  }

  /** `toString` of the triple: "(symbol, frequency, code)", with "null" for
      an absent field and the code as its 0/1 digits.  The digits between
      the last separator and the closing parenthesis read back as the code. */
  function Render(v: NodeValues, showFrequency: real -> string): (r: string)
    ensures r == "(" + SymbolText(v.symbol) + ", " + FrequencyText(v.frequency, showFrequency) + ", " + CodeText(v.code) + ")"
    ensures v.symbol.Some? ==> r[1] == v.symbol.value && r[2..4] == ", "
    ensures v.code.Some? ==> r[|r| - 3 - |v.code.value|..|r| - 1 - |v.code.value|] == ", "
    ensures v.code.Some? ==> FromChars(r[|r| - 1 - |v.code.value|..|r| - 1]) == v.code.value
  {
    var codeText := CodeText(v.code);
    var r := "(" + SymbolText(v.symbol) + ", " + FrequencyText(v.frequency, showFrequency) + ", " + codeText + ")";
    assert r[|r| - 1 - |codeText|..|r| - 1] == codeText;
    assert r[|r| - 3 - |codeText|..|r| - 1 - |codeText|] == ", ";
    if v.code.Some? then RenderThenParse(v.code.value); r else r
  }

  /** The rendering the node-value test expects for ('a', 0.25, 10). */
  lemma RenderExample(showFrequency: real -> string)
    requires showFrequency(0.25) == "0.25"
    ensures Render(NodeValues(Some('a'), Some(0.25), Some([1, 0])), showFrequency) == "(a, 0.25, 10)"
  {
    var v := NodeValues(Some('a'), Some(0.25), Some([1, 0]));
    assert CodeText(v.code) == "10" by {
      assert ToString([1, 0][..1]) == "1";
    }
    assert SymbolText(v.symbol) == "a";
    assert FrequencyText(v.frequency, showFrequency) == "0.25";
  }

  /** A Huffman tree is a binary tree of node triples. */
  type HuffmanTree = Tree<NodeValues>

  /** The `HuffmanTree(data)` leaf constructor. */
  function LeafOf(data: NodeValues): (t: HuffmanTree)
    ensures Leaf(t) && t.value == data
  {
    Node(data, Empty, Empty)
  }

  /** The `HuffmanTree(symbol, frequency, code)` leaf constructor. */
  function MakeLeafNode(symbol: Option<char>, frequency: Option<real>, code: Option<BitString>): (t: HuffmanTree)
    ensures Leaf(t)
    ensures t.value.symbol == symbol && t.value.frequency == frequency && t.value.code == code
  {
    Node(NodeValues(symbol, frequency, code), Empty, Empty)
  }

  /** The fully parameterised constructor; missing children become empty. */
  function MakeNode(symbol: Option<char>, frequency: Option<real>, code: Option<BitString>,
                    left: Option<HuffmanTree>, right: Option<HuffmanTree>): (t: HuffmanTree)
    ensures t.Node? && t.value == NodeValues(symbol, frequency, code)
    ensures t.left == left.GetOr(Empty) && t.right == right.GetOr(Empty)
  {
    Node(NodeValues(symbol, frequency, code), left.GetOr(Empty), right.GetOr(Empty))
  }

  /** The (frequency, left, right) constructor used for merged nodes:
      no symbol and no code. */
  function MakeInternal(frequency: Option<real>, left: Option<HuffmanTree>, right: Option<HuffmanTree>): (t: HuffmanTree)
    ensures t.Node? && t.value.symbol.None? && t.value.code.None? && t.value.frequency == frequency
    ensures t.left == left.GetOr(Empty) && t.right == right.GetOr(Empty)
  {
    MakeNode(None, frequency, None, left, right)
  }

  /** `setSymbol` on the tree: only the root triple's symbol changes. */
  function SetSymbol(t: HuffmanTree, symbol: Option<char>): (r: HuffmanTree)
    requires t.Node?
    ensures r.Node? && r.left == t.left && r.right == t.right
    ensures r.value.symbol == symbol && r.value.frequency == t.value.frequency && r.value.code == t.value.code
  {
    t.(value := WithSymbol(t.value, symbol))
  }

  /** `setFrequency` on the tree: only the root triple's frequency changes. */
  function SetFrequency(t: HuffmanTree, frequency: Option<real>): (r: HuffmanTree)
    requires t.Node?
    ensures r.Node? && r.left == t.left && r.right == t.right
    ensures r.value.frequency == frequency && r.value.symbol == t.value.symbol && r.value.code == t.value.code
  {
    t.(value := WithFrequency(t.value, frequency))
  }

  /** `setCode` on the tree: only the root triple's code changes. */
  function SetCode(t: HuffmanTree, code: Option<BitString>): (r: HuffmanTree)
    requires t.Node?
    ensures r.Node? && r.left == t.left && r.right == t.right
    ensures r.value.code == code && r.value.symbol == t.value.symbol && r.value.frequency == t.value.frequency
  {
    t.(value := WithCode(t.value, code))
  }

  /** `equals` / `compareTrees` of the Huffman tree: compares the roots'
      symbols and frequencies only, never the children.  The receiver's
      frequency is read, and so must be present, only once the symbols
      agree (both absent, or both present and equal); otherwise the answer
      is false without reading it. */
  function SameSymbolAndFrequency(a: HuffmanTree, b: HuffmanTree): (r: bool)
    requires a.Node? && b.Node?
    requires a.value.symbol == b.value.symbol ==> a.value.frequency.Some?
    ensures r <==> a.value.symbol == b.value.symbol && a.value.frequency == b.value.frequency
  {
    if a.value.symbol.None? && b.value.symbol.None? then
      Some(a.value.frequency.value) == b.value.frequency
    else if a.value.symbol.Some? && b.value.symbol.Some? then
      a.value.symbol.value == b.value.symbol.value && Some(a.value.frequency.value) == b.value.frequency
    else
      false
  }

  /** The narrow equality is reflexive and symmetric. */
  lemma SameSymbolAndFrequencyIsSymmetric(a: HuffmanTree, b: HuffmanTree)
    requires a.Node? && b.Node? && a.value.frequency.Some?
    requires a.value.symbol == b.value.symbol ==> b.value.frequency.Some?
    ensures SameSymbolAndFrequency(a, a)
    ensures SameSymbolAndFrequency(a, b) == SameSymbolAndFrequency(b, a)
  {
  }

  /** The narrow equality ignores children, so it is strictly weaker than
      structural equality: two leaves and a leaf with a child agree on it. */
  lemma NarrowEqualityIgnoresChildren()
    ensures var a := MakeLeafNode(Some('a'), Some(0.5), None);
            var b := MakeNode(Some('a'), Some(0.5), None, Some(a), None);
            SameSymbolAndFrequency(a, b) && !CompareTrees(a, b)
  {
    var a := MakeLeafNode(Some('a'), Some(0.5), None);
    var b := MakeNode(Some('a'), Some(0.5), None, Some(a), None);
    CompareTreesIsEquality(a, b);
  }

  /** Trees rebuilt from a code table carry no frequencies; a leaf and an
      internal node of such a tree still compare, as unequal, because their
      symbols differ before any frequency is read. */
  lemma FrequencyFreeTreesCompare()
    ensures var leaf := MakeLeafNode(Some('a'), None, Some([0]));
            var inner := MakeNode(None, None, Some([]), Some(leaf), Some(leaf));
            !SameSymbolAndFrequency(leaf, inner) && !SameSymbolAndFrequency(inner, leaf)
  {
  }

  const HashConst: int := 7

  /** Java `int` arithmetic: wrap into the 32-bit two's-complement range. */
  function Wrap32(x: int): (r: int)
    ensures -0x8000_0000 <= r < 0x8000_0000
    ensures (r - x) % 0x1_0000_0000 == 0
  {
    (x + 0x8000_0000) % 0x1_0000_0000 - 0x8000_0000
  }

  /** `hashCode`: 1, plus 7 or the symbol's code point, plus the frequency's
      hash (supplied as `doubleHash`), in 32-bit arithmetic. */
  function HashCode(t: HuffmanTree, doubleHash: real -> int): (r: int)
    requires t.Node? && t.value.frequency.Some?
    ensures -0x8000_0000 <= r < 0x8000_0000
  {
    var mycode := if t.value.symbol.None? then Wrap32(1 + HashConst) else Wrap32(1 + t.value.symbol.value as int);
    Wrap32(mycode + doubleHash(t.value.frequency.value))
  }

  /** Trees equal under the narrow equality have equal hash codes. */
  lemma EqualTreesHashEqual(a: HuffmanTree, b: HuffmanTree, doubleHash: real -> int)
    requires a.Node? && b.Node? && a.value.frequency.Some?
    requires SameSymbolAndFrequency(a, b)
    ensures b.value.frequency.Some? && HashCode(a, doubleHash) == HashCode(b, doubleHash)
  {
  }

  /** Tolerance within which two frequencies compare as equal (0.00001). */
  const Epsilon: real := 0.00001

  function Abs(x: real): real {
    if x < 0.0 then -x else x
  }

  /** `compareTo`: frequency only, 0 within `Epsilon`, otherwise the sign of
      the difference. */
  function CompareTo(a: HuffmanTree, b: HuffmanTree): (r: int)
    requires a.Node? && b.Node? && a.value.frequency.Some? && b.value.frequency.Some?
    ensures r == 0 <==> Abs(a.value.frequency.value - b.value.frequency.value) < Epsilon
    ensures r == 1 <==> a.value.frequency.value >= b.value.frequency.value + Epsilon
    ensures r == -1 <==> b.value.frequency.value >= a.value.frequency.value + Epsilon
  {
    var f1 := a.value.frequency.value;
    var f2 := b.value.frequency.value;
    if Abs(f1 - f2) < Epsilon then 0
    else if f1 > f2 then 1
    else -1
  }

  /** `compareTo` is antisymmetric: sgn(x.compareTo(y)) == -sgn(y.compareTo(x)). */
  lemma CompareToAntisymmetric(a: HuffmanTree, b: HuffmanTree)
    requires a.Node? && b.Node? && a.value.frequency.Some? && b.value.frequency.Some?
    ensures CompareTo(a, b) == -CompareTo(b, a)
  {
  }

  /** "Greater" is transitive: a gap of at least `Epsilon` twice over is a
      gap of at least `Epsilon`. */
  lemma CompareToTransitive(a: HuffmanTree, b: HuffmanTree, c: HuffmanTree)
    requires a.Node? && b.Node? && c.Node?
    requires a.value.frequency.Some? && b.value.frequency.Some? && c.value.frequency.Some?
    requires CompareTo(a, b) > 0 && CompareTo(b, c) > 0
    ensures CompareTo(a, c) > 0
  {
  }

  /** "Compares as equal" is not transitive under the `Epsilon` tolerance:
      frequencies 0, 0.000006 and 0.000012 are pairwise within `Epsilon`
      of their neighbours but not of each other. */
  lemma CompareEqualNotTransitive()
    ensures var a := MakeLeafNode(Some('a'), Some(0.0), None);
            var b := MakeLeafNode(Some('b'), Some(0.000006), None);
            var c := MakeLeafNode(Some('c'), Some(0.000012), None);
            CompareTo(a, b) == 0 && CompareTo(b, c) == 0 && CompareTo(a, c) == -1
  {
  }
}

=== FILE: weights.dfy ===
/** Weights and families of weights (`Weight`, `WeightFamily`), and the
    vocabulary shared by the three balance-weight solvers: the sum of a
    list of weights, what it means to decompose a total into family
    weights, and what it means for a decomposition to be of minimum size. */
module Weights {
  import opened Wrappers

  /** A weight has a positive integer value; `new Weight(v)` rejects v < 1. */
  type Weight = w: int | w >= 1 witness 1

  /** The unit weight, present in every family. */
  const Unit: Weight := 1

  /** A family of weights: a set of weights that contains the unit weight. */
  type Family = f: set<Weight> | Unit in f witness {Unit}

  datatype FamilyError = NullCollection

  /** The default constructor: the collection constructor applied to a
      collection holding the unit weight alone, giving the family {1}. */
  function DefaultFamily(): (f: Family)
    ensures f == {Unit}
    ensures NewFamily(Some([Some(Unit)])) == Success(f)
  {
    var r := NewFamily(Some([Some(Unit)]));
    assert forall w :: w in r.value <==> w == Unit;
    r.value
  }

  /** The collection constructor.  The collection may be `null` (None), which
      is rejected; its entries may be `null` (None), which are skipped; the
      unit weight is always added. */
  function NewFamily(weights: Option<seq<Option<Weight>>>): (r: Result<Family, FamilyError>)
    ensures r.Failure? <==> weights.None?
    ensures r.Success? ==> forall w :: w in r.value <==> w == Unit || Some(w) in weights.value
  {
    match weights
    case None => Failure(NullCollection)
    case Some(ws) => Success(NonNull(ws) + {Unit})
  }

  /** The non-null entries of a collection, as a set. */
  function NonNull(ws: seq<Option<Weight>>): (r: set<Weight>)
    ensures forall w :: w in r <==> Some(w) in ws
  {
    set k | 0 <= k < |ws| && ws[k].Some? :: ws[k].value
  }

  /** `getWeights`: the family's weights, as a value (a copy). */
  function GetWeights(f: Family): (r: set<Weight>)
    ensures Unit in r && forall w :: w in r <==> w in f
  {
    f
  }

  /** `size`: the number of distinct weights. */
  function Size(f: Family): (r: nat)
    ensures r >= 1
    ensures r == |GetWeights(f)|
  {
    assert Unit in f;
    |f|
  }

  predicate StrictlyAscending(s: seq<Weight>) {
    forall i, j :: 0 <= i < j < |s| ==> s[i] < s[j]
  }

  predicate IsLeast(s: set<Weight>, m: Weight) {
    m in s && forall y :: y in s ==> m <= y
  }

  /** Every nonempty finite set of weights has a least element. */
  lemma {:induction false} HasLeast(s: set<Weight>)
    requires s != {}
    ensures exists m :: IsLeast(s, m)
    decreases |s|
  {
    var x :| x in s;
    if s != {x} {
      HasLeast(s - {x});
      var m :| IsLeast(s - {x}, m);
      var least := if x < m then x else m;
      forall y | y in s
        ensures least <= y
      {
        if y != x {
          assert y in s - {x};
        }
      }
      assert IsLeast(s, least);
    } else {
      forall y | y in s
        ensures x <= y
      {
        assert y in {x};
      }
      assert IsLeast(s, x);
    }
  }

  /** The weights of a set in their natural (ascending) order: the order in
      which the family's tree set iterates. */
  function Ascending(s: set<Weight>): (r: seq<Weight>)
    ensures StrictlyAscending(r)
    ensures |r| == |s|
    ensures forall w :: w in r <==> w in s
    decreases |s|
  {
    if s == {} then []
    else
      HasLeast(s);
      var m :| IsLeast(s, m);
      var rest := Ascending(s - {m});
      PrependLeast(s, m, rest);
      [m] + rest
  }

  /** The least weight of a set, followed by the rest in ascending order, is
      the whole set in ascending order. */
  lemma PrependLeast(s: set<Weight>, m: Weight, rest: seq<Weight>)
    requires IsLeast(s, m) && StrictlyAscending(rest)
    requires forall w :: w in rest <==> w in s - {m}
    ensures StrictlyAscending([m] + rest)
    ensures forall w :: w in [m] + rest <==> w in s
  {
    var r := [m] + rest;
    forall i, j | 0 <= i < j < |r|
      ensures r[i] < r[j]
    {
      if i == 0 {
        assert r[j] == rest[j - 1] && r[j] in s - {m};
      } else {
        assert r[i] == rest[i - 1] && r[j] == rest[j - 1];
      }
    }
  }

  /** `iterator`: the family's weights, smallest first. */
  function Iterate(f: Family): (r: seq<Weight>)
    ensures StrictlyAscending(r) && |r| == Size(f)
    ensures forall w :: w in r <==> w in f
    ensures r[0] == Unit
  {
    Ascending(f)
  }

  /** Two strictly ascending listings of one set start with the same
      (least) weight. */
  lemma HeadsAgree(a: seq<Weight>, b: seq<Weight>)
    requires StrictlyAscending(a) && StrictlyAscending(b) && |a| > 0 && |b| > 0
    requires forall w :: w in a <==> w in b
    ensures a[0] == b[0]
  {
    assert forall x :: x in a ==> a[0] <= x;
    assert forall x :: x in b ==> b[0] <= x;
    assert a[0] in b && b[0] in a;
  }

  /** After a shared head, strictly ascending listings of one set list the
      same remaining weights. */
  lemma TailsAgree(a: seq<Weight>, b: seq<Weight>)
    requires StrictlyAscending(a) && StrictlyAscending(b) && |a| > 0 && |b| > 0
    requires forall w :: w in a <==> w in b
    requires a[0] == b[0]
    ensures forall w :: w in a[1..] <==> w in b[1..]
  {
    forall w | w in a[1..]
      ensures w in b[1..]
    {
      var k :| 1 <= k < |a| && a[k] == w;
      assert a[0] < a[k];
      assert w in b;
      var l :| 0 <= l < |b| && b[l] == w;
      assert b[1..][l - 1] == w;
    }
    forall w | w in b[1..]
      ensures w in a[1..]
    {
      var k :| 1 <= k < |b| && b[k] == w;
      assert b[0] < b[k];
      assert w in a;
      var l :| 0 <= l < |a| && a[l] == w;
      assert a[1..][l - 1] == w;
    }
  }

  /** A strictly ascending listing of a set is unique, so the iteration
      order is fully determined by the family. */
  lemma {:induction false} AscendingIsUnique(a: seq<Weight>, b: seq<Weight>)
    requires StrictlyAscending(a) && StrictlyAscending(b)
    requires forall w :: w in a <==> w in b
    ensures a == b
    decreases |a|
  {
    assert |a| > 0 ==> a[0] in b;
    assert |b| > 0 ==> b[0] in a;
    if |a| > 0 {
      HeadsAgree(a, b);
      TailsAgree(a, b);
      AscendingIsUnique(a[1..], b[1..]);
      assert a == [a[0]] + a[1..] && b == [b[0]] + b[1..];
    }
  }

  /** The total value of a list of weights. */
  function Sum(s: seq<Weight>): (r: nat)
    ensures |s| > 0 ==> r >= |s|
  {
    if |s| == 0 then 0 else s[0] + Sum(s[1..])
  }

  lemma {:induction false} SumAppend(a: seq<Weight>, b: seq<Weight>)
    ensures Sum(a + b) == Sum(a) + Sum(b)
    decreases |a|
  {
    if |a| == 0 {
      assert a + b == b;
    } else {
      assert (a + b)[1..] == a[1..] + b;
      SumAppend(a[1..], b);
    }
  }

  predicate Sorted(s: seq<Weight>) {
    forall i, j :: 0 <= i < j < |s| ==> s[i] <= s[j]
  }

  predicate NonIncreasing(s: seq<Weight>) {
    forall i, j :: 0 <= i < j < |s| ==> s[i] >= s[j]
  }

  /** `d` is a solution for `total`: family weights summing to it. */
  ghost predicate Decomposes(f: Family, total: int, d: seq<Weight>) {
    Sum(d) == total && forall k :: 0 <= k < |d| ==> d[k] in f
  }

  /** No solution for `total` has fewer than `len` weights. */
  ghost predicate LowerBound(f: Family, total: int, len: int) {
    forall d :: Decomposes(f, total, d) ==> len <= |d|
  }

  /** A minimum-sized solution for `total`. */
  ghost predicate Minimal(f: Family, total: int, s: seq<Weight>) {
    Decomposes(f, total, s) && LowerBound(f, total, |s|)
  }

  /** The only solution for 0 is the empty list. */
  lemma ZeroHasEmptySolution(f: Family)
    ensures Minimal(f, 0, [])
    ensures forall d :: Decomposes(f, 0, d) ==> d == []
  {
  }

  /** Two minimum-sized solutions for the same total have the same size. */
  lemma MinimalSizesAgree(f: Family, total: int, a: seq<Weight>, b: seq<Weight>)
    requires Minimal(f, total, a) && Minimal(f, total, b)
    ensures |a| == |b|
  {
    assert Decomposes(f, total, a) && Decomposes(f, total, b);
  }

  /** `solution.sort(null)` applied to a sorted list with one weight added:
      the weight goes in front of the first larger-or-equal one. */
  function InsertSorted(s: seq<Weight>, w: Weight): (r: seq<Weight>)
    ensures multiset(r) == multiset(s) + multiset{w}
    ensures |r| == |s| + 1
  {
    if |s| == 0 || w <= s[0] then
      [w] + s
    else
      assert s == [s[0]] + s[1..];
      [s[0]] + InsertSorted(s[1..], w)
  }

  /** Inserting adds `w` to the total. */
  lemma {:induction false} InsertSortedSum(s: seq<Weight>, w: Weight)
    ensures Sum(InsertSorted(s, w)) == Sum(s) + w
    decreases |s|
  {
    var r := InsertSorted(s, w);
    if |s| == 0 || w <= s[0] {
      assert r[1..] == s;
    } else {
      InsertSortedSum(s[1..], w);
      assert r[1..] == InsertSorted(s[1..], w);
    }
  }

  /** Inserting brings in no weight other than `w`. */
  lemma InsertSortedElements(s: seq<Weight>, w: Weight)
    ensures forall k :: 0 <= k < |s| + 1 ==> InsertSorted(s, w)[k] == w || InsertSorted(s, w)[k] in s
  {
    var r := InsertSorted(s, w);
    forall k | 0 <= k < |r|
      ensures r[k] == w || r[k] in s
    {
      assert r[k] in multiset(r);
    }
  }

  /** Inserting into a sorted list keeps it sorted. */
  lemma {:induction false} InsertSortedSorted(s: seq<Weight>, w: Weight)
    requires Sorted(s)
    ensures Sorted(InsertSorted(s, w))
    decreases |s|
  {
    if |s| > 0 && w > s[0] {
      var rest := InsertSorted(s[1..], w);
      InsertSortedSorted(s[1..], w);
      InsertSortedElements(s[1..], w);
      assert forall x :: x in s[1..] ==> s[0] <= x;
      PrependSmallest(s[0], rest);
    }
  }

  /** A weight no larger than any in a sorted list may go in front. */
  lemma PrependSmallest(x: Weight, s: seq<Weight>)
    requires Sorted(s) && forall k :: 0 <= k < |s| ==> x <= s[k]
    ensures Sorted([x] + s)
  {
    var r := [x] + s;
    forall i, j | 0 <= i < j < |r|
      ensures r[i] <= r[j]
    {
      assert r[j] == s[j - 1];
      if i > 0 {
        assert r[i] == s[i - 1];
      }
    }
  }

  /** Inserting into a sorted list keeps it sorted, adds `w` to the total
      and brings in no weight other than `w`. */
  lemma InsertSortedFacts(s: seq<Weight>, w: Weight)
    requires Sorted(s)
    ensures Sorted(InsertSorted(s, w))
    ensures Sum(InsertSorted(s, w)) == Sum(s) + w
    ensures forall k :: 0 <= k < |s| + 1 ==> InsertSorted(s, w)[k] == w || InsertSorted(s, w)[k] in s
  {
    InsertSortedSorted(s, w);
    InsertSortedSum(s, w);
    InsertSortedElements(s, w);
  }

  /** Adding a family weight to a solution for `total - w` gives a solution
      for `total`. */
  lemma ExtendSolution(f: Family, total: int, s: seq<Weight>, w: Weight)
    requires Sorted(s) && Decomposes(f, total - w, s) && w in f
    ensures Decomposes(f, total, InsertSorted(s, w)) && Sorted(InsertSorted(s, w))
  {
    InsertSortedFacts(s, w);
  }

  /** The total of a one- or two-weight list. */
  lemma SumOfShort(s: seq<Weight>)
    ensures |s| == 1 ==> Sum(s) == s[0]
    ensures |s| == 2 ==> Sum(s) == s[0] + s[1]
  {
    if |s| == 2 {
      assert s[1..][1..] == [];
    }
  }

  /** Taking the first weight off a solution for `total` leaves a solution
      for the rest. */
  lemma SolutionTail(f: Family, total: int, d: seq<Weight>)
    requires Decomposes(f, total, d) && |d| > 0
    ensures d[0] in f && d[0] <= total
    ensures Decomposes(f, total - d[0], d[1..])
  {
    assert d == [d[0]] + d[1..];
    SumAppend([d[0]], d[1..]);
    forall k | 0 <= k < |d[1..]|
      ensures d[1..][k] in f
    {
      assert d[1..][k] == d[k + 1];
    }
  }

  /** Candidates collected for `total`, one per family weight `w` tried:
      each is in `parts` and is at most one weight longer than any solution
      for `total - w`. */
  ghost predicate CandidatesBounded(f: Family, total: int, cands: map<Weight, seq<Weight>>, parts: set<seq<Weight>>) {
    forall w :: w in cands ==> cands[w] in parts && LowerBound(f, total - w, |cands[w]| - 1)
  }

  /** Adding a candidate for `w` that is at most one weight longer than
      any solution for `total - w` keeps the candidates bounded. */
  lemma AddCandidate(f: Family, total: int, cands: map<Weight, seq<Weight>>, parts: set<seq<Weight>>,
                     w: Weight, c: seq<Weight>)
    requires CandidatesBounded(f, total, cands, parts)
    requires LowerBound(f, total - w, |c| - 1)
    ensures CandidatesBounded(f, total, cands[w := c], parts + {c})
  {
  }

  /** Every weight among the first `i` of `ws` that fits in the total has a
      candidate. */
  ghost predicate CoversUpTo(ws: seq<Weight>, i: nat, total: int, cands: map<Weight, seq<Weight>>) {
    forall k :: 0 <= k < i && k < |ws| && ws[k] <= total ==> ws[k] in cands
  }

  /** One more weight of `ws` covered, earlier candidates kept. */
  lemma CoversStep(ws: seq<Weight>, i: nat, total: int, cands: map<Weight, seq<Weight>>, cands': map<Weight, seq<Weight>>)
    requires i < |ws| && CoversUpTo(ws, i, total, cands)
    requires cands.Keys <= cands'.Keys && (ws[i] <= total ==> ws[i] in cands')
    ensures CoversUpTo(ws, i + 1, total, cands')
  {
  }

  /** A candidate loop over the whole family, in `iterator` order, covers
      every family weight that fits. */
  lemma CoversFamily(f: Family, ws: seq<Weight>, total: int, cands: map<Weight, seq<Weight>>)
    requires ws == Iterate(f) && CoversUpTo(ws, |ws|, total, cands)
    ensures forall w :: w in f && w <= total ==> w in cands
  {
    forall w | w in f && w <= total
      ensures w in cands
    {
      assert w in ws;
    }
  }

  /** The heart of both the recursive and the dynamic-programming solver.
      Suppose that for every family weight `w <= total` a candidate has
      been collected whose size is at most one more than that of any
      solution for `total - w`.  Then the shortest candidate is no longer
      than any solution for `total`. */
  lemma {:induction false} ShortestCandidateIsMinimal(f: Family, total: int, cands: map<Weight, seq<Weight>>,
                                                      parts: set<seq<Weight>>, shortest: nat)
    requires CandidatesBounded(f, total, cands, parts)
    requires forall w :: w in f && w <= total ==> w in cands
    requires forall p :: p in parts ==> shortest <= |p|
    requires total >= 1
    ensures LowerBound(f, total, shortest)
  {
    forall d | Decomposes(f, total, d)
      ensures shortest <= |d|
    {
      assert |d| > 0;
      SolutionTail(f, total, d);
      var w := d[0];
      assert w in cands;
      assert |cands[w]| - 1 <= |d[1..]|;
    }
  }

  /** `s` is a shortest list of `parts`. */
  predicate IsShortest(parts: set<seq<Weight>>, s: seq<Weight>) {
    s in parts && forall p :: p in parts ==> |s| <= |p|
  }

  /** Every nonempty finite set of lists has a shortest member, so the
      Java code's `minimum(...).get()` succeeds on a nonempty candidate set. */
  lemma {:induction false} HasShortest(parts: set<seq<Weight>>)
    requires parts != {}
    ensures exists s :: IsShortest(parts, s)
    decreases |parts|
  {
    var x :| x in parts;
    if parts != {x} {
      HasShortest(parts - {x});
      var m :| IsShortest(parts - {x}, m);
      var shortest := if |x| < |m| then x else m;
      forall p | p in parts
        ensures |shortest| <= |p|
      {
        if p != x {
          assert p in parts - {x};
        }
      }
      assert IsShortest(parts, shortest);
    } else {
      forall p | p in parts
        ensures |x| <= |p|
      {
        assert p in {x};
      }
      assert IsShortest(parts, x);
    }
  }

  /** `minimum`: a shortest list of a nonempty candidate set.  The set is a
      hash set, so which of several equally short lists comes out is not
      determined; any of them may be returned. */
  method Shortest(parts: set<seq<Weight>>) returns (m: seq<Weight>)
    requires parts != {}
    ensures m in parts && forall p :: p in parts ==> |m| <= |p|
  {
    HasShortest(parts);
    m :| IsShortest(parts, m);
  }

  /** The family {1, 2, 5, 6} used in the solver tests. */
  function TestFamily(): (f: Family)
    ensures f == {1, 2, 5, 6}
  {
    {1, 2, 5, 6}
  }

  /** For family {1, 2, 5, 6}, the only sorted minimum-sized solution for 10
      is [5, 5]. */
  lemma MinimalTenIsTwoFives(f: Family, r: seq<Weight>)
    requires f == TestFamily()
    requires Minimal(f, 10, r) && Sorted(r)
    ensures r == [5, 5]
  {
    var five: seq<Weight> := [5, 5];
    assert Decomposes(f, 10, five);
    assert |r| <= 2;
    SumOfShort(r);
    assert r[0] in f && r[|r| - 1] in f;
  }
}

=== FILE: wrappers.dfy ===
/** Failure-carrying result types shared by every module of the model.
    Java's `null` becomes `None`; a thrown exception becomes `Failure`. */
module Wrappers {

  /** An optional value: `None` stands for the Java code's `null`. */
  datatype Option<+T> = None | Some(value: T) {

    /** The wrapped value, or `default` when absent. */
    function GetOr(default: T): T {
      match this
      case Some(v) => v
      case None => default
    }
  }

  /** Either a value or the kind of exception the Java code would throw. */
  datatype Result<+R, +E> = Success(value: R) | Failure(error: E) {

    predicate IsFailure() {
      Failure?
    }

    function PropagateFailure<U>(): Result<U, E>
      requires Failure?
    {
      Failure(error)
    }

    function Extract(): R
      requires Success?
    {
      value
    }
  }
}
